=== FILE: README.md ===
# perpus — a Dafny model of the digital library

perpus is a digital library. Readers browse, search, read online, download
and review e-books. Administrators upload, edit and delete the catalogue
and see usage statistics. It has two parts:

- a React browser client, with an authentication context, route guards, an
  axios API client and the pages that fetch and show data;
- a FastAPI/SQLAlchemy backend, with the ORM tables, the Pydantic
  schemas, the CRUD layer, JWT security and the `/auth`, `/ebooks`,
  `/ebooks/{id}/reviews` and `/admin` routers.

This project models both parts as pure Dafny functions over immutable data.

- The database is a `Store`: one sequence per table, with fresh-id counters.
- The server's disk is the set of paths of the files on it, plus the set of
  its directories. File contents are not modelled. Writing a file succeeds
  when the path names a file in an existing directory.
- Each endpoint is a function from the store, the `Authorization` header,
  the request body and an environment (the clock and the token decoder) to
  an `Outcome`. An `Outcome` holds the new store and either a response
  (status and body) or an HTTP error. Errors come in FastAPI's order:
  authentication dependencies (401/403), then body validation (422), then
  lookups (404), then the handler's own checks (400), then database
  failures (500).
- Each client component is a function from its state and the results of
  its API calls to a `Ui.Step`: the new state, the calls made and the
  effects. Effects are navigation (immediate or after a delay), alerts,
  opened windows and the new-review callback. Browser storage is part of
  the state, not an effect.
- Foreign libraries are function-typed parameters: bcrypt, python-jose,
  jwt-decode and email normalisation.

The proved properties include:

- session coherence in the auth context, and what each route guard
  renders;
- the exact request each API call sends, and that a stored token always
  authenticates;
- round trips: register then log in, upload then download, a created
  review appears in its list;
- idempotence of logout, favouriting and unfavouriting;
- the ranking behind "most downloaded", "popular" and "rating": sorted,
  drawn from the input, with nothing left out that ranks higher;
- that every endpoint keeps the store's schema invariant: unique ids,
  resolvable foreign keys, one review per user and e-book, one favourite
  per user and e-book;
- cross-layer facts in `EndToEnd`: what the client sends is what the
  backend parses.

Where the code and its documentation disagree, the model follows the code.

- `ProtectedRoute` never waits for the session to finish loading. Only
  `AdminRoute` does.
- A corrupt stored token is removed from storage, but the in-memory token
  stays. The session therefore still counts as signed in, with no user.
- Login writes the new token to storage before decoding it. An
  undecodable token is left stored while the session keeps its old
  values.
- Saving an unchanged book that has no publication year sends
  `publication_year: ""`. The update endpoint answers that with 422
  (`EndToEnd.EditingBookWithoutYearIsRefused`).
- Deleting an e-book removes its files before the database delete. If the
  delete is then refused, the files are already gone
  (`EbooksRouter.RefusedDeleteLosesFile`). A download log or a favourite
  still referencing the book causes such a refusal.
- A 204 response carries no body, even where the handler returns a
  message.
- The registration form keeps any truthy `detail` as its error. For a
  422 that detail is a list of objects, and rendering it throws
  (`EndToEnd.RefusedRegistrationBreaksRegisterForm`). The password field's
  `minLength="8"` still lets a password longer than 72 characters through,
  and the browser's email check accepts an address such as `a@b` that the
  email validator refuses.
- An upload whose file cannot be opened for writing, such as one with an
  empty file name, is answered with 500 and adds no row. When only the
  cover fails, the PDF already written stays on disk
  (`EbooksRouter.FailedCoverWriteLeavesOrphanPdf`).

## Model

| member | source | states |
|---|---|---|
| AuthContext.Mount | src/context/AuthContext.js:9-11 | the token state starts as the stored token, with no user and loading on; the session counts as signed in exactly when the stored token is truthy |
| AuthContext.Restore | src/context/AuthContext.js:13-27 | loading always ends and the in-memory token is never touched; a decodable saved token becomes the user, a corrupt one is removed from storage and the user stays as it was, no saved token changes nothing |
| AuthContext.Login | src/context/AuthContext.js:29-40 | the login request is the call made; a failed request changes nothing and is rethrown; a decodable token is stored and becomes both the token and, decoded, the user; an undecodable one is stored while token and user keep their old values |
| AuthContext.Logout | src/context/AuthContext.js:42-46 | storage, token and user are all cleared, so the session is signed out |
| AuthContext.StartupCases | src/context/AuthContext.js:9-27 | after start-up loading is off; no saved token leaves no user and no session; a decodable one yields its claims; a corrupt one clears storage yet the session still counts as signed in with no user |
| AuthContext.CoherenceIsInvariant | src/context/AuthContext.js:13-46 | start-up, login and logout all keep the user equal to the decoding of the in-memory token |
| AuthContext.UndecodableLoginDesynchronisesStorage | src/context/AuthContext.js:33-35 | a login whose token does not decode leaves storage holding the new token while the token state keeps the old one |
| AuthContext.LogoutIdempotent | src/context/AuthContext.js:42-46 | logging out twice equals logging out once |
| AuthContext.LoginThenLogoutRestores | src/context/AuthContext.js:29-46 | from a signed-out session, login then logout gives back the session before login, whatever the login's outcome |
| RouteGuards.ProtectedRoute | src/components/common/ProtectedRoute.js:7-14 | never a placeholder; renders exactly when signed in, otherwise redirects to /login |
| RouteGuards.AdminRoute | src/components/common/AdminRoute.js:9-23 | placeholder exactly while loading; after that: /login when signed out, / when signed in without the admin role (a missing user included), the page exactly for a signed-in admin |
| RouteGuards.ProtectedRouteReadsOnlyToken | src/components/common/ProtectedRoute.js:7 | two sessions with the same token get the same decision, whatever their loading flag or user |
| RouteGuards.RoleMattersOnlyToAdminRoute | src/components/common/ProtectedRoute.js:7-14 | once loaded and signed in, ProtectedRoute renders for any role while AdminRoute renders only for an admin |
| RouteGuards.ProtectedRouteBeforeRestore | src/components/common/ProtectedRoute.js:9-14 | before the restore runs, a stored token already renders the page and no token redirects to /login |
| RouteGuards.AdminRouteWaitsForRestore | src/components/common/AdminRoute.js:10-12 | before the restore AdminRoute always shows the placeholder, after it never |
| RouteGuards.CorruptTokenSession | src/components/common/AdminRoute.js:15-21 | after a corrupt stored token ProtectedRoute renders and AdminRoute redirects to /, not to /login |
| ThemeContext.InitialTheme | src/context/ThemeContext.js:8 | the stored theme when it is truthy, otherwise "light"; never empty |
| ThemeContext.Toggle | src/context/ThemeContext.js:18-20 | the result is "light" or "dark", and it is "dark" exactly when the theme was "light" |
| ThemeContext.ApplyTheme | src/context/ThemeContext.js:10-16 | the theme is stored; of the two mode classes the body keeps only the current theme's and carries it; every other class is left alone |
| ThemeContext.SynchronisedIsInvariant | src/context/ThemeContext.js:8-20 | storage and body class agree with the theme after start-up and after every toggle |
| ThemeContext.ToggleTwiceIsIdentity | src/context/ThemeContext.js:19 | toggling twice is the identity on "light" and "dark", and from any theme after the first toggle |
| ThemeContext.ForeignThemeClassSurvivesToggle | src/context/ThemeContext.js:13-19 | a stored theme such as "blue" leaves its mode class on the body after a toggle to "light" |
| HeaderNav.NavItems | src/components/common/Header.js:23-36 | Beranda always comes first; signed out shows exactly Beranda and Login; signed in shows Profil and Logout and no Login; Dasbor appears exactly for a signed-in admin |
| HeaderNav.ProfilLinkMatchesProtectedRoute | src/components/common/Header.js:24-29 | the Profil link appears exactly when ProtectedRoute would render the profile page |
| HeaderNav.DasborLinkMatchesAdminRoute | src/components/common/Header.js:26-28 | once loading has ended the Dasbor link appears exactly when AdminRoute would render the dashboard; while loading it may appear while the guard still shows its placeholder |
| HeaderNav.LinksPointAtKnownPaths | src/components/common/Header.js:23-35 | every link points at /, /admin/dashboard, /profile or /login |
| AppRoutes.FirstMatch | src/App.js:25-73 | a found route is in the table and matches the path; none found means no route matches. A literal segment matches ignoring letter case, as no route sets caseSensitive |
| AppRoutes.VisitPath | src/App.js:25-73 | an unknown path shows nothing; otherwise the resolved route's page under its guard's decision, where literal segments match in any letter case and trailing slashes are ignored |
| AppRoutes.TrimTrailingSlashes | src/App.js:25-73 | the path with its trailing run of empty segments (trailing slashes) removed: a prefix of the path, ending in a non-empty segment, with only empty segments cut |
| AppRoutes.VisitIgnoresTrailingSlash | src/App.js:25-73 | a path with one more trailing slash, as /login/ for /login, shows the same page under the same guard |
| AppRoutes.TrimIgnoresCase | src/App.js:25-73 | trimming trailing slashes from two paths that agree up to letter case leaves paths that still agree |
| AppRoutes.TrimKeepsPath | src/App.js:25-73 | a path whose last segment is not empty is left as it is by trimming |
| AppRoutes.VisitIgnoresCase | src/App.js:25-73 | two paths whose segments agree up to letter case show the same page under the same guard |
| AppRoutes.FirstMatchIgnoresCase | src/App.js:25-73 | the first match of any route list is the same for two paths that agree up to letter case |
| AppRoutes.LiteralMatchesFolded | src/App.js:25-73 | a literal segment of the table matches a path segment exactly when that segment folds to the literal |
| AppRoutes.GuardsFollowPathPrefix | src/App.js:25-73 | a route is admin-only exactly when its path starts with admin, and only /profile is wrapped in ProtectedRoute |
| AppRoutes.RoutesDoNotOverlap | src/App.js:25-73 | no path matches two routes of the table |
| AppRoutes.FirstMatchFindsTheMatchingRoute | src/App.js:25-73 | when no earlier route matches, the first match is the route that matches |
| AppRoutes.ResolveByMatch | src/App.js:25-73 | a path resolves to the one route whose pattern it matches |
| AppRoutes.DistinctRoutesDifferAtALiteral | src/App.js:25-73 | two routes of equal length have literal segments at the same place that differ even after case folding |
| AppRoutes.AdminPathsRequireAdmin | src/App.js:41-72 | every page under /admin, with admin in any letter case, is decided by AdminRoute and renders only for a loaded, signed-in admin |
| AppRoutes.ProfileIsProtected | src/App.js:30-37 | /profile in any letter case shows the profile page under ProtectedRoute |
| AppRoutes.PublicPathsAreUnguarded | src/App.js:27-38 | /, /login, /register and every /ebook/<id> with a non-empty id, the literal in any letter case, render for anyone; /ebook/ is /ebook once the trailing slash is ignored, and matches no route |
| AppRoutes.EbookWithoutIdShowsNothing | src/App.js:25-73 | /ebook and /ebook/, the literal in any letter case, show nothing |
| AppRoutes.EbookAloneMatchesNothing | src/App.js:25-73 | no route of the table matches the single segment ebook, in any letter case |
| AppRoutes.NoSegmentMatchesEmpty | src/App.js:25-73 | no segment of the table, literal or `:param`, matches an empty path segment |
| AppRoutes.EmptySegmentMatchesNothing | src/App.js:25-73 | a path with an empty segment before a non-empty one, as /ebook//x, resolves to no route |
| AppRoutes.LiteralsAreLowerCase | src/App.js:25-73 | every literal of the table is its own case folding |
| ApiClient.Prepare | src/services/api.js:23-117 | no operation sets a header of its own, and only the download asks for the response as a blob |
| ApiClient.Intercept | src/services/api.js:9-21 | only the headers change; a truthy stored token adds Authorization with the Bearer credentials, other headers are kept, and with no truthy token the request is unchanged |
| ApiClient.AuthorizationHeaderIffStoredToken | src/services/api.js:11-15 | whatever the call, the request leaves with an Authorization header exactly when a truthy token is stored, and then with that header alone |
| ApiClient.SearchParamIffTruthyQuery | src/services/api.js:25-28 | the catalogue request carries a search parameter exactly when the query is truthy, and no other parameter |
| ApiClient.EbookCallsAddressTheirEbook | src/services/api.js:46-117 | download, detail, reviews, add review, delete and update all address a path under /ebooks/<id> |
| ApiClient.DownloadFile | src/services/api.js:46-68 | the request is a GET of /ebooks/<id>/download as a blob; a successful response is saved as <title>.pdf and a failure is rethrown unchanged |
| AuthForms.SubmitLogin | src/components/auth/LoginForm.js:15-32 | an empty email or password only sets the empty-field message; otherwise the session's login is called once, success clears the error and goes home, and any failure shows the wrong-credentials message without navigating |
| AuthForms.LoginFailureMessageIsUniform | src/components/auth/LoginForm.js:25-31 | a rejected request and an undecodable token end in the same message |
| AuthForms.SuccessfulLoginAuthenticates | src/components/auth/LoginForm.js:22-27 | a login answered with a decodable token leaves the session authenticated, clears the error and navigates to / |
| AuthForms.SubmitRegister | src/components/auth/RegisterForm.js:14-32 | an empty field sends nothing and sets the fixed message; otherwise one register call; success clears the error, alerts and goes to /login; failure keeps the server's detail whenever it is truthy, whether text or a validation list, else the fixed failure message, and never leaves the error empty |
| AuthForms.RegisterErrorView | src/components/auth/RegisterForm.js:14-37 | what the error paragraph shows for every outcome: the fixed messages, a text detail as itself, nothing after success, and a throwing render for a non-empty validation list |
| EbookDetailPage.Initial | src/pages/EbookDetailPage.js:17-20 | the page starts loading, with no book, no reviews and no download running |
| EbookDetailPage.FetchDetails | src/pages/EbookDetailPage.js:24-41 | the book and its reviews are requested together; both are taken only when both requests succeed, otherwise the state is unchanged; loading always ends |
| EbookDetailPage.HandleReviewAdded | src/pages/EbookDetailPage.js:44-46 | the new review is put in front of the list and nothing else changes |
| EbookDetailPage.HandleDownloadClick | src/pages/EbookDetailPage.js:49-64 | signed out: nothing is requested and the visitor goes to /login with the explanation; signed in: the file is requested under the book's title, a failure (or a missing book, which throws inside the try) alerts, and the download flag ends off |
| EbookDetailPage.HandleReadOnlineClick | src/pages/EbookDetailPage.js:67-70 | opens <base>/ebooks/<id>/read in a new tab and changes nothing else |
| EbookDetailPage.CoverUrl | src/pages/EbookDetailPage.js:80-82 | a truthy cover path is served from the backend's base address; otherwise the fixed placeholder |
| EndToEnd.UploadedCoverIsShown | src/pages/EbookDetailPage.js:80-82 | after a successful upload, the new e-book's cover address is the backend address of the cover file the upload wrote, /uploads/<name> for a relative name, and that file is on disk |
| EndToEnd.StoredCoverAddress | src/pages/EbookDetailPage.js:80-82 | an e-book whose cover was stored under an upload name is shown with the cover from <base>/<joined path>, which is <base>/uploads/<name> for a relative name |
| EndToEnd.ReadOnlineOpensTheBooksPdf | src/pages/EbookDetailPage.js:67-70 | the read-online button of a stored e-book's page opens one tab whose id parses back to the e-book's id, and the public reader endpoint answers it with that e-book's PDF inline while the file is on disk |
| EbookDetailPage.View | src/pages/EbookDetailPage.js:72-121 | the loading text exactly while loading, not-found exactly when loading is over with no book; otherwise the book with the review form exactly for signed-in visitors and the download button disabled exactly while downloading |
| EbookDetailPage.FailedFetchShowsNotFound | src/pages/EbookDetailPage.js:27-37 | when either request fails the page settles on not-found |
| EbookDetailPage.SignedOutVisitorCannotDownloadOrReview | src/pages/EbookDetailPage.js:50-53 | a signed-out visitor never sends a download request and never sees the review form |
| EbookDetailPage.ReviewsStayNewestFirst | src/pages/EbookDetailPage.js:44-46 | reviews added one after another are listed newest first, ahead of the fetched ones |
| EditEbookPage.FormOf | src/pages/AdminEditEbookPage.js:26-32 | title and author are taken as loaded; a missing or empty description becomes "" and a missing or zero year becomes "" |
| EditEbookPage.Load | src/pages/AdminEditEbookPage.js:21-40 | the book is requested once; success fills the form from it, failure keeps the form and sets the load error; loading ends either way |
| EditEbookPage.HandleChange | src/pages/AdminEditEbookPage.js:42-45 | the edited field becomes the input's text and every other field and flag is kept |
| EditEbookPage.Payload | src/pages/AdminEditEbookPage.js:53 | the update body has exactly the four keys title, author, description and publication_year, each with the form's value |
| EditEbookPage.Submit | src/pages/AdminEditEbookPage.js:47-59 | the whole form is sent as one update; success shows the success message alone and returns to /admin/ebooks after 1500 ms; failure shows the error alone and stays |
| EditEbookPage.ChangesToDifferentFieldsCommute | src/pages/AdminEditEbookPage.js:42-45 | edits to two different fields give the same form in either order |
| EditEbookPage.UntouchedSubmitEchoesLoadedBook | src/pages/AdminEditEbookPage.js:26-53 | saving a just-loaded book unedited sends its title and author back unchanged, and the year as "" when the book has none |
| ManageEbooksPage.LoadEbooks | src/pages/AdminManageEbooksPage.js:11-23 | the whole catalogue is requested without a search term; success replaces the list, failure keeps it; loading ends either way |
| ManageEbooksPage.WithoutIdContents | src/pages/AdminManageEbooksPage.js:29 | exactly the entries with another id remain, each as often as before, and a list without that id is returned unchanged |
| ManageEbooksPage.HandleDelete | src/pages/AdminManageEbooksPage.js:25-36 | a declined confirmation does nothing; a confirmed one sends one delete; success drops that id from the list and alerts success, failure keeps the list and alerts failure |
| ManageEbooksPage.WithoutIdKeepsOrder | src/pages/AdminManageEbooksPage.js:29 | filtering a concatenation is concatenating the filtered parts, so survivors keep their order |
| ManageEbooksPage.DeleteTwiceIsDeleteOnce | src/pages/AdminManageEbooksPage.js:29 | removing an id a second time removes nothing more |
| ManageEbooksPage.FailedLoadLeavesEmptyList | src/pages/AdminManageEbooksPage.js:8-20 | a failed first load leaves an empty list with loading over |
| ReviewForm.Submit | src/components/reviews/AddReviewForm.js:12-33 | an empty comment sends nothing and shows the empty-comment error; otherwise one review is posted with the chosen rating and comment; success resets the form to rating 5 with no comment, shows the success message and hands the created review to the page; failure keeps the input and shows the error text |
| ReviewForm.ErrorText | src/components/reviews/AddReviewForm.js:29-31 | the server's detail whenever it is truthy, whether text or a validation list, else the fixed failure message; never empty text |
| ApiClient.DetailOr | src/components/auth/RegisterForm.js:28-29 | `detail || fallback` under JavaScript truthiness: a non-empty string or any list is kept, an absent or empty detail gives the fallback |
| Ui.RenderError | src/components/auth/RegisterForm.js:37 | an empty string renders nothing, other text renders as itself, an empty list renders an empty paragraph, and a non-empty list of validation objects makes React throw |
| ReviewForm.RatingOptionsAreOneToFive | src/components/reviews/AddReviewForm.js:46-50 | the selector offers exactly the ratings 1 to 5 |
| ReviewForm.MessagesAreExclusive | src/components/reviews/AddReviewForm.js:14-31 | no submission leaves an error and a success message showing together |
| UploadForm.FormParts | src/components/ebook/EbookUploadForm.js:37-43 | six parts named title, author, description, publication_year, pdf_file and cover_image in that order, each carrying its field's value or file |
| UploadForm.Submit | src/components/ebook/EbookUploadForm.js:25-57 | an incomplete form only sets the missing-fields error and sends nothing; a complete one uploads once; success shows the success message alone and returns to /admin/ebooks after 2000 ms, failure shows the failure message alone; the upload flag ends off and the inputs are untouched |
| UploadForm.OptionalFieldsDoNotBlockSubmit | src/components/ebook/EbookUploadForm.js:27 | changing description or year never decides whether the form is sent |
| UploadForm.MissingRequiredFieldSendsNothing | src/components/ebook/EbookUploadForm.js:27-30 | missing title, author, PDF or cover means no request and the missing-fields error |
| Common.ContainsItself | crud.py:43-50 | a title or author is found by searching for its own text, whatever the letter case |
| Common.Basename | app/routers/ebooks.py:121 | the last path component: it holds no /, is a suffix of the path, and is preceded by / whenever it is shorter than the path |
| Seqs.Filter | crud.py:11 | a WHERE clause keeps exactly the rows that satisfy it, in table order, and keeps a table whose rows all satisfy it unchanged |
| Seqs.FilterPartition | crud.py:43-50 | a condition and its negation split the rows between them with every row counted once |
| Seqs.Count | crud.py:179 | COUNT over a condition is zero exactly when no row satisfies it |
| Seqs.CountAppend | crud.py:159-165 | appending a row raises a count by one exactly when the row satisfies its condition |
| Seqs.AppendFreshKey | crud.py:21-23 | inserting a row with the next auto-increment value keeps primary keys ascending and below the counter |
| Seqs.FilterKeepsKeysAscending | crud.py:128-129 | deleting rows keeps the remaining primary keys ascending |
| Seqs.AscendingKeysIdentify | crud.py:102-104 | two rows with one primary key are the same row |
| Seqs.Window | crud.py:75 | OFFSET skip LIMIT limit keeps the contiguous run of at most limit rows starting skip rows in, and is empty past the end |
| Ranking.Insert | crud.py:184 | placing a row into a descending order keeps it descending and adds exactly that row |
| Ranking.SortDesc | crud.py:184 | ORDER BY key DESC: a permutation of the rows whose keys never increase |
| Ranking.SortStrictlyDescendingIsIdentity | crud.py:71-73 | rows already in strictly descending key order are left in place by the sort |
| Ranking.PrefixOfSorted | crud.py:185 | cutting a sorted list keeps it sorted and leaves out nothing that outranks a kept row |
| Ranking.TopN | crud.py:184-185 | ORDER BY key DESC LIMIT n: min(n, rows) rows drawn from the input, in descending key order, and no row left out has a larger key than a kept one |
| Ranking.TopNDrawsFromInput | crud.py:184-185 | every row of the top n is a row of the input |
| Ranking.TopNKeepsAllWhenFew | crud.py:184-185 | with no more than n rows the top n holds every one of them |
| Ranking.SortDescKeepsMembers | crud.py:184 | sorting keeps exactly the same rows |
| Ranking.TopNHeadIsMaximal | crud.py:242 | the first of the top n has the largest key of all rows |
| Ranking.LeftOutOfTopN | crud.py:184-185 | a row that missed the top n has a key no larger than any kept row |
| Ranking.UniqueMaximumHeadsTopN | crud.py:244-246 | a row whose key beats every other row heads the top n |
| Crud.GetUserByEmail | crud.py:9-11 | a user with exactly that email from the table, and none exactly when no user has it |
| Crud.GetUserByEmailFindsOwner | crud.py:9-11 | with unique emails, looking up a stored user's email finds that user |
| Crud.CreateUser | crud.py:13-24 | fails exactly when the email is taken (the unique constraint); otherwise appends one user with the hashed password and the default user role, touching no other table |
| Crud.CreateUserKeepsValid | crud.py:13-24 | a successful insert keeps every constraint of the store |
| Crud.JoinPath | crud.py:80 | os.path.join: an absolute name replaces the directory, otherwise one / joins them |
| Crud.UploadPathKeepsName | crud.py:80-85 | an upload name without / is stored as uploads/<name> and its basename gives the name back |
| Crud.CreateEbook | crud.py:77-101 | the row is added exactly when both paths can be opened for writing; then it carries the form's fields and both upload paths and both files are on disk; a PDF path that cannot be opened changes nothing; a cover path that cannot be opened leaves the PDF on disk and adds no row |
| Crud.ContainingDirectory | crud.py:80-86 | the directory a path writes into: "." for a bare name, otherwise the text before the last / (the root for a leading one) |
| Crud.PlainNameCanBeCreated | crud.py:80-81 | a non-empty name without / can be written into an existing upload directory unless a directory has that path |
| Crud.EmptyNameCannotBeCreated | crud.py:80-81 | an empty upload name joins to uploads/, the directory itself, which cannot be opened for writing |
| Crud.SameUploadNameSharesPath | crud.py:80-82 | after one successful upload, a second with the same PDF name succeeds exactly when its cover can be written, and then uses the same path, so it replaces the first file |
| Crud.CreateEbookKeepsValid | crud.py:77-101 | a successful creation keeps every constraint of the store |
| Crud.GetEbook | crud.py:102-104 | a row with that id, and none exactly when no row has it |
| Crud.GetEbookFindsRow | crud.py:102-104 | in a valid store looking up a row's id finds that row |
| Crud.ParseSortBy | crud.py:53-73 | "popular", "rating" and "newest" each select their order; every other value, or none, the default |
| Crud.SearchFilter | crud.py:43-50 | with a truthy term exactly the rows whose title or author contains it ignoring case; otherwise all rows |
| Crud.PopularOrder | crud.py:53-60 | exactly the e-books with at least one download, most downloaded first |
| Crud.JoinNulls | crud.py:66 | a descending run of set keys and a run of NULL keys, joined in either order, are ordered with the NULLs at that end |
| Crud.SortKeepsProperty | crud.py:61-70 | a property of every input row holds of every sorted row |
| Crud.NullsOrder | crud.py:61-70 | a permutation of the rows with set keys descending and NULL keys together at the chosen end |
| Crud.YearKey | crud.py:70 | the publication year as a key, NULL exactly when the year is |
| Crud.RatingSumBounds | crud.py:66 | n ratings between 1 and 5 sum to between n and 5n |
| Crud.AverageRating | crud.py:64-66 | AVG of the ratings, NULL exactly when the e-book has no review |
| Crud.AverageRatingInRange | crud.py:66 | in a valid store every average rating lies between 1 and 5 |
| Crud.MeanInRange | crud.py:66 | the mean of ratings between 1 and 5 lies between 1 and 5 |
| Crud.IdOrder | crud.py:71-73 | a permutation of the rows in ascending id order |
| Crud.Listing | crud.py:40-73 | only matching rows of the table; every order but popular keeps all of them; popular keeps exactly the downloaded ones by download count; newest and rating are descending with NULLs together (rating NULLs last); the default ascends by id |
| Crud.WindowKeepsOrder | crud.py:75 | the offset/limit window of an ordered listing is still ordered |
| Crud.GetEbooks | crud.py:30-75 | exactly the rows of the searched, ordered listing from offset skip, min(limit, rows left) of them; so all from the table, matching the search, in the requested order |
| Crud.DefaultListingIsTableOrder | crud.py:71-75 | with no search and the default order a page is exactly the window of the table |
| Crud.SearchIsExact | crud.py:43-50 | with a limit as large as the table, a search returns exactly the e-books whose title or author contains the term |
| Crud.UpdateEbook | crud.py:106-118 | fails exactly when the update sets the title to null; otherwise the row becomes the update applied to it, with its id, and every other row stays |
| Crud.UpdateEbookKeepsValid | crud.py:106-118 | a successful update keeps every constraint of the store |
| Crud.RemoveEbookFiles | crud.py:122-125 | the PDF and the cover are gone from disk when their paths are set, and every other file stays |
| Crud.DeleteEbook | crud.py:120-130 | the files are removed whatever happens next; the row delete fails exactly when favourites or activity entries still refer to the e-book, and otherwise removes it with its reviews and keeps every other e-book |
| Crud.DeleteEbookKeepsValid | crud.py:120-130 | a successful delete keeps every constraint of the store |
| Crud.DownloadedEbookCannotBeDeleted | crud.py:120-130 | a downloaded e-book's delete fails, yet its PDF is already gone |
| Crud.GetFavorite | crud.py:133-135 | an entry for exactly that user and e-book, and none exactly when no such entry exists |
| Crud.AddToFavorites | crud.py:137-147 | an existing entry is returned with nothing written; otherwise one entry is appended, failing exactly when the user or e-book is missing |
| Crud.AddToFavoritesIdempotent | crud.py:139-141 | adding the same favourite again returns the same entry and store |
| Crud.AddToFavoritesKeepsValid | crud.py:137-147 | adding a favourite keeps every constraint of the store |
| Crud.RemoveFromFavorites | crud.py:149-152 | exactly that entry leaves the favourites and no other table changes |
| Crud.RemoveFromFavoritesKeepsValid | crud.py:149-152 | removing a favourite keeps every constraint of the store |
| Crud.AddThenRemoveLeavesNoFavorite | crud.py:137-152 | removing the entry that adding returned leaves no favourite for the pair |
| Crud.GetUserFavorites | crud.py:154-156 | exactly the e-books this user marked as favourite |
| Crud.CreateActivityLog | crud.py:159-165 | appends one entry with the user, e-book, action and time, failing exactly when the user or e-book is missing |
| Crud.CreateActivityLogKeepsValid | crud.py:159-165 | logging keeps every constraint of the store |
| Crud.DownloadLogCounts | crud.py:159-165 | a new download entry raises that e-book's download count by one and no other e-book's |
| Crud.GetUserActivityLogs | crud.py:167-169 | exactly this user's entries, each as often as stored, newest first |
| Crud.EbookStats | crud.py:176-183 | one row per e-book of the input with at least one download, carrying its download count |
| Crud.EbookStatsCountsDownloaded | crud.py:176-183 | the join has exactly as many rows as the input has downloaded e-books |
| Crud.GetMostDownloadedEbooks | crud.py:172-188 | exactly min(limit, number of downloaded e-books) rows, each a stored e-book downloaded at least once with its exact count, most downloaded first |
| Crud.FewDownloadedAllShown | crud.py:172-188 | when no more than limit e-books were downloaded, every one of them is listed with its count |
| Crud.GetTotalUsersCount | crud.py:192-194 | the number of users, zero exactly when there is none |
| Crud.UserStats | crud.py:200-206 | one row per user of the input with at least one activity entry of any kind, carrying the entry count |
| Crud.UserStatsCountsActive | crud.py:200-206 | the join has exactly as many rows as the input has active users |
| Crud.GetMostActiveUsers | crud.py:196-211 | exactly min(limit, number of active users) rows, each a stored user with at least one activity entry and its exact count, most active first |
| Crud.FewActiveAllShown | crud.py:196-211 | when no more than limit users did anything, every one of them is listed with its count |
| Crud.CreateEbookReview | crud.py:214-233 | nothing is written when the user already reviewed the e-book; otherwise one review is appended with the given rating and comment, failing exactly when the user or e-book is missing |
| Crud.CreateEbookReviewKeepsValid | crud.py:214-233 | a review with a rating from 1 to 5 keeps every constraint of the store |
| Crud.SecondReviewRefused | crud.py:217-223 | after a first review, a second by the same user for the same e-book writes nothing |
| Crud.GetEbookReviews | crud.py:235-237 | exactly this e-book's reviews in table order from offset skip, min(limit, reviews left) of them; from offset 0 with a limit covering the table, all of them |
| Crud.ReviewsOf | crud.py:235-237 | the reviews of one e-book are exactly the stored reviews with its id |
| Crud.ReviewsOfAppend | crud.py:235-237 | a new review joins the end of its own e-book's reviews and no other e-book's |
| Crud.GetLatestUsers | crud.py:240-242 | min(limit, users) users with ids descending, and no user left out is newer than one listed |
| Crud.GetLatestEbooks | crud.py:244-246 | min(limit, e-books) e-books with ids descending, and no e-book left out is newer than one listed |
| Models.RoleName | models.py:6 | the enum's labels: "user" exactly for the user role and "admin" exactly for the admin role |
| Models.EmptyStoreIsValid | models.py:8-70 | an empty database satisfies every key, unique, foreign-key and application constraint |
| Models.InsertUser | models.py:8-14 | refused exactly when the email is taken; otherwise one user with the next id is appended and the counter moves on |
| Models.InsertEbook | models.py:20-28 | always succeeds; one e-book with the next id is appended and no other table changes |
| Models.InsertFavorite | models.py:43-47 | refused exactly when the user or the e-book is missing; otherwise one entry with the next id is appended |
| Models.InsertLog | models.py:51-57 | refused exactly when the user or the e-book is missing; otherwise one entry with the next id and the server time is appended |
| Models.InsertReview | models.py:61-68 | refused exactly when the user or the e-book is missing; otherwise one review with the next id and the server time is appended |
| Models.ReplaceEbook | models.py:20-28 | the row with the new row's id is replaced, every other row and the length stay |
| Models.DeleteFavoriteRow | models.py:43-47 | exactly the entry with that id leaves the favourites and nothing else changes |
| Models.DeleteEbookRow | models.py:30 | refused exactly when a favourite or an activity entry still refers to the e-book (their foreign keys have no cascade); otherwise the e-book goes together with its reviews and category links |
| Models.DeleteUserRow | models.py:16-18 | the user goes together with all of their favourites, activity entries and reviews, and nothing else changes |
| Models.InsertUserKeepsSchema | models.py:10-14 | a successful user insert keeps keys ascending, emails unique and every foreign key satisfied |
| Models.InsertEbookKeepsSchema | models.py:22-28 | an e-book insert keeps every schema constraint |
| Models.InsertFavoriteKeepsSchema | models.py:45-47 | a successful favourite insert keeps every schema constraint |
| Models.InsertLogKeepsSchema | models.py:53-55 | a successful activity insert keeps every schema constraint |
| Models.InsertReviewKeepsSchema | models.py:63-67 | a successful review insert keeps every schema constraint |
| Models.ReplaceEbookKeepsSchema | models.py:22 | replacing an e-book by a row with the same id keeps every schema constraint |
| Models.DeleteFavoriteRowKeepsSchema | models.py:45 | deleting a favourite keeps every schema constraint |
| Models.DeleteEbookRowKeepsSchema | models.py:30-41 | a successful e-book delete leaves no dangling reference and keeps every schema constraint |
| Models.DeleteUserRowKeepsSchema | models.py:16-18 | the user cascades leave no dangling reference and keep every schema constraint |
| Models.DeleteUserLeavesNoTrace | models.py:16-18 | after a user is deleted, no favourite, activity entry or review refers to that user |
| Schemas.ParseInt | app/routers/ebooks.py:37 | the empty string is no integer, and a parsed value without a leading minus sign came from digits only and is not negative |
| Schemas.ParseNatToString | app/routers/ebooks.py:55 | the decimal text the client puts into a path parses back to the same number |
| Schemas.ParseUserCreate | app/schemas.py:6-9 | valid exactly when the name is a string, the email a valid address and the password 8 to 72 characters long; the fields are then taken as sent with the email normalised; an invalid body names at least one field |
| Schemas.UserResponse | app/schemas.py:11-16 | id, name and email of the user, the role as "user" or "admin", and no password hash |
| Schemas.FormGet | app/routers/ebooks.py:34-39 | the value of a part sent under the name after which no part has that name, and none exactly when no part has that name |
| Schemas.FormGetFindsLast | app/routers/ebooks.py:34-39 | whatever precedes it, the part last sent under a name is the one found |
| Schemas.LastSentAtExtends | app/routers/ebooks.py:34-39 | the last part under a name stays the last when a part under another name follows |
| Schemas.ParseUploadForm | app/routers/ebooks.py:33-39 | accepted exactly when title and author are non-empty text, the description is not a file, the year is absent or an integer and both files are present; the title and author are then kept, and an empty description or year becomes absent |
| Schemas.ParseEbookUpdate | app/schemas.py:46-50 | accepted exactly when title, author and description are strings or null and the year an integer or null wherever they appear; only fields present in the body are set; a year sent as "" is refused by name |
| Schemas.EmptyUpdateIsValid | app/schemas.py:46-50 | an empty body is an update that sets nothing |
| Schemas.ApplyUpdate | crud.py:109-113 | refused exactly when the title is set to null; otherwise the fields the update sets are written and id, file path, cover and every unset field are kept |
| Schemas.ApplyUpdateIdentityAndIdempotent | crud.py:109-113 | an update without fields changes nothing, and applying an update again changes nothing more |
| Schemas.EbookResponse | app/schemas.py:30-38 | the row's public fields unchanged, without the file path, with exactly the linked categories and none when the book has no links |
| Schemas.ParseReviewCreate | app/schemas.py:81-83 | accepted exactly when the rating is an integer from 1 to 5 and the comment a string or null; the rating and a string comment are kept |
| Schemas.ReviewBodyValidIffRatingInRange | app/schemas.py:82 | a body with a numeric rating and a text comment is accepted exactly when the rating is between 1 and 5 |
| Schemas.StoredReviewsPassResponseCheck | app/schemas.py:75 | every review in a valid store passes the response schema's rating check |
| Security.AccessTokenClaims | app/security.py:31-38 | the token carries every given claim unchanged plus an exp claim the configured number of minutes after now |
| Security.BearerToken | app/security.py:40 | a token exactly when the Authorization header is non-empty with the scheme bearer in any case, and then the text after the first space; otherwise 401 Not authenticated |
| Security.BearerHeaderRoundTrip | app/security.py:40 | the header "Bearer <token>" yields exactly that token |
| Security.GetCurrentUser | app/security.py:42-70 | succeeds exactly when the header carries a bearer token that decodes, has not expired, has a subject and names a stored user's email, and then gives that user; every failure is 401, "Not authenticated" when the header is missing or not bearer |
| Security.GetCurrentAdminUser | app/security.py:72-81 | authentication failures pass through unchanged; an authenticated non-admin gets 403; a success is always a stored admin |
| Security.AuthenticationReadsOnlyUsers | app/security.py:42-70 | two stores with the same users table authenticate every request alike, at the user gate and the admin gate |
| Security.IssuedTokenAuthenticatesUntilExpiry | app/security.py:31-70 | a token issued to a stored user authenticates that user at every moment up to its expiry and is refused with 401 after it |
| Security.AdminGateFollowsStoredRole | app/security.py:72-81 | a live token passes the admin gate exactly when the stored user is an admin |
| AuthRouter.RegisterUser | app/routers/auth.py:14-26 | an invalid body answers 422 and a taken email 400, both leaving the store alone; it succeeds exactly when the body is valid and the email is free, and then appends one user with the hashed password and the user role and answers 201 with that user |
| AuthRouter.UrlFormValue | app/routers/auth.py:29 | a value is found only when non-empty and sent under the name with no later pair under that name, and none is found exactly when every value sent under the name is empty or followed by a later one |
| AuthRouter.ParseLoginForm | app/routers/auth.py:29 | accepted exactly when username and password are sent non-empty and grant_type is absent or "password", and then carries those two values |
| AuthRouter.LoginForAccessToken | app/routers/auth.py:28-50 | an invalid form answers 422; a token is issued exactly when the username is a stored email and the password matches its hash; otherwise the one 401 "Email atau password salah"; the token is a bearer token for that user's email and role |
| AuthRouter.ClientLoginFormParses | app/routers/auth.py:29-34 | the two-field form the client sends parses to its email and password |
| AuthRouter.RegisterThenLogin | app/routers/auth.py:14-50 | whoever registers can log in with the same password, and the token authenticates them until it expires |
| AuthRouter.RegisterTwice | app/routers/auth.py:19-24 | a second registration with the same email is answered 400 and changes nothing |
| AuthRouter.LoginFailureDoesNotRevealEmail | app/routers/auth.py:37-42 | an unknown email and a wrong password get the same answer |
| AuthRouter.RegisterKeepsValid | app/routers/auth.py:14-26 | registration keeps every constraint of the store |
| ReviewsRouter.ReviewReply | app/schemas.py:73-79 | the review with its author, failing with 500 exactly when the rating fails the response check or the author is missing |
| ReviewsRouter.ReviewReplies | app/routers/reviews.py:35-44 | succeeds exactly when every review renders, and then renders each review in order; any failure is a 500 |
| ReviewsRouter.CreateReviewForEbook | app/routers/reviews.py:14-33 | authentication failures first, then 422 for a bad body, 404 for an unknown e-book and 400 when this user already reviewed it; a success appends exactly one review by the current user for this e-book and answers 201 with it; a failure leaves the store unchanged, except a 500 after the commit, which keeps that one review |
| ReviewsRouter.ReadReviewsForEbook | app/routers/reviews.py:35-44 | 404 for an unknown e-book; otherwise 200 with the rendered first min(100, count) reviews of this e-book in table order, or 500 when one of those cannot be rendered |
| ReviewsRouter.ReadReviewsSucceeds | app/routers/reviews.py:35-44 | in a valid store listing the reviews of an existing e-book never fails |
| ReviewsRouter.SecondReviewAnswers400 | app/routers/reviews.py:29-31 | a second review by the same user for the same e-book is answered 400 and changes nothing |
| ReviewsRouter.CreatedReviewIsListed | app/routers/reviews.py:14-44 | a review just created appears in the e-book's review list while that e-book had fewer than 100 reviews |
| ReviewsRouter.StoredReviewIsListed | app/routers/reviews.py:35-44 | in a valid store, every review of an existing e-book with at most 100 reviews appears in its list |
| ReviewsRouter.CreateReviewKeepsValid | app/routers/reviews.py:14-33 | creating a review keeps every constraint of the store |
| EbooksRouter.EbookResponses | app/routers/ebooks.py:16 | one response per row, in order, each the row's public view |
| EbooksRouter.ReadEbooks | app/routers/ebooks.py:16-30 | always 200 with the public views of exactly the listing's rows from offset skip, min(limit, rows left) of them, each a stored e-book that matches the search |
| EbooksRouter.UploadedEbookIsListed | app/routers/ebooks.py:16-53 | after a successful upload, the new e-book is on the first unsearched page in any order but popular once the limit covers the catalogue |
| EbooksRouter.StoredEbookIsListed | app/routers/ebooks.py:16-30 | every stored e-book is on the first unsearched page in any order but popular once the limit covers the catalogue |
| EbooksRouter.ResponsesOfMatches | app/routers/ebooks.py:16-30 | every rendered row comes from a stored e-book that matches the search |
| EbooksRouter.CreateNewEbook | app/routers/ebooks.py:32-53 | the admin gate answers first, then 422 for an invalid form; a file that cannot be written gives 500 with the store unchanged and the disk as the write left it; a success stores the new row and both files and answers 201 with it |
| EbooksRouter.FailedCoverWriteLeavesOrphanPdf | crud.py:80-88 | when the PDF can be written but the cover cannot, the upload answers 500, adds no row, and leaves the PDF on disk |
| EbooksRouter.ReadEbookDetail | app/routers/ebooks.py:54-62 | 404 "Ebook not found" exactly when no e-book has the id; otherwise 200 with that e-book |
| EbooksRouter.UpdateExistingEbook | app/routers/ebooks.py:64-78 | the admin gate first, then 422 for an invalid body, 404 for an unknown id and 500 for a null title; a success answers 200 with the row updated in place; a failure changes nothing |
| EbooksRouter.DeleteExistingEbook | app/routers/ebooks.py:80-95 | the admin gate first, then 404 for an unknown id; otherwise the files are removed in every case, and the answer is 204 with the row gone or 500 with the rows left as they were |
| EbooksRouter.StoredFile | app/routers/ebooks.py:109-116 | the e-book when its path is set and the file is on disk; otherwise "Ebook not found" for an unknown id and "File not found on server" for a missing file |
| EbooksRouter.DownloadEbook | app/routers/ebooks.py:98-124 | authentication first, then the two 404s; a success appends exactly one download entry for this user and e-book, leaves the files alone and sends the PDF as an attachment named after the file's basename; a failure changes nothing |
| EbooksRouter.ReadEbookOnline | app/routers/ebooks.py:127-144 | public; fails exactly as the stored-file check does, and otherwise sends the PDF inline without recording anything |
| EbooksRouter.AddEbookToFavorites | app/routers/ebooks.py:148-162 | authentication first, then 404 for an unknown e-book; a success leaves the e-book among the user's favourites and answers 201 with it, whether or not it was one already |
| EbooksRouter.RemoveEbookFromFavorites | app/routers/ebooks.py:164-177 | authentication first; 404 "Favorite entry not found" when the user has no such favourite; a success removes that entry and answers 204 |
| EbooksRouter.UploadThenDownload | app/routers/ebooks.py:32-124 | a book an admin uploads can be downloaded at once by any signed-in user, under the name its PDF was uploaded with |
| EbooksRouter.RefusedDeleteLosesFile | app/routers/ebooks.py:80-144 | deleting a downloaded book answers 500 and keeps the row, but its file is gone, so both download and reading answer "File not found on server" |
| EbooksRouter.AddFavoriteTwice | app/routers/ebooks.py:148-162 | marking a favourite a second time answers the same and stores nothing more |
| EbooksRouter.RemoveFavoriteTwice | app/routers/ebooks.py:164-177 | removing a favourite a second time answers 404 |
| EbooksRouter.CreateNewEbookKeepsValid | app/routers/ebooks.py:32-53 | uploading keeps every constraint of the store, whatever the answer |
| EbooksRouter.UpdateExistingEbookKeepsValid | app/routers/ebooks.py:64-78 | updating keeps every constraint of the store, whatever the answer |
| EbooksRouter.DeleteExistingEbookKeepsValid | app/routers/ebooks.py:80-95 | deleting keeps every constraint of the store, whatever the answer |
| EbooksRouter.DownloadEbookKeepsValid | app/routers/ebooks.py:98-124 | downloading keeps every constraint of the store, whatever the answer |
| EbooksRouter.FavoriteEndpointsKeepValid | app/routers/ebooks.py:148-177 | both favourite endpoints keep every constraint of the store, whatever the answer |
| EbooksRouter.DownloadOfStoredFileSucceeds | app/routers/ebooks.py:109-124 | in a valid store a signed-in user's download of a book whose file is on disk always succeeds |
| AdminRouter.StatsMostDownloaded | app/routers/admin.py:15-21 | fails exactly when the admin gate fails, with its error; otherwise 200 with the most-downloaded list |
| AdminRouter.StatsSummary | app/routers/admin.py:23-37 | the admin gate as above; the total is the number of users, the most-downloaded list is the one the most-downloaded endpoint gives, and the top users are the most-active list |
| AdminRouter.TopDownloadsShown | app/routers/admin.py:15-21 | exactly min(5, number of downloaded e-books) entries, each a stored e-book downloaded at least once, rendered with its download count, most downloaded first |
| AdminRouter.TopActiveShown | app/routers/admin.py:23-37 | exactly min(5, number of active users) entries, each a stored user with at least one activity entry, rendered with that count, most active first |
| AdminRouter.LatestUserResponses | crud.py:240-242 | min(5, users) responses rendering a sub-multiset of the stored users, ids non-increasing, and no user left out is newer than one shown |
| AdminRouter.LatestUsersStored | crud.py:240-242 | every response in the latest list renders a stored user |
| AdminRouter.NoNewerUserLeftOut | crud.py:240-242 | a stored user whose id is not among the latest responses has an id no larger than any of them |
| AdminRouter.LatestEbookResponses | crud.py:244-246 | min(5, e-books) responses rendering a sub-multiset of the stored e-books, ids non-increasing, and no e-book left out is newer than one shown |
| AdminRouter.LatestEbooksStored | crud.py:244-246 | every response in the latest list renders a stored e-book |
| AdminRouter.NoNewerEbookLeftOut | crud.py:244-246 | a stored e-book whose id is not among the latest responses has an id no larger than any of them |
| AdminRouter.PanelShowsLatest | app/routers/admin.py:40-52 | the panel built from the latest users and e-books shows, for each table, min(5, n) distinct stored rows newest first with no newer row left out |
| AdminRouter.MonitoringLatest | app/routers/admin.py:40-52 | the admin gate as above; otherwise 200 with a panel that, for each table, holds min(5, n) distinct stored rows newest first with no newer row left out |
| AdminRouter.AdminRoutesShareGate | app/routers/admin.py:9-13 | the three admin endpoints fail together, and a signed-in non-admin gets 403 from each |
| AdminRouter.TopDownloadsLeaveOutNoBusier | crud.py:172-188 | a downloaded e-book missing from the top five was downloaded no more often than any listed |
| AdminRouter.TopActiveLeaveOutNoBusier | crud.py:196-211 | a user with activity who is missing from the top five did no more than any user listed |
| AdminRouter.MostDownloadedLeavesOutNoBusier | app/routers/admin.py:15-21 | the endpoint never leaves out an e-book downloaded more often than one it lists |
| AdminRouter.AdminGateSurvivesNewUser | app/security.py:72-81 | adding users to a store with unique emails does not change who passes the admin gate |
| AdminRouter.RegistrationRaisesUserTotal | app/routers/admin.py:23-37 | after a registration the summary's total is one higher |
| AdminRouter.LastRowLeadsLatest | crud.py:244-246 | when the last e-book has the largest id it heads the latest list |
| AdminRouter.LatestEbookIsNewestUpload | app/routers/admin.py:40-52 | right after an upload the monitoring panel lists the uploaded e-book first |
| AdminRouter.AppendedEbookLeadsLatest | app/routers/admin.py:40-52 | a row appended with the next id to a valid store heads the latest e-books the panel shows an admin |
| EndToEnd.StoredTokenAuthenticatesRequest | src/services/api.js:9-21 | whatever the call, a request sent while a token is stored carries a header from which the backend reads exactly that token |
| EndToEnd.NoTokenIsNotAuthenticated | app/security.py:40-42 | without a stored token no Authorization header is sent, and both the user and the admin dependency answer 401 Not authenticated |
| EndToEnd.ClientLoginRequestParses | src/services/api.js:34-40 | the login request the client sends is URL-encoded and parses on the backend to the typed email and password |
| EndToEnd.RefusedRegistrationBreaksRegisterForm | app/schemas.py:6-9 | a registration whose password has the 8 characters the form demands but more than 72, or whose email the validator refuses, is answered with 422 and a list detail, which the registration form keeps as its error and cannot render |
| EndToEnd.TakenEmailIsShownAsText | app/routers/auth.py:19-24 | a registration with a taken email is answered with the 400 text, which the registration form shows as its message |
| EndToEnd.UploadPartsLookup | src/components/ebook/EbookUploadForm.js:37-43 | the backend finds each of the six fields of the upload form under its name |
| EndToEnd.CompleteUploadIsAccepted | app/routers/ebooks.py:32-39 | a form the upload page lets through, with an empty or integer year, is accepted with the picked title and author; description and year are absent exactly when left empty |
| EndToEnd.ReviewFormSubmissionIsAccepted | app/schemas.py:81-83 | every rating the review form offers, with the non-empty comment it insists on, passes the backend's review validation unchanged |
| EndToEnd.EditingBookWithoutYearIsRefused | src/pages/AdminEditEbookPage.js:26-53 | saving a book without a year unedited sends the year as "", which the backend refuses with 422 and changes nothing |
| EndToEnd.RefusedDeleteLeavesUnreadableBookListed | app/routers/ebooks.py:80-95 | deleting a downloaded book answers 500; the admin list keeps it and alerts failure, yet the book can no longer be read |

## Left out

- HTTP transport, axios internals, `localStorage`, and the DOM and window APIs (`createObjectURL`, `alert`, `confirm`, `window.open`, `setTimeout`). These are modelled as state and as emitted `Ui.Effect` values, not as behaviour. A delayed navigation is the value `NavigateAfter`.
- bcrypt hashing, JWT signing and decoding, and email-validator normalisation. These are foreign libraries and appear only as function parameters.
- The JWT claims `aud`, `iat` and `nbf`. The decoder parameter is assumed to reject bad signatures, and the model checks only `exp`.
- The `created_at` server default and String column widths. The database, not the code, enforces these.
- ILIKE escaping of `%` and `_`. The search is a case-insensitive substring test, and case folding covers ASCII letters only.
- AppRoutes.SegMatches: folds ASCII letters only, whereas the router's case-insensitive regular expression also folds other letters; the table's literals are all ASCII.
- The order the database engine gives to equal sort keys. The ranking contracts leave ties unordered. The position of NULL years in the "newest" sort belongs to the engine, so it is a parameter.
- GROUP BY results for a store with duplicate ids. The store invariant rules these out.
- File contents, `os.makedirs`, `StaticFiles` and `FileResponse`. Files are modelled by path only. The directories on disk are a fixed set that no endpoint changes.
- Crud.CanCreate: paths are compared as written, so `.`, `..` and repeated slashes are not normalised. Permissions, a full disk and a failing copy of the upload's contents are not modelled as causes of a failed write.
- Negative `skip`/`limit` values and the parsing of path parameters. Both are taken as already-parsed integers.
- Schemas.ParseInt: accepts only an optional `-` followed by decimal digits. Pydantic also accepts a leading `+`, surrounding whitespace and `_` separators.
- Schemas.UserResponse: does not re-validate the stored email as an `EmailStr` on output.
- app/routers/users.py is not part of this model. Its handlers are thin wrappers over the CRUD functions modelled here.
- main.py is not part of this model. It only wires the app and sets up CORS.
- AuthForms.SubmitRegister: the browser's constraint validation (`required`, `type="email"`, `minLength="8"`), which runs before the submit handler, is not modelled. The handler is modelled for every input. `EndToEnd.RefusedRegistrationBreaksRegisterForm` is stated only for passwords of at least 8 characters, which that validation lets through.
- AuthForms.SubmitLogin: the browser's constraint validation (`type="email"` and `required` on both fields, src/components/auth/LoginForm.js:42-57) is not modelled. The handler is modelled for every input, so an empty field yields the fixed empty-field message, where a browser would block the submission first.
- UploadForm.Submit: the browser's `required` check on title, author, PDF and cover (src/components/ebook/EbookUploadForm.js:71, 80, 105 and 114) is not modelled. The handler is modelled for every input, so an incomplete form yields the missing-fields message, where a browser would block the submission first.
- EditEbookPage.Submit: the browser's `required` check on title and author (src/pages/AdminEditEbookPage.js:77 and 87) is not modelled. The handler sends whatever the form holds, so an empty title or author is sent in the update, where a browser would block the submission first.
- HomePage, ProfilePage, AdminDashboardPage, LoginPage, RegisterPage and AdminUploadEbookPage only fetch on mount and render. Their forms and controllers are modelled: `AuthForms`, `UploadForm`.
- Footer, EbookList, EbookCard and ThemeToggleButton are not modelled. They are purely presentational.
- Styling and CSS are not modelled.
- Concurrency between requests is not modelled. Each endpoint is one atomic step on the store, or two in `delete_ebook`, where the files go first.

=== FILE: admin_router.dfy ===
/**
 * The `/admin` endpoints (app/routers/admin.py): download and activity
 * statistics and the monitoring panel. Every route sits behind the admin
 * dependency, which answers before the route itself runs.
 */
module AdminRouter {
  import opened Common
  import opened Seqs
  import opened Models
  import opened Schemas
  import opened Http
  import opened Security
  import opened Crud
  import opened EbooksRouter
  import opened AuthRouter

  /** The `limit=5` every admin route passes to its query. */
  const AdminListLimit := 5

  datatype EbookStatOut = EbookStatOut(ebook: EbookOut, downloadCount: nat)

  datatype UserStatOut = UserStatOut(user: UserOut, activityCount: nat)

  datatype DashboardSummary = DashboardSummary(totalUsers: nat, topActiveUsers: seq<UserStatOut>,
                                               mostDownloadedEbooks: seq<EbookStatOut>)

  datatype MonitoringPanel = MonitoringPanel(latestUsers: seq<UserOut>, latestEbooks: seq<EbookOut>)

  /** The statistics rows rendered through the response schemas. */
  function EbookStatResponses(db: Store, stats: seq<EbookStat>): (r: seq<EbookStatOut>)
    ensures |r| == |stats|
    ensures forall k :: 0 <= k < |stats| ==> r[k] == EbookStatOut(EbookResponse(db, stats[k].ebook), stats[k].downloadCount)
  {
    seq(|stats|, k requires 0 <= k < |stats| => EbookStatOut(EbookResponse(db, stats[k].ebook), stats[k].downloadCount))
  }

  function UserStatResponses(stats: seq<UserStat>): (r: seq<UserStatOut>)
    ensures |r| == |stats|
    ensures forall k :: 0 <= k < |stats| ==> r[k] == UserStatOut(UserResponse(stats[k].user), stats[k].activityCount)
  {
    seq(|stats|, k requires 0 <= k < |stats| => UserStatOut(UserResponse(stats[k].user), stats[k].activityCount))
  }

  /** The most-downloaded list as the response shows it: five downloaded
      e-books, or all of them when fewer were downloaded, with their counts,
      most downloaded first. */
  function TopDownloadsShown(db: Store): (body: seq<EbookStatOut>)
    ensures var downloaded := Count(db.ebooks, Downloaded(db));
            |body| == if AdminListLimit < downloaded then AdminListLimit else downloaded
    ensures forall o :: o in body ==>
              exists e :: e in db.ebooks && DownloadCount(db, e.id) > 0
                          && o == EbookStatOut(EbookResponse(db, e), DownloadCount(db, e.id))
    ensures forall i, j :: 0 <= i < j < |body| ==> body[i].downloadCount >= body[j].downloadCount
  {
    var top := GetMostDownloadedEbooks(db, AdminListLimit);
    EbookStatRowsShown(db, top);
    EbookStatResponses(db, top)
  }

  lemma EbookStatRowsShown(db: Store, top: seq<EbookStat>)
    requires forall s :: s in top ==> s.ebook in db.ebooks && s.downloadCount == DownloadCount(db, s.ebook.id) > 0
    requires forall i, j :: 0 <= i < j < |top| ==> top[i].downloadCount >= top[j].downloadCount
    ensures var body := EbookStatResponses(db, top);
            && (forall o :: o in body ==>
                  exists e :: e in db.ebooks && DownloadCount(db, e.id) > 0
                              && o == EbookStatOut(EbookResponse(db, e), DownloadCount(db, e.id)))
            && (forall i, j :: 0 <= i < j < |body| ==> body[i].downloadCount >= body[j].downloadCount)
  {
    var body := EbookStatResponses(db, top);
    forall o | o in body
      ensures exists e :: e in db.ebooks && DownloadCount(db, e.id) > 0
                          && o == EbookStatOut(EbookResponse(db, e), DownloadCount(db, e.id))
    {
      var k :| 0 <= k < |body| && body[k] == o;
      assert top[k] in top;
    }
  }

  /** The most-active list as the response shows it: five users who did
      anything, or all of them when fewer did, with their activity counts,
      most active first. */
  function TopActiveShown(db: Store): (body: seq<UserStatOut>)
    ensures var active := Count(db.users, Active(db));
            |body| == if AdminListLimit < active then AdminListLimit else active
    ensures forall o :: o in body ==>
              exists u :: u in db.users && ActivityCount(db, u.id) > 0
                          && o == UserStatOut(UserResponse(u), ActivityCount(db, u.id))
    ensures forall i, j :: 0 <= i < j < |body| ==> body[i].activityCount >= body[j].activityCount
  {
    var top := GetMostActiveUsers(db, AdminListLimit);
    UserStatRowsShown(db, top);
    UserStatResponses(top)
  }

  lemma UserStatRowsShown(db: Store, top: seq<UserStat>)
    requires forall s :: s in top ==> s.user in db.users && s.activityCount == ActivityCount(db, s.user.id) > 0
    requires forall i, j :: 0 <= i < j < |top| ==> top[i].activityCount >= top[j].activityCount
    ensures var body := UserStatResponses(top);
            && (forall o :: o in body ==>
                  exists u :: u in db.users && ActivityCount(db, u.id) > 0
                              && o == UserStatOut(UserResponse(u), ActivityCount(db, u.id)))
            && (forall i, j :: 0 <= i < j < |body| ==> body[i].activityCount >= body[j].activityCount)
  {
    var body := UserStatResponses(top);
    forall o | o in body
      ensures exists u :: u in db.users && ActivityCount(db, u.id) > 0
                          && o == UserStatOut(UserResponse(u), ActivityCount(db, u.id))
    {
      var k :| 0 <= k < |body| && body[k] == o;
      assert top[k] in top;
    }
  }

  /** `GET /admin/stats/most-downloaded`: admins only; the most-downloaded
      list. */
  function StatsMostDownloaded(db: Store, authorization: Option<string>, env: Env): (r: Result<Response<seq<EbookStatOut>>, HttpError>)
    ensures r.Err? <==> GetCurrentAdminUser(db, authorization, env.now, env.decode).Err?
    ensures r.Err? ==> r.error == GetCurrentAdminUser(db, authorization, env.now, env.decode).error
    ensures r.Ok? ==> r.value == Response(Ok200, TopDownloadsShown(db))
  {
    match GetCurrentAdminUser(db, authorization, env.now, env.decode)
    case Err(e) => Err(e)
    case Ok(_) => Ok(Response(Ok200, TopDownloadsShown(db)))
  }

  /** `GET /admin/stats/summary`: admins only; the number of users, the
      most-active list and the same most-downloaded list as the route
      above. */
  function StatsSummary(db: Store, authorization: Option<string>, env: Env): (r: Result<Response<DashboardSummary>, HttpError>)
    ensures r.Err? <==> GetCurrentAdminUser(db, authorization, env.now, env.decode).Err?
    ensures r.Err? ==> r.error == GetCurrentAdminUser(db, authorization, env.now, env.decode).error
    ensures r.Ok? ==>
              && r.value.status == Ok200
              && r.value.body.totalUsers == |db.users|
              && r.value.body.mostDownloadedEbooks == StatsMostDownloaded(db, authorization, env).value.body
              && r.value.body.topActiveUsers == TopActiveShown(db)
  {
    match GetCurrentAdminUser(db, authorization, env.now, env.decode)
    case Err(e) => Err(e)
    case Ok(_) =>
      Ok(Response(Ok200, DashboardSummary(GetTotalUsersCount(db), TopActiveShown(db), TopDownloadsShown(db))))
  }

  function UserResponses(users: seq<User>): (r: seq<UserOut>)
    ensures |r| == |users|
    ensures forall i :: 0 <= i < |r| ==> r[i] == UserResponse(users[i])
  {
    seq(|users|, i requires 0 <= i < |users| => UserResponse(users[i]))
  }

  /** The latest users as the response shows them: see `ShowsLatestUsers`. */
  function LatestUserResponses(db: Store): (r: seq<UserOut>)
    ensures ShowsLatestUsers(db, r)
  {
    var users := GetLatestUsers(db, AdminListLimit);
    LatestUsersShown(db, users);
    UserResponses(users)
  }

  /** The latest e-books as the response shows them: see `ShowsLatestEbooks`. */
  function LatestEbookResponses(db: Store): (r: seq<EbookOut>)
    ensures ShowsLatestEbooks(db, r)
  {
    var ebooks := GetLatestEbooks(db, AdminListLimit);
    LatestEbooksShown(db, ebooks);
    EbookResponses(db, ebooks)
  }

  /** What the monitoring panel promises: up to five users and up to five
      e-books, each list distinct stored rows, newest (largest id) first,
      with no newer row left out. */
  ghost predicate ShowsLatest(db: Store, panel: MonitoringPanel) {
    ShowsLatestUsers(db, panel.latestUsers) && ShowsLatestEbooks(db, panel.latestEbooks)
  }

  /** `min(5, n)` responses of distinct stored users, ids non-increasing,
      and every user not shown is no newer than every user shown. */
  ghost predicate ShowsLatestUsers(db: Store, users: seq<UserOut>) {
    && |users| == (if AdminListLimit < |db.users| then AdminListLimit else |db.users|)
    && NewestFirst(users)
    && UsersDrawnFrom(db, users)
    && NoNewerUserHidden(db, users)
  }

  /** The same promise for e-books. */
  ghost predicate ShowsLatestEbooks(db: Store, ebooks: seq<EbookOut>) {
    && |ebooks| == (if AdminListLimit < |db.ebooks| then AdminListLimit else |db.ebooks|)
    && EbooksNewestFirst(ebooks)
    && EbooksDrawnFrom(db, ebooks)
    && NoNewerEbookHidden(db, ebooks)
  }

  ghost predicate NewestFirst(users: seq<UserOut>) {
    forall i, j :: 0 <= i < j < |users| ==> users[i].id >= users[j].id
  }

  ghost predicate EbooksNewestFirst(ebooks: seq<EbookOut>) {
    forall i, j :: 0 <= i < j < |ebooks| ==> ebooks[i].id >= ebooks[j].id
  }

  /** The responses render distinct stored rows: a sub-multiset of the table. */
  ghost predicate UsersDrawnFrom(db: Store, users: seq<UserOut>) {
    exists rows: seq<User> :: UserResponses(rows) == users && multiset(rows) <= multiset(db.users)
  }

  ghost predicate EbooksDrawnFrom(db: Store, ebooks: seq<EbookOut>) {
    exists rows: seq<Ebook> :: EbookResponses(db, rows) == ebooks && multiset(rows) <= multiset(db.ebooks)
  }

  /** No stored user left out of the list is newer than one in it. */
  ghost predicate NoNewerUserHidden(db: Store, users: seq<UserOut>) {
    forall u :: u in db.users && (forall o :: o in users ==> o.id != u.id) ==> forall o :: o in users ==> u.id <= o.id
  }

  ghost predicate NoNewerEbookHidden(db: Store, ebooks: seq<EbookOut>) {
    forall e :: e in db.ebooks && (forall o :: o in ebooks ==> o.id != e.id) ==> forall o :: o in ebooks ==> e.id <= o.id
  }

  lemma LatestUsersShown(db: Store, rows: seq<User>)
    requires rows == GetLatestUsers(db, AdminListLimit)
    ensures ShowsLatestUsers(db, UserResponses(rows))
  {
    LatestUsersOrdered(db, rows);
    LatestUsersComplete(db, rows);
    assert UserResponses(rows) == UserResponses(rows) && multiset(rows) <= multiset(db.users);
  }

  lemma LatestUsersStored(db: Store, rows: seq<User>)
    requires rows == GetLatestUsers(db, AdminListLimit)
    ensures forall o :: o in UserResponses(rows) ==> exists u :: u in db.users && o == UserResponse(u)
  {
    var outs := UserResponses(rows);
    forall o | o in outs
      ensures exists u :: u in db.users && o == UserResponse(u)
    {
      var k :| 0 <= k < |outs| && outs[k] == o;
      assert rows[k] in multiset(rows);
    }
  }

  lemma LatestUsersOrdered(db: Store, rows: seq<User>)
    requires rows == GetLatestUsers(db, AdminListLimit)
    ensures NewestFirst(UserResponses(rows))
  {
  }

  lemma LatestUsersComplete(db: Store, rows: seq<User>)
    requires rows == GetLatestUsers(db, AdminListLimit)
    ensures NoNewerUserHidden(db, UserResponses(rows))
  {
    var outs := UserResponses(rows);
    forall u | u in db.users && (forall o :: o in outs ==> o.id != u.id)
      ensures forall o :: o in outs ==> u.id <= o.id
    {
      NoNewerUserLeftOut(db, rows, u);
    }
  }

  /** A stored user whose id is not among the latest is no newer than any
      of them. */
  lemma NoNewerUserLeftOut(db: Store, rows: seq<User>, u: User)
    requires rows == GetLatestUsers(db, AdminListLimit)
    requires u in db.users && forall o :: o in UserResponses(rows) ==> o.id != u.id
    ensures forall o :: o in UserResponses(rows) ==> u.id <= o.id
  {
    var outs := UserResponses(rows);
    forall i | 0 <= i < |rows|
      ensures rows[i] != u
    {
      assert outs[i] in outs && outs[i].id == rows[i].id;
    }
    assert u !in multiset(rows);
    assert u in multiset(db.users) - multiset(rows);
    forall o | o in outs
      ensures u.id <= o.id
    {
      var k :| 0 <= k < |outs| && outs[k] == o;
    }
  }

  lemma LatestEbooksShown(db: Store, rows: seq<Ebook>)
    requires rows == GetLatestEbooks(db, AdminListLimit)
    ensures ShowsLatestEbooks(db, EbookResponses(db, rows))
  {
    LatestEbooksOrdered(db, rows);
    LatestEbooksComplete(db, rows);
    assert EbookResponses(db, rows) == EbookResponses(db, rows) && multiset(rows) <= multiset(db.ebooks);
  }

  lemma LatestEbooksStored(db: Store, rows: seq<Ebook>)
    requires rows == GetLatestEbooks(db, AdminListLimit)
    ensures forall o :: o in EbookResponses(db, rows) ==> exists e :: e in db.ebooks && o == EbookResponse(db, e)
  {
    var outs := EbookResponses(db, rows);
    forall o | o in outs
      ensures exists e :: e in db.ebooks && o == EbookResponse(db, e)
    {
      var k :| 0 <= k < |outs| && outs[k] == o;
      assert rows[k] in multiset(rows);
    }
  }

  lemma LatestEbooksOrdered(db: Store, rows: seq<Ebook>)
    requires rows == GetLatestEbooks(db, AdminListLimit)
    ensures EbooksNewestFirst(EbookResponses(db, rows))
  {
  }

  lemma LatestEbooksComplete(db: Store, rows: seq<Ebook>)
    requires rows == GetLatestEbooks(db, AdminListLimit)
    ensures NoNewerEbookHidden(db, EbookResponses(db, rows))
  {
    var outs := EbookResponses(db, rows);
    forall e | e in db.ebooks && (forall o :: o in outs ==> o.id != e.id)
      ensures forall o :: o in outs ==> e.id <= o.id
    {
      NoNewerEbookLeftOut(db, rows, e);
    }
  }

  /** A stored e-book whose id is not among the latest is no newer than any
      of them. */
  lemma NoNewerEbookLeftOut(db: Store, rows: seq<Ebook>, e: Ebook)
    requires rows == GetLatestEbooks(db, AdminListLimit)
    requires e in db.ebooks && forall o :: o in EbookResponses(db, rows) ==> o.id != e.id
    ensures forall o :: o in EbookResponses(db, rows) ==> e.id <= o.id
  {
    var outs := EbookResponses(db, rows);
    forall i | 0 <= i < |rows|
      ensures rows[i] != e
    {
      assert outs[i] in outs && outs[i].id == rows[i].id;
    }
    assert e !in multiset(rows);
    assert e in multiset(db.ebooks) - multiset(rows);
    forall o | o in outs
      ensures e.id <= o.id
    {
      var k :| 0 <= k < |outs| && outs[k] == o;
    }
  }

  lemma PanelShowsLatest(db: Store)
    ensures ShowsLatest(db, MonitoringPanel(LatestUserResponses(db), LatestEbookResponses(db)))
  {
  }

  /** `GET /admin/monitoring/latest`: the five most recently registered
      users and the five most recently added e-books, newest first. */
  function MonitoringLatest(db: Store, authorization: Option<string>, env: Env): (r: Result<Response<MonitoringPanel>, HttpError>)
    ensures r.Err? <==> GetCurrentAdminUser(db, authorization, env.now, env.decode).Err?
    ensures r.Err? ==> r.error == GetCurrentAdminUser(db, authorization, env.now, env.decode).error
    ensures r.Ok? ==> r.value.status == Ok200 && ShowsLatest(db, r.value.body)
  {
    match GetCurrentAdminUser(db, authorization, env.now, env.decode)
    case Err(e) => Err(e)
    case Ok(_) =>
      var panel := MonitoringPanel(LatestUserResponses(db), LatestEbookResponses(db));
      PanelShowsLatest(db);
      Ok(Response(Ok200, panel))
  }

  // ------------------------------------------------------------ properties

  /** The three routes share one gate: they fail together, with the same
      error, and a signed-in ordinary user is refused with 403. */
  lemma AdminRoutesShareGate(db: Store, authorization: Option<string>, env: Env)
    ensures StatsMostDownloaded(db, authorization, env).Err? <==> StatsSummary(db, authorization, env).Err?
    ensures StatsSummary(db, authorization, env).Err? <==> MonitoringLatest(db, authorization, env).Err?
    ensures GetCurrentUser(db, authorization, env.now, env.decode).Ok?
            && GetCurrentUser(db, authorization, env.now, env.decode).value.role == UserRole ==>
              && StatsMostDownloaded(db, authorization, env) == Err(AdminRequired)
              && StatsSummary(db, authorization, env) == Err(AdminRequired)
              && MonitoringLatest(db, authorization, env) == Err(AdminRequired)
  {
  }

  /** A downloaded e-book missing from the top downloads was downloaded no
      more often than any e-book among them. */
  lemma TopDownloadsLeaveOutNoBusier(db: Store, e: Ebook)
    requires e in db.ebooks && DownloadCount(db, e.id) > 0
    requires forall t :: t in GetMostDownloadedEbooks(db, AdminListLimit) ==> t.ebook.id != e.id
    ensures forall t :: t in GetMostDownloadedEbooks(db, AdminListLimit) ==> DownloadCount(db, e.id) <= t.downloadCount
  {
    var all := EbookStats(db, db.ebooks);
    var top := GetMostDownloadedEbooks(db, AdminListLimit);
    var s := EbookStat(e, DownloadCount(db, e.id));
    assert s in all;
    assert top == Ranking.TopN(all, StatCount, AdminListLimit);
    Ranking.LeftOutOfTopN(all, StatCount, AdminListLimit, s);
    forall t | t in top
      ensures DownloadCount(db, e.id) <= t.downloadCount
    {
      var k :| 0 <= k < |top| && top[k] == t;
      assert StatCount(s) <= StatCount(top[k]);
    }
  }

  /** A user who did something and is missing from the most active users
      did no more than any user among them. */
  lemma TopActiveLeaveOutNoBusier(db: Store, u: User)
    requires u in db.users && ActivityCount(db, u.id) > 0
    requires forall t :: t in GetMostActiveUsers(db, AdminListLimit) ==> t.user.id != u.id
    ensures forall t :: t in GetMostActiveUsers(db, AdminListLimit) ==> ActivityCount(db, u.id) <= t.activityCount
  {
    var all := UserStats(db, db.users);
    var top := GetMostActiveUsers(db, AdminListLimit);
    var s := UserStat(u, ActivityCount(db, u.id));
    assert s in all;
    assert top == Ranking.TopN(all, UserStatCount, AdminListLimit);
    Ranking.LeftOutOfTopN(all, UserStatCount, AdminListLimit, s);
    forall t | t in top
      ensures ActivityCount(db, u.id) <= t.activityCount
    {
      var k :| 0 <= k < |top| && top[k] == t;
      assert UserStatCount(s) <= UserStatCount(top[k]);
    }
  }

  /** The same, seen through the route: a downloaded e-book the
      most-downloaded answer leaves out was downloaded no more often than
      any e-book it lists. */
  lemma MostDownloadedLeavesOutNoBusier(db: Store, authorization: Option<string>, env: Env, e: Ebook)
    requires StatsMostDownloaded(db, authorization, env).Ok?
    requires e in db.ebooks && DownloadCount(db, e.id) > 0
    requires forall o :: o in StatsMostDownloaded(db, authorization, env).value.body ==> o.ebook.id != e.id
    ensures forall o :: o in StatsMostDownloaded(db, authorization, env).value.body ==>
              DownloadCount(db, e.id) <= o.downloadCount
  {
    var top := GetMostDownloadedEbooks(db, AdminListLimit);
    assert StatsMostDownloaded(db, authorization, env).value.body == EbookStatResponses(db, top);
    ShownRowsMissEbook(db, top, e);
    TopDownloadsLeaveOutNoBusier(db, e);
    ShownRowsAtLeast(db, top, DownloadCount(db, e.id));
  }

  lemma ShownRowsMissEbook(db: Store, top: seq<EbookStat>, e: Ebook)
    requires forall o :: o in EbookStatResponses(db, top) ==> o.ebook.id != e.id
    ensures forall t :: t in top ==> t.ebook.id != e.id
  {
    var body := EbookStatResponses(db, top);
    forall t | t in top
      ensures t.ebook.id != e.id
    {
      var k :| 0 <= k < |top| && top[k] == t;
      assert body[k] in body;
    }
  }

  lemma ShownRowsAtLeast(db: Store, top: seq<EbookStat>, c: nat)
    requires forall t :: t in top ==> c <= t.downloadCount
    ensures forall o :: o in EbookStatResponses(db, top) ==> c <= o.downloadCount
  {
    var body := EbookStatResponses(db, top);
    forall o | o in body
      ensures c <= o.downloadCount
    {
      var k :| 0 <= k < |body| && body[k] == o;
      assert top[k] in top;
    }
  }

  /** Adding a user with a fresh email does not change whom a request
      authenticates as, nor whether they pass the admin gate. */
  lemma AdminGateSurvivesNewUser(db: Store, db1: Store, authorization: Option<string>, env: Env)
    requires GetCurrentAdminUser(db, authorization, env.now, env.decode).Ok?
    requires UniqueColumns(db1) && forall u :: u in db.users ==> u in db1.users
    ensures GetCurrentAdminUser(db1, authorization, env.now, env.decode) == GetCurrentAdminUser(db, authorization, env.now, env.decode)
  {
    var u := GetCurrentAdminUser(db, authorization, env.now, env.decode).value;
    var email := env.decode(BearerToken(authorization).value).value["sub"].str;
    assert u in db1.users && u.email == email;
    assert GetUserByEmail(db1, email) == Some(u);
  }

  /** The user total on the dashboard goes up by one with each
      registration, and the admin still gets to see it. */
  lemma RegistrationRaisesUserTotal(db: Store, body: map<string, JsValue>, normalise: EmailNormaliser,
                                    hash: PasswordHasher, authorization: Option<string>, env: Env)
    requires Valid(db)
    requires RegisterUser(db, body, normalise, hash).reply.Ok?
    requires StatsSummary(db, authorization, env).Ok?
    ensures var db1 := RegisterUser(db, body, normalise, hash).state;
            && StatsSummary(db1, authorization, env).Ok?
            && StatsSummary(db1, authorization, env).value.body.totalUsers
               == StatsSummary(db, authorization, env).value.body.totalUsers + 1
  {
    var db1 := RegisterUser(db, body, normalise, hash).state;
    RegisterKeepsValid(db, body, normalise, hash);
    AdminGateSurvivesNewUser(db, db1, authorization, env);
  }

  /** When the last e-book row has the largest id, it heads the latest
      e-books. */
  lemma LastRowLeadsLatest(db: Store)
    requires |db.ebooks| > 0
    requires forall k :: 0 <= k < |db.ebooks| - 1 ==> db.ebooks[k].id < db.ebooks[|db.ebooks| - 1].id
    ensures GetLatestEbooks(db, AdminListLimit)[0] == db.ebooks[|db.ebooks| - 1]
  {
    var last := |db.ebooks| - 1;
    Ranking.UniqueMaximumHeadsTopN(db.ebooks, EbookId, AdminListLimit, last);
  }

  /** An admin who has just uploaded an e-book sees it first among the
      latest e-books on the monitoring panel. */
  lemma LatestEbookIsNewestUpload(s: Server, authorization: Option<string>, env: Env,
                                  parts: seq<(string, ApiClient.Part)>)
    requires Valid(s.db)
    requires CreateNewEbook(s, authorization, env, parts).reply.Ok?
    ensures var c := CreateNewEbook(s, authorization, env, parts);
            var m := MonitoringLatest(c.state.db, authorization, env);
            && m.Ok? && |m.value.body.latestEbooks| > 0
            && m.value.body.latestEbooks[0] == c.reply.value.body
  {
    var form := ParseUploadForm(parts).value;
    var (db1, e) := CreateEbook(s.db, s.files, s.dirs, form).created.value;
    var c := CreateNewEbook(s, authorization, env, parts);
    assert c.state.db == db1 && c.reply.value.body == EbookResponse(db1, e);
    AppendedEbookLeadsLatest(s.db, db1, e, authorization, env);
  }

  /** A row appended with the next id heads the latest e-books, as an admin
      sees them. */
  lemma AppendedEbookLeadsLatest(db: Store, db1: Store, e: Ebook, authorization: Option<string>, env: Env)
    requires Valid(db) && GetCurrentAdminUser(db, authorization, env.now, env.decode).Ok?
    requires db1.ebooks == db.ebooks + [e] && e.id == db.next.ebook && db1.users == db.users
    ensures var m := MonitoringLatest(db1, authorization, env);
            && m.Ok? && |m.value.body.latestEbooks| > 0
            && m.value.body.latestEbooks[0] == EbookResponse(db1, e)
  {
    AuthenticationReadsOnlyUsers(db, db1, authorization, env.now, env.decode);
    forall k | 0 <= k < |db1.ebooks| - 1
      ensures db1.ebooks[k].id < e.id
    {
      assert db1.ebooks[k] == db.ebooks[k];
      assert EbookKey(db.ebooks[k]) < db.next.ebook;
    }
    LastRowLeadsLatest(db1);
    var latest := LatestEbookResponses(db1);
    assert latest == EbookResponses(db1, GetLatestEbooks(db1, AdminListLimit));
    assert latest[0] == EbookResponse(db1, e);
  }
}

=== FILE: api_client.dfy ===
/**
 * The client's API gateway (src/services/api.js): one HTTP client bound to
 * the backend's base address, a request interceptor that attaches the
 * stored bearer token, and one request builder per backend operation.
 * Transport is not modelled: an operation is the request it would send,
 * and its outcome is an input to whoever awaits it.
 */
module ApiClient {
  import opened Common

  /** The base address every request is resolved against. */
  const BaseUrl := "http://localhost:8000"

  datatype Verb = Get | Post | Put | Delete

  /** A file picked in an `<input type="file">`; only its name is observable. */
  datatype FileRef = FileRef(name: string)

  /** One value appended to a `FormData`. */
  datatype Part = TextPart(text: string) | FilePart(file: FileRef)

  datatype Body =
    | NoBody
    | UrlEncoded(pairs: seq<(string, string)>)
    | Json(fields: map<string, JsValue>)
    | Multipart(parts: seq<(string, Part)>)

  datatype ResponseType = JsonResponse | BlobResponse

  datatype Request = Request(
    verb: Verb,
    path: string,
    params: map<string, string>,
    body: Body,
    headers: map<string, string>,
    responseType: ResponseType)

  /** The `detail` of an error body. FastAPI's `HTTPException` sends a
      string; its request validation (status 422) sends a list of objects,
      one per invalid field, written here as their messages. */
  datatype ErrorDetail = TextDetail(text: string) | ValidationErrors(messages: seq<string>)

  /** The part of a failed request the client looks at:
      `err.response?.data?.detail`, absent for a network failure. */
  datatype ApiError = ApiError(detail: Option<ErrorDetail>)

  /** JavaScript truthiness of a `detail`: an absent one and an empty
      string are falsy, while a list is truthy even when it is empty. */
  predicate DetailTruthy(d: Option<ErrorDetail>) {
    d.Some? && (d.value.TextDetail? ==> d.value.text != "")
  }

  /** `err.response?.data?.detail || fallback`, the value the forms keep as
      their error: the server's detail when truthy, whatever its shape. */
  function DetailOr(e: ApiError, fallback: string): (d: ErrorDetail)
    requires fallback != ""
    ensures DetailTruthy(e.detail) ==> d == e.detail.value
    ensures !DetailTruthy(e.detail) ==> d == TextDetail(fallback)
    ensures d.TextDetail? ==> d.text != ""
  {
    if DetailTruthy(e.detail) then e.detail.value else TextDetail(fallback)
  }

  /** An e-book as the backend serialises it to the client. */
  datatype EbookItem = EbookItem(
    id: nat,
    title: string,
    author: Option<string>,
    description: Option<string>,
    publicationYear: Option<int>,
    coverImagePath: Option<string>)

  /** A review as the backend serialises it to the client. */
  datatype ReviewItem = ReviewItem(id: nat, rating: int, comment: Option<string>, userName: string)

  /** Every operation the gateway exports, with its arguments. */
  datatype ApiCall =
    | GetAllEbooks(search: Option<string>)
    | Login(email: string, password: string)
    | Register(name: string, email: string, password: string)
    | DownloadEbookFile(ebookId: string, title: string)
    | GetMe
    | GetMyHistory
    | GetEbookById(ebookId: string)
    | GetReviewsForEbook(ebookId: string)
    | AddReviewForEbook(ebookId: string, rating: int, comment: string)
    | GetAdminSummary
    | DeleteEbookById(ebookId: string)
    | UploadEbook(parts: seq<(string, Part)>)
    | UpdateEbook(ebookId: string, fields: map<string, JsValue>)

  function EbookPath(ebookId: string): string {
    "/ebooks/" + ebookId
  }

  /** The request an operation hands to the client, before interception. */
  function Prepare(call: ApiCall): (req: Request)
    ensures req.headers == map[]
    ensures req.responseType == BlobResponse <==> call.DownloadEbookFile?
  {
    match call
    case GetAllEbooks(search) =>
      var params := if Truthy(search) then map["search" := search.value] else map[];
      Request(Get, "/ebooks", params, NoBody, map[], JsonResponse)
    case Login(email, password) =>
      Request(Post, "/auth/login", map[],
              UrlEncoded([("username", email), ("password", password)]), map[], JsonResponse)
    case Register(name, email, password) =>
      Request(Post, "/auth/register", map[],
              Json(map["name" := JsStr(name), "email" := JsStr(email), "password" := JsStr(password)]),
              map[], JsonResponse)
    case DownloadEbookFile(ebookId, _) =>
      Request(Get, EbookPath(ebookId) + "/download", map[], NoBody, map[], BlobResponse)
    case GetMe =>
      Request(Get, "/users/me", map[], NoBody, map[], JsonResponse)
    case GetMyHistory =>
      Request(Get, "/users/me/history", map[], NoBody, map[], JsonResponse)
    case GetEbookById(ebookId) =>
      Request(Get, EbookPath(ebookId), map[], NoBody, map[], JsonResponse)
    case GetReviewsForEbook(ebookId) =>
      Request(Get, EbookPath(ebookId) + "/reviews", map[], NoBody, map[], JsonResponse)
    case AddReviewForEbook(ebookId, rating, comment) =>
      Request(Post, EbookPath(ebookId) + "/reviews", map[],
              Json(map["rating" := JsNum(rating), "comment" := JsStr(comment)]), map[], JsonResponse)
    case GetAdminSummary =>
      Request(Get, "/admin/stats/summary", map[], NoBody, map[], JsonResponse)
    case DeleteEbookById(ebookId) =>
      Request(Delete, EbookPath(ebookId), map[], NoBody, map[], JsonResponse)
    case UploadEbook(parts) =>
      Request(Post, "/ebooks/", map[], Multipart(parts), map[], JsonResponse)
    case UpdateEbook(ebookId, fields) =>
      Request(Put, EbookPath(ebookId), map[], Json(fields), map[], JsonResponse)
  }

  /** The credentials of section 2.1 of RFC 6750: the scheme `Bearer`, one
      space, and the token. */
  function BearerCredentials(token: string): string {
    "Bearer " + token
  }

  /** The request interceptor: with a truthy stored token the request gains
      an `Authorization` header; otherwise it leaves unchanged. Nothing but
      the headers is touched. */
  function Intercept(stored: Option<string>, req: Request): (r: Request)
    ensures r.(headers := req.headers) == req
    ensures "Authorization" in r.headers <==> Truthy(stored) || "Authorization" in req.headers
    ensures Truthy(stored) ==> r.headers["Authorization"] == BearerCredentials(stored.value)
    ensures forall h :: h in req.headers && h != "Authorization" ==> h in r.headers && r.headers[h] == req.headers[h]
    ensures !Truthy(stored) ==> r == req
  {
    if Truthy(stored) then req.(headers := req.headers["Authorization" := BearerCredentials(stored.value)])
    else req
  }

  /** The request that leaves the browser for an operation, given the token
      held in storage at that moment. */
  function Send(stored: Option<string>, call: ApiCall): Request {
    Intercept(stored, Prepare(call))
  }

  /** The `Authorization` header is present exactly when a truthy token is
      stored, and then carries that token as bearer credentials. */
  lemma AuthorizationHeaderIffStoredToken(stored: Option<string>, call: ApiCall)
    ensures "Authorization" in Send(stored, call).headers <==> Truthy(stored)
    ensures Truthy(stored) ==> Send(stored, call).headers == map["Authorization" := "Bearer " + stored.value]
    ensures !Truthy(stored) ==> Send(stored, call).headers == map[]
  {
  }

  /** The catalogue query carries a `search` parameter exactly when the
      query text is truthy, so an empty string sends none. */
  lemma SearchParamIffTruthyQuery(search: Option<string>)
    ensures "search" in Prepare(GetAllEbooks(search)).params <==> Truthy(search)
    ensures Truthy(search) ==> Prepare(GetAllEbooks(search)).params == map["search" := search.value]
    ensures Prepare(GetAllEbooks(search)).params.Keys <= {"search"}
  {
  }

  /** Every operation on one e-book addresses `/ebooks/<id>`, so the
      backend reads the id from the same path segment whatever the call. */
  lemma EbookCallsAddressTheirEbook(id: string, title: string, rating: int, comment: string,
                                    fields: map<string, JsValue>)
    ensures forall c :: c in [DownloadEbookFile(id, title), GetEbookById(id), GetReviewsForEbook(id),
                              AddReviewForEbook(id, rating, comment), DeleteEbookById(id), UpdateEbook(id, fields)]
                        ==> IsPrefix("/ebooks/" + id, Prepare(c).path)
  {
  }

  /** What `downloadEbookFile` does with the response: it saves the body
      under the suggested name `<title>.pdf`, or rethrows the error it got. */
  datatype Download = Download(request: Request, saved: Result<string, ApiError>)

  function DownloadFile(stored: Option<string>, ebookId: string, title: string,
                        response: Result<(), ApiError>): (d: Download)
    ensures d.request.verb == Get && d.request.path == "/ebooks/" + ebookId + "/download"
    ensures d.request.responseType == BlobResponse
    ensures response.Err? ==> d.saved == Err(response.error)
    ensures response.Ok? ==> d.saved.Ok? && d.saved.value == title + ".pdf"
  {
    var req := Send(stored, DownloadEbookFile(ebookId, title));
    match response
    case Err(e) => Download(req, Err(e))
    case Ok(_) => Download(req, Ok(title + ".pdf"))
  }
}

=== FILE: app_routes.dfy ===
/**
 * The client's route table (src/App.js): which page each path shows and
 * which guard wraps it. A path is the sequence of the pieces between the
 * slashes after the leading one: `/` is the empty sequence, and a trailing
 * slash gives a final empty segment, which the router ignores, as it
 * ignores any run of trailing slashes. A `:name` segment matches any one
 * non-empty segment. No route sets `caseSensitive`, so a literal segment
 * matches the path's segment ignoring letter case.
 */
module AppRoutes {
  import opened Common
  import opened AuthContext
  import opened RouteGuards

  datatype Page =
    | HomePage | LoginPage | RegisterPage | ProfilePage | EbookDetailPage
    | AdminDashboardPage | AdminManageEbooksPage | AdminUploadEbookPage | AdminEditEbookPage

  datatype Guard = Unguarded | Protected | AdminOnly

  datatype Seg = Lit(text: string) | Param(name: string)

  datatype Route = Route(pattern: seq<Seg>, page: Page, guard: Guard)

  const Routes: seq<Route> := [
    Route([], HomePage, Unguarded),
    Route([Lit("login")], LoginPage, Unguarded),
    Route([Lit("register")], RegisterPage, Unguarded),
    Route([Lit("profile")], ProfilePage, Protected),
    Route([Lit("ebook"), Param("ebookId")], EbookDetailPage, Unguarded),
    Route([Lit("admin"), Lit("dashboard")], AdminDashboardPage, AdminOnly),
    Route([Lit("admin"), Lit("ebooks")], AdminManageEbooksPage, AdminOnly),
    Route([Lit("admin"), Lit("ebooks"), Lit("new")], AdminUploadEbookPage, AdminOnly),
    Route([Lit("admin"), Lit("ebooks"), Lit("edit"), Param("ebookId")], AdminEditEbookPage, AdminOnly)
  ]

  predicate SegMatches(seg: Seg, s: string) {
    match seg
    case Lit(t) => Lower(t) == Lower(s)
    case Param(_) => s != ""
  }

  predicate Matches(pattern: seq<Seg>, path: seq<string>) {
    |pattern| == |path| && forall i :: 0 <= i < |path| ==> SegMatches(pattern[i], path[i])
  }

  /** The first route of `routes` whose pattern matches `path`. */
  function FirstMatch(routes: seq<Route>, path: seq<string>): (r: Option<Route>)
    ensures r.Some? ==> r.value in routes && Matches(r.value.pattern, path)
    ensures r.None? ==> forall q :: q in routes ==> !Matches(q.pattern, path)
  {
    if |routes| == 0 then None
    else if Matches(routes[0].pattern, path) then Some(routes[0])
    else FirstMatch(routes[1..], path)
  }

  /** The path without its trailing run of empty segments, that is, with
      trailing slashes dropped. */
  function TrimTrailingSlashes(path: seq<string>): (r: seq<string>)
    ensures |r| <= |path| && r == path[..|r|]
    ensures |r| == 0 || r[|r| - 1] != ""
    ensures forall i :: |r| <= i < |path| ==> path[i] == ""
    decreases |path|
  {
    if |path| > 0 && path[|path| - 1] == "" then TrimTrailingSlashes(path[..|path| - 1]) else path
  }

  function Resolve(path: seq<string>): Option<Route> {
    FirstMatch(Routes, TrimTrailingSlashes(path))
  }

  /** What visiting a path shows: nothing for an unknown path, else the
      decision of the route's guard about its page. */
  datatype Visit = NoRoute | Shown(page: Page, decision: Decision)

  function GuardDecision(g: Guard, s: AuthState): Decision {
    match g
    case Unguarded => Render
    case Protected => ProtectedRoute(s)
    case AdminOnly => AdminRoute(s)
  }

  function VisitPath(s: AuthState, path: seq<string>): (v: Visit)
    ensures v.NoRoute? <==> Resolve(path).None?
    ensures v.Shown? ==> v.page == Resolve(path).value.page
                         && v.decision == GuardDecision(Resolve(path).value.guard, s)
  {
    match Resolve(path)
    case None => NoRoute
    case Some(r) => Shown(r.page, GuardDecision(r.guard, s))
  }

  /** The literal segments of the route table. */
  const Literals: set<string> := {"login", "register", "profile", "ebook", "admin", "dashboard", "ebooks", "new", "edit"}

  lemma LiteralIsListed(r: Route, n: nat)
    requires r in Routes && n < |r.pattern| && r.pattern[n].Lit?
    ensures r.pattern[n].text in Literals
  {
    var k :| 0 <= k < |Routes| && Routes[k] == r;
    if k < 5 {
      assert k == 1 || k == 2 || k == 3 || k == 4;
    } else {
      assert k == 5 || k == 6 || k == 7 || k == 8;
    }
  }

  lemma LiteralsHaveNoCapitals(t: string)
    requires t in Literals
    ensures IsLowerCase(t) && t != ""
  {
  }

  /** Every literal of the route table is written in lower case. */
  lemma LiteralsAreLowerCase(r: Route, n: nat)
    requires r in Routes && n < |r.pattern| && r.pattern[n].Lit?
    ensures Lower(r.pattern[n].text) == r.pattern[n].text
  {
    LiteralIsListed(r, n);
    LiteralsHaveNoCapitals(r.pattern[n].text);
    LowerKeepsLowerCase(r.pattern[n].text);
  }

  /** No segment of the route table matches an empty path segment. */
  lemma NoSegmentMatchesEmpty(r: Route, n: nat)
    requires r in Routes && n < |r.pattern|
    ensures !SegMatches(r.pattern[n], "")
  {
    if r.pattern[n].Lit? {
      LiteralIsListed(r, n);
      LiteralsHaveNoCapitals(r.pattern[n].text);
      assert |Lower(r.pattern[n].text)| > 0 == |Lower("")|;
    }
  }

  /** A path with an empty segment before a non-empty one, such as
      `/admin//dashboard`, matches no route. */
  lemma EmptySegmentMatchesNothing(path: seq<string>, n: nat, m: nat)
    requires n < m < |path| && path[n] == "" && path[m] != ""
    ensures Resolve(path).None?
  {
    var trimmed := TrimTrailingSlashes(path);
    assert |trimmed| > m && trimmed[n] == "";
    forall r | r in Routes
      ensures !Matches(r.pattern, trimmed)
    {
      if |r.pattern| == |trimmed| {
        NoSegmentMatchesEmpty(r, n);
      }
    }
  }

  /** A literal segment matches a path segment exactly when the path
      segment folds to the literal. */
  lemma LiteralMatchesFolded(r: Route, n: nat, s: string)
    requires r in Routes && n < |r.pattern| && r.pattern[n].Lit?
    ensures SegMatches(r.pattern[n], s) <==> Lower(s) == r.pattern[n].text
  {
    LiteralsAreLowerCase(r, n);
  }

  /** Two paths whose segments agree up to letter case visit the same page
      under the same guard. */
  lemma VisitIgnoresCase(s: AuthState, p: seq<string>, q: seq<string>)
    requires |p| == |q| && forall i :: 0 <= i < |p| ==> Lower(p[i]) == Lower(q[i])
    ensures VisitPath(s, p) == VisitPath(s, q)
  {
    TrimIgnoresCase(p, q);
    FirstMatchIgnoresCase(Routes, TrimTrailingSlashes(p), TrimTrailingSlashes(q));
  }

  /** Trimming cuts two paths that agree up to letter case at the same
      length. */
  lemma {:induction false} TrimIgnoresCase(p: seq<string>, q: seq<string>)
    requires |p| == |q| && forall i :: 0 <= i < |p| ==> Lower(p[i]) == Lower(q[i])
    ensures var tp, tq := TrimTrailingSlashes(p), TrimTrailingSlashes(q);
            |tp| == |tq| && forall i :: 0 <= i < |tp| ==> Lower(tp[i]) == Lower(tq[i])
    decreases |p|
  {
    if |p| > 0 {
      var k := |p| - 1;
      assert |Lower(p[k])| == |p[k]| && |Lower(q[k])| == |q[k]|;
      if p[k] == "" {
        TrimIgnoresCase(p[..k], q[..k]);
      }
    }
  }

  /** Trailing slashes do not change what a path shows: `/login/` shows
      what `/login` shows. */
  lemma VisitIgnoresTrailingSlash(s: AuthState, path: seq<string>)
    ensures VisitPath(s, path + [""]) == VisitPath(s, path)
  {
    assert (path + [""])[..|path|] == path;
  }

  /** A path that does not end in an empty segment is matched as it is. */
  lemma TrimKeepsPath(path: seq<string>)
    requires |path| == 0 || path[|path| - 1] != ""
    ensures TrimTrailingSlashes(path) == path
  {
  }

  lemma {:induction false} FirstMatchIgnoresCase(routes: seq<Route>, p: seq<string>, q: seq<string>)
    requires |p| == |q| && forall i :: 0 <= i < |p| ==> Lower(p[i]) == Lower(q[i])
    ensures FirstMatch(routes, p) == FirstMatch(routes, q)
  {
    if |routes| > 0 {
      var pat := routes[0].pattern;
      forall i | 0 <= i < |p| && i < |pat|
        ensures SegMatches(pat[i], p[i]) <==> SegMatches(pat[i], q[i])
      {
        assert |Lower(p[i])| == |p[i]| && |Lower(q[i])| == |q[i]|;
      }
      assert Matches(pat, p) <==> Matches(pat, q);
      FirstMatchIgnoresCase(routes[1..], p, q);
    }
  }

  /** A route is admin-only exactly when its path starts with `admin`; only
      the profile route is wrapped in ProtectedRoute. */
  lemma GuardsFollowPathPrefix()
    ensures forall r :: r in Routes ==> (r.guard == AdminOnly <==> |r.pattern| > 0 && r.pattern[0] == Lit("admin"))
    ensures forall r :: r in Routes ==> (r.guard == Protected <==> r.pattern == [Lit("profile")])
  {
    forall r | r in Routes
      ensures r.guard == AdminOnly <==> |r.pattern| > 0 && r.pattern[0] == Lit("admin")
      ensures r.guard == Protected <==> r.pattern == [Lit("profile")]
    {
      RouteGuardFollowsPrefix(r);
    }
  }

  lemma RouteGuardFollowsPrefix(r: Route)
    requires r in Routes
    ensures r.guard == AdminOnly <==> |r.pattern| > 0 && r.pattern[0] == Lit("admin")
    ensures r.guard == Protected <==> r.pattern == [Lit("profile")]
    ensures |r.pattern| > 0 ==> r.pattern[0].Lit?
  {
    var i :| 0 <= i < |Routes| && Routes[i] == r;
    if i < 5 {
      assert i == 0 || i == 1 || i == 2 || i == 3 || i == 4;
    } else {
      assert i == 5 || i == 6 || i == 7 || i == 8;
    }
  }

  /** No path matches two routes, so the first match is the only match
      whichever way the router ranks them. */
  lemma RoutesDoNotOverlap(path: seq<string>, i: nat, j: nat)
    requires i < j < |Routes|
    ensures !(Matches(Routes[i].pattern, path) && Matches(Routes[j].pattern, path))
  {
    if |Routes[i].pattern| == |Routes[j].pattern| == |path| {
      DistinctRoutesDifferAtALiteral(i, j);
    }
  }

  /** The first match among routes that cannot overlap is the route that
      matches. */
  lemma {:induction false} FirstMatchFindsTheMatchingRoute(routes: seq<Route>, path: seq<string>, i: nat)
    requires i < |routes| && Matches(routes[i].pattern, path)
    requires forall j :: 0 <= j < i ==> !Matches(routes[j].pattern, path)
    ensures FirstMatch(routes, path) == Some(routes[i])
  {
    if i > 0 {
      assert !Matches(routes[0].pattern, path);
      FirstMatchFindsTheMatchingRoute(routes[1..], path, i - 1);
    }
  }

  /** The route a path resolves to is the one route whose pattern it matches. */
  lemma ResolveByMatch(path: seq<string>, i: nat)
    requires i < |Routes| && Matches(Routes[i].pattern, path)
    ensures Resolve(path) == Some(Routes[i])
  {
    if |path| > 0 {
      NoSegmentMatchesEmpty(Routes[i], |path| - 1);
      assert SegMatches(Routes[i].pattern[|path| - 1], path[|path| - 1]);
    }
    TrimKeepsPath(path);
    forall j | 0 <= j < i
      ensures !Matches(Routes[j].pattern, path)
    {
      RoutesDoNotOverlap(path, j, i);
    }
    FirstMatchFindsTheMatchingRoute(Routes, path, i);
  }

  lemma DistinctRoutesDifferAtALiteral(i: nat, j: nat)
    requires i < j < |Routes|
    requires |Routes[i].pattern| == |Routes[j].pattern|
    ensures exists k :: 0 <= k < |Routes[i].pattern| && Routes[i].pattern[k].Lit? && Routes[j].pattern[k].Lit?
                        && Lower(Routes[i].pattern[k].text) != Lower(Routes[j].pattern[k].text)
  {
    var a, b := Routes[i].pattern, Routes[j].pattern;
    forall n | 0 <= n < |a| && a[n].Lit?
      ensures Lower(a[n].text) == a[n].text
    {
      LiteralsAreLowerCase(Routes[i], n);
    }
    forall n | 0 <= n < |b| && b[n].Lit?
      ensures Lower(b[n].text) == b[n].text
    {
      LiteralsAreLowerCase(Routes[j], n);
    }
    if |a| == 1 {
      assert a[0].Lit? && b[0].Lit? && a[0] != b[0];
    } else if |a| == 2 {
      if a[0] == b[0] {
        assert a[1].Lit? && b[1].Lit? && a[1] != b[1];
      } else {
        assert a[0].Lit? && b[0].Lit?;
      }
    } else {
      assert false;
    }
  }

  /** Every path under `/admin`, in any letter case, that shows a page is
      behind AdminRoute: while loading it shows the placeholder and otherwise
      it renders only for an authenticated admin. */
  lemma AdminPathsRequireAdmin(s: AuthState, path: seq<string>)
    requires |path| > 0 && Lower(path[0]) == "admin"
    ensures VisitPath(s, path).Shown? ==> VisitPath(s, path).decision == AdminRoute(s)
    ensures VisitPath(s, path).Shown? && VisitPath(s, path).decision == Render ==>
              !s.loading && IsAuthenticated(s) && HasAdminRole(s.user)
  {
    if Resolve(path).Some? {
      var r := Resolve(path).value;
      var trimmed := TrimTrailingSlashes(path);
      assert |Lower(path[0])| == |path[0]|;
      assert |trimmed| > 0 && trimmed[0] == path[0];
      RouteGuardFollowsPrefix(r);
      assert SegMatches(r.pattern[0], trimmed[0]);
      LiteralMatchesFolded(r, 0, path[0]);
      assert r.guard == AdminOnly;
    }
  }

  /** `/profile`, in any letter case, is guarded by ProtectedRoute. */
  lemma ProfileIsProtected(s: AuthState, seg: string)
    requires Lower(seg) == "profile"
    ensures VisitPath(s, [seg]) == Shown(ProfilePage, ProtectedRoute(s))
  {
    var path := [seg];
    assert Matches(Routes[3].pattern, path);
    ResolveByMatch(path, 3);
  }

  /** `/`, `/login`, `/register` and every `/ebook/<id>`, with the literal
      segment in any letter case, are shown to anyone; `/ebook/`, with an
      empty id, is `/ebook` and matches no route. */
  lemma PublicPathsAreUnguarded(s: AuthState, seg: string, id: string)
    ensures VisitPath(s, []) == Shown(HomePage, Render)
    ensures Lower(seg) == "login" ==> VisitPath(s, [seg]) == Shown(LoginPage, Render)
    ensures Lower(seg) == "register" ==> VisitPath(s, [seg]) == Shown(RegisterPage, Render)
    ensures Lower(seg) == "ebook" && id != "" ==> VisitPath(s, [seg, id]) == Shown(EbookDetailPage, Render)
    ensures Lower(seg) == "ebook" && id == "" ==> VisitPath(s, [seg, id]) == NoRoute
  {
    PublicRoute([], 0);
    if Lower(seg) == "login" {
      PublicRoute([seg], 1);
    } else if Lower(seg) == "register" {
      PublicRoute([seg], 2);
    } else if Lower(seg) == "ebook" && id != "" {
      PublicRoute([seg, id], 4);
    } else if Lower(seg) == "ebook" {
      EbookWithoutIdShowsNothing(s, seg);
    }
  }

  /** `/ebook` and `/ebook/`, in any letter case, show nothing. */
  lemma EbookWithoutIdShowsNothing(s: AuthState, seg: string)
    requires Lower(seg) == "ebook"
    ensures VisitPath(s, [seg]) == NoRoute && VisitPath(s, [seg, ""]) == NoRoute
  {
    assert |Lower(seg)| == |seg|;
    VisitIgnoresTrailingSlash(s, [seg]);
    assert [seg] + [""] == [seg, ""];
    EbookAloneMatchesNothing(seg);
  }

  /** No route is `/ebook` on its own. */
  lemma EbookAloneMatchesNothing(seg: string)
    requires Lower(seg) == "ebook"
    ensures forall r :: r in Routes ==> !Matches(r.pattern, [seg])
  {
    forall r | r in Routes && |r.pattern| == 1
      ensures !SegMatches(r.pattern[0], seg)
    {
      RouteGuardFollowsPrefix(r);
      LiteralIsListed(r, 0);
      LiteralMatchesFolded(r, 0, seg);
      var k :| 0 <= k < |Routes| && Routes[k] == r;
      assert k == 1 || k == 2 || k == 3;
    }
  }

  /** A path matching an unguarded route shows that route's page to anyone. */
  lemma PublicRoute(path: seq<string>, i: nat)
    requires i < |Routes| && Matches(Routes[i].pattern, path) && Routes[i].guard == Unguarded
    ensures forall s :: VisitPath(s, path) == Shown(Routes[i].page, Render)
  {
    ResolveByMatch(path, i);
  }
}

=== FILE: auth_context.dfy ===
/**
 * The client's session store (src/context/AuthContext.js). The state is the
 * token held in browser storage, the in-memory copy the provider keeps, the
 * claims decoded from it, and the `loading` flag that stays true until the
 * one-time restore at start-up has run. Decoding is done by a foreign
 * library and is a parameter here.
 */
module AuthContext {
  import opened Common
  import opened ApiClient

  /** The claims a token decodes to; the client reads only `role`. */
  datatype Claims = Claims(sub: Option<string>, role: Option<string>, exp: Option<int>)

  /** jwt-decode: claims for a well-formed token, nothing for any other. */
  type Decoder = string -> Option<Claims>

  datatype AuthState = AuthState(
    storedToken: Option<string>,   // the storage slot 'token'
    token: Option<string>,         // the provider's token state
    user: Option<Claims>,          // the provider's user state
    loading: bool)

  /** `isAuthenticated: !!token` */
  predicate IsAuthenticated(s: AuthState) {
    Truthy(s.token)
  }

  /** The provider's first render: the token state is read from storage,
      there is no user yet, and loading is on. */
  function Mount(stored: Option<string>): (s: AuthState)
    ensures s.storedToken == stored && s.token == stored
    ensures s.user.None? && s.loading
    ensures IsAuthenticated(s) <==> Truthy(stored)
  {
    AuthState(stored, stored, None, true)
  }

  /** The restore effect. A truthy saved token is decoded into the user; a
      token that does not decode is removed from storage. In every case
      loading ends, and the in-memory token is never touched. */
  function Restore(s: AuthState, decode: Decoder): (r: AuthState)
    ensures !r.loading
    ensures r.token == s.token
    ensures Truthy(s.storedToken) && decode(s.storedToken.value).Some? ==>
              r.user == decode(s.storedToken.value) && r.storedToken == s.storedToken
    ensures Truthy(s.storedToken) && decode(s.storedToken.value).None? ==>
              r.storedToken.None? && r.user == s.user
    ensures !Truthy(s.storedToken) ==> r.storedToken == s.storedToken && r.user == s.user
  {
    var s' := if Truthy(s.storedToken) then
                match decode(s.storedToken.value)
                case Some(claims) => s.(user := Some(claims))
                case None => s.(storedToken := None)
              else s;
    s'.(loading := false)
  }

  /** Start-up: mount, then run the restore effect once. */
  function Startup(stored: Option<string>, decode: Decoder): AuthState {
    Restore(Mount(stored), decode)
  }

  datatype LoginFailure = RequestFailed(error: ApiError) | TokenUndecodable

  /** A login attempt: the call it makes, the state after it, and whether
      it resolved or rethrew. */
  datatype LoginStep = LoginStep(call: ApiCall, state: AuthState, outcome: Result<(), LoginFailure>)

  /** `login(email, password)`. The new token is written to storage before
      it is decoded, so a token that fails to decode is left in storage
      while the token and user states keep their old values. */
  function Login(s: AuthState, email: string, password: string,
                 response: Result<string, ApiError>, decode: Decoder): (r: LoginStep)
    ensures r.call == ApiCall.Login(email, password)
    ensures response.Err? ==> r.state == s && r.outcome == Err(RequestFailed(response.error))
    ensures response.Ok? && decode(response.value).Some? ==>
              r.outcome.Ok? && r.state.storedToken == Some(response.value)
              && r.state.token == Some(response.value) && r.state.user == decode(response.value)
    ensures response.Ok? && decode(response.value).None? ==>
              r.outcome == Err(TokenUndecodable) && r.state == s.(storedToken := Some(response.value))
    ensures r.state.loading == s.loading
  {
    var call := ApiCall.Login(email, password);
    match response
    case Err(e) => LoginStep(call, s, Err(RequestFailed(e)))
    case Ok(newToken) =>
      var stored := s.(storedToken := Some(newToken));
      match decode(newToken)
      case None => LoginStep(call, stored, Err(TokenUndecodable))
      case Some(claims) => LoginStep(call, stored.(token := Some(newToken), user := Some(claims)), Ok(()))
  }

  /** `logout()`: storage, token and user all cleared. */
  function Logout(s: AuthState): (r: AuthState)
    ensures r.storedToken.None? && r.token.None? && r.user.None?
    ensures !IsAuthenticated(r)
    ensures r.loading == s.loading
  {
    AuthState(None, None, None, s.loading)
  }

  /** The identity on hand is the decoding of the in-memory token. */
  predicate Coherent(s: AuthState, decode: Decoder) {
    s.user.Some? ==> s.token.Some? && decode(s.token.value) == s.user
  }

  /** Restore at start-up: with no saved token the user stays empty; with a
      decodable one the user is its claims; with a corrupt one storage is
      cleared and the user stays empty, yet the session still counts as
      authenticated because the in-memory token is kept. Loading always
      ends. */
  lemma StartupCases(stored: Option<string>, decode: Decoder)
    ensures !Startup(stored, decode).loading
    ensures !Truthy(stored) ==> Startup(stored, decode).user.None? && !IsAuthenticated(Startup(stored, decode))
    ensures Truthy(stored) && decode(stored.value).Some? ==>
              Startup(stored, decode).user == decode(stored.value) && IsAuthenticated(Startup(stored, decode))
    ensures Truthy(stored) && decode(stored.value).None? ==>
              Startup(stored, decode).storedToken.None? && Startup(stored, decode).user.None?
              && IsAuthenticated(Startup(stored, decode))
    ensures Startup(stored, decode).user.Some? <==> Truthy(stored) && decode(stored.value).Some?
  {
  }

  /** Every operation keeps the user equal to the decoding of the token. */
  lemma CoherenceIsInvariant(stored: Option<string>, s: AuthState, email: string, password: string,
                             response: Result<string, ApiError>, decode: Decoder)
    ensures Coherent(Startup(stored, decode), decode)
    ensures Coherent(s, decode) ==> Coherent(Login(s, email, password, response, decode).state, decode)
    ensures Coherent(Logout(s), decode)
  {
  }

  /** A login whose token does not decode leaves storage out of step with
      the token state: storage holds the new token, the token state the old. */
  lemma UndecodableLoginDesynchronisesStorage(s: AuthState, email: string, password: string,
                                             t: string, decode: Decoder)
    requires decode(t).None? && s.token != Some(t)
    ensures Login(s, email, password, Ok(t), decode).state.storedToken == Some(t)
    ensures Login(s, email, password, Ok(t), decode).state.token != Some(t)
  {
  }

  /** Logging out twice is logging out once. */
  lemma LogoutIdempotent(s: AuthState)
    ensures Logout(Logout(s)) == Logout(s)
  {
  }

  /** From a signed-out session, login followed by logout restores the state
      before login, whatever the login's outcome. */
  lemma LoginThenLogoutRestores(s: AuthState, email: string, password: string,
                                response: Result<string, ApiError>, decode: Decoder)
    requires s.storedToken.None? && s.token.None? && s.user.None?
    ensures Logout(Login(s, email, password, response, decode).state) == s
  {
  }
}

=== FILE: auth_forms.dfy ===
/**
 * The login and registration forms (src/components/auth/LoginForm.js,
 * src/components/auth/RegisterForm.js). Login goes through the session
 * store; registration calls the gateway directly.
 */
module AuthForms {
  import opened Common
  import opened ApiClient
  import opened Ui
  import opened AuthContext

  datatype LoginFormState = LoginFormState(email: string, password: string, error: string)

  const LoginEmptyMessage := "Email dan password tidak boleh kosong."
  const LoginFailedMessage := "Email atau password salah."

  /** The login form's submit, together with the session it acts on. */
  datatype LoginSubmit = LoginSubmit(form: LoginFormState, session: AuthState, calls: seq<ApiCall>, effects: seq<Effect>)

  /** `handleSubmit` of the login form. The error is cleared first. Empty
      email or password sets the error and leaves the session alone. Any
      failure of the session's login, whether the request failed or the
      token did not decode, shows the same fixed message; success goes to
      the home page. */
  function SubmitLogin(f: LoginFormState, session: AuthState, response: Result<string, ApiError>,
                       decode: Decoder): (r: LoginSubmit)
    ensures f.email == "" || f.password == "" ==>
              r == LoginSubmit(f.(error := LoginEmptyMessage), session, [], [])
    ensures f.email != "" && f.password != "" ==>
              var step := AuthContext.Login(session, f.email, f.password, response, decode);
              && r.session == step.state && r.calls == [step.call]
              && (step.outcome.Ok? ==> r.form == f.(error := "") && r.effects == [Navigate("/", None)])
              && (step.outcome.Err? ==> r.form == f.(error := LoginFailedMessage) && r.effects == [])
  {
    if f.email == "" || f.password == "" then LoginSubmit(f.(error := LoginEmptyMessage), session, [], [])
    else
      var step := AuthContext.Login(session, f.email, f.password, response, decode);
      if step.outcome.Ok? then LoginSubmit(f.(error := ""), step.state, [step.call], [Navigate("/", None)])
      else LoginSubmit(f.(error := LoginFailedMessage), step.state, [step.call], [])
  }

  /** The login message does not reveal why a login failed: a rejected
      request and an undecodable token read the same. */
  lemma LoginFailureMessageIsUniform(f: LoginFormState, session: AuthState, e: ApiError, t: string, decode: Decoder)
    requires f.email != "" && f.password != "" && decode(t).None?
    ensures SubmitLogin(f, session, Err(e), decode).form.error == LoginFailedMessage
    ensures SubmitLogin(f, session, Ok(t), decode).form.error == LoginFailedMessage
  {
  }

  /** A successful login through the form leaves an authenticated session
      and navigates home. */
  lemma SuccessfulLoginAuthenticates(f: LoginFormState, session: AuthState, t: string, decode: Decoder)
    requires f.email != "" && f.password != "" && t != "" && decode(t).Some?
    ensures IsAuthenticated(SubmitLogin(f, session, Ok(t), decode).session)
    ensures SubmitLogin(f, session, Ok(t), decode).effects == [Navigate("/", None)]
    ensures SubmitLogin(f, session, Ok(t), decode).form.error == ""
  {
  }

  /** The error is the server's `detail` when one is shown, so it has the
      detail's shape: usually text, a list for a validation error. */
  datatype RegisterFormState = RegisterFormState(name: string, email: string, password: string, error: ErrorDetail)

  const RegisterEmptyMessage := "Semua field wajib diisi."
  const RegisteredMessage := "Registrasi berhasil! Silakan login."
  const RegisterFailedMessage := "Terjadi kesalahan saat registrasi."

  /** `handleSubmit` of the registration form. The error is cleared first.
      An empty name, email or password sets the fixed error and sends
      nothing. Success alerts and goes to the login page; failure keeps the
      server's `detail` when it is truthy, whatever its shape, else a fixed
      message. */
  function SubmitRegister(f: RegisterFormState, response: Result<(), ApiError>): (r: Step<RegisterFormState>)
    ensures f.name == "" || f.email == "" || f.password == "" ==>
              r == Step(f.(error := TextDetail(RegisterEmptyMessage)), [], [])
    ensures f.name != "" && f.email != "" && f.password != "" ==>
              r.calls == [Register(f.name, f.email, f.password)]
    ensures f.name != "" && f.email != "" && f.password != "" && response.Ok? ==>
              r.state == f.(error := TextDetail("")) && r.effects == [Alert(RegisteredMessage), Navigate("/login", None)]
    ensures f.name != "" && f.email != "" && f.password != "" && response.Err? ==>
              && r.effects == [] && r.state.error != TextDetail("")
              && (DetailTruthy(response.error.detail) ==> r.state.error == response.error.detail.value)
              && (!DetailTruthy(response.error.detail) ==> r.state.error == TextDetail(RegisterFailedMessage))
  {
    if f.name == "" || f.email == "" || f.password == "" then Step(f.(error := TextDetail(RegisterEmptyMessage)), [], [])
    else
      var calls := [Register(f.name, f.email, f.password)];
      match response
      case Ok(_) => Step(f.(error := TextDetail("")), calls, [Alert(RegisteredMessage), Navigate("/login", None)])
      case Err(e) => Step(f.(error := DetailOr(e, RegisterFailedMessage)), calls, [])
  }

  /** What the form shows after a submission, for every outcome. A refused
      registration with a text detail shows it; a validation error's list of
      field errors is kept as the error too, and rendering it throws. */
  lemma RegisterErrorView(f: RegisterFormState, response: Result<(), ApiError>)
    ensures var view := RenderError(SubmitRegister(f, response).state.error);
            && (f.name == "" || f.email == "" || f.password == "" ==> view == Message(RegisterEmptyMessage))
            && (f.name != "" && f.email != "" && f.password != "" ==>
                  match response
                  case Ok(_) => view == NoMessage
                  case Err(ApiError(None)) => view == Message(RegisterFailedMessage)
                  case Err(ApiError(Some(TextDetail(text)))) =>
                    view == Message(if text == "" then RegisterFailedMessage else text)
                  case Err(ApiError(Some(ValidationErrors(messages)))) =>
                    view == if |messages| == 0 then EmptyMessage else RenderThrows)
  {
  }
}

=== FILE: auth_router.dfy ===
/**
 * The `/auth` endpoints (app/routers/auth.py): registration and the
 * OAuth2 password login that issues the access token.
 */
module AuthRouter {
  import opened Common
  import opened Models
  import opened Schemas
  import opened Http
  import opened Security
  import opened Crud

  /** bcrypt: hashing a password, and checking a password against a
      hash. */
  type PasswordHasher = string -> string
  type PasswordChecker = (string, string) -> bool

  const EmailTaken := Fail(BadRequest400, "Email sudah terdaftar.")
  const WrongCredentials := HttpError(Unauthorized401, Message("Email atau password salah"), true)
  const BearerTokenType := "bearer"

  /** `POST /auth/register`: 201 with the new user; 400 when the email is
      already registered. */
  function RegisterUser(db: Store, body: map<string, JsValue>, normalise: EmailNormaliser,
                        hash: PasswordHasher): (r: Outcome<Store, UserOut>)
    ensures ParseUserCreate(body, normalise).Err? ==> r == Outcome(db, Err(Unprocessable(ParseUserCreate(body, normalise).error)))
    ensures ParseUserCreate(body, normalise).Ok? && GetUserByEmail(db, ParseUserCreate(body, normalise).value.email).Some? ==>
              r == Outcome(db, Err(EmailTaken))
    ensures r.reply.Ok? <==> ParseUserCreate(body, normalise).Ok? && GetUserByEmail(db, ParseUserCreate(body, normalise).value.email).None?
    ensures r.reply.Ok? ==>
              var uc := ParseUserCreate(body, normalise).value;
              var u := User(db.next.user, uc.name, uc.email, hash(uc.password), UserRole);
              && r.state.users == db.users + [u]
              && r.state.(users := db.users, next := db.next) == db
              && r.reply.value == Response(Created201, UserResponse(u))
    ensures r.reply.Err? ==> r.state == db
  {
    match ParseUserCreate(body, normalise)
    case Err(fields) => Outcome(db, Err(Unprocessable(fields)))
    case Ok(uc) =>
      if GetUserByEmail(db, uc.email).Some? then Outcome(db, Err(EmailTaken))
      else
        match CreateUser(db, uc, hash)
        case Err(_) => Outcome(db, Err(InternalError))
        case Ok((db', u)) => Outcome(db', Ok(Response(Created201, UserResponse(u))))
  }

  /** The last value sent under `name` in a URL-encoded form; an empty
      value counts as not sent. */
  function UrlFormValue(pairs: seq<(string, string)>, name: string): (r: Option<string>)
    ensures r.Some? ==> r.value != "" && (name, r.value) in pairs
    ensures r.Some? ==> exists k :: LastSentAt(pairs, name, k) && pairs[k].1 == r.value
    ensures r.None? <==>
              forall k :: 0 <= k < |pairs| && pairs[k].0 == name ==>
                (pairs[k].1 == "" || exists j :: k < j < |pairs| && pairs[j].0 == name)
    decreases |pairs|
  {
    if |pairs| == 0 then None
    else
      var last := pairs[|pairs| - 1];
      if last.0 == name then
        if last.1 == "" then None
        else
          assert LastSentAt(pairs, name, |pairs| - 1);
          Some(last.1)
      else
        var pre := pairs[..|pairs| - 1];
        var r := UrlFormValue(pre, name);
        if r.Some? then
          var k :| LastSentAt(pre, name, k) && pre[k].1 == r.value;
          LastSentAtExtends(pairs, name, k);
          assert forall p :: p in pre ==> p in pairs;
          r
        else
          forall k | 0 <= k < |pairs| && pairs[k].0 == name
            ensures pairs[k].1 == "" || exists j :: k < j < |pairs| && pairs[j].0 == name
          {
            assert pre[k] == pairs[k];
            if pairs[k].1 != "" {
              var j :| k < j < |pre| && pre[j].0 == name;
              assert pairs[j] == pre[j];
            }
          }
          r
  }

  /** `OAuth2PasswordRequestForm`: `username` and `password` are required;
      a `grant_type`, when sent, must be "password". */
  datatype LoginForm = LoginForm(username: string, password: string)

  function ParseLoginForm(pairs: seq<(string, string)>): (r: Result<LoginForm, FieldErrors>)
    ensures r.Ok? <==> UrlFormValue(pairs, "username").Some? && UrlFormValue(pairs, "password").Some?
                       && UrlFormValue(pairs, "grant_type") in {None, Some("password")}
    ensures r.Ok? ==> r.value == LoginForm(UrlFormValue(pairs, "username").value, UrlFormValue(pairs, "password").value)
    ensures r.Err? ==> |r.error| > 0
  {
    var grant := UrlFormValue(pairs, "grant_type");
    var username := UrlFormValue(pairs, "username");
    var password := UrlFormValue(pairs, "password");
    var errors := (if grant.Some? && grant.value != "password" then ["grant_type"] else [])
                  + (if username.None? then ["username"] else [])
                  + (if password.None? then ["password"] else []);
    if errors == [] then Ok(LoginForm(username.value, password.value)) else Err(errors)
  }

  /** `POST /auth/login`: a bearer token for the user whose email is the
      form's username, when the password matches; the same 401 whether the
      email is unknown or the password wrong. */
  function LoginForAccessToken(db: Store, pairs: seq<(string, string)>, now: int, minutes: int,
                               verify: PasswordChecker, encode: TokenEncoder): (r: Result<Response<Token>, HttpError>)
    ensures ParseLoginForm(pairs).Err? ==> r == Err(Unprocessable(ParseLoginForm(pairs).error))
    ensures r.Ok? <==>
              && ParseLoginForm(pairs).Ok?
              && GetUserByEmail(db, ParseLoginForm(pairs).value.username).Some?
              && verify(ParseLoginForm(pairs).value.password, GetUserByEmail(db, ParseLoginForm(pairs).value.username).value.hashedPassword)
    ensures ParseLoginForm(pairs).Ok? && r.Err? ==> r.error == WrongCredentials
    ensures r.Ok? ==>
              var u := GetUserByEmail(db, ParseLoginForm(pairs).value.username).value;
              r.value == Response(Ok200, Token(CreateAccessToken(LoginClaims(u), now, minutes, encode), BearerTokenType))
  {
    match ParseLoginForm(pairs)
    case Err(fields) => Err(Unprocessable(fields))
    case Ok(form) =>
      match GetUserByEmail(db, form.username)
      case None => Err(WrongCredentials)
      case Some(u) =>
        if !verify(form.password, u.hashedPassword) then Err(WrongCredentials)
        else Ok(Response(Ok200, Token(CreateAccessToken(LoginClaims(u), now, minutes, encode), BearerTokenType)))
  }

  // ------------------------------------------------------------ properties

  /** The form the browser sends for a login parses to that email and
      password. */
  lemma ClientLoginFormParses(email: string, password: string)
    requires email != "" && password != ""
    ensures ParseLoginForm([("username", email), ("password", password)]) == Ok(LoginForm(email, password))
  {
    var pairs := [("username", email), ("password", password)];
    assert pairs[..1] == [("username", email)];
    assert pairs[..1][..0] == [];
    assert UrlFormValue(pairs, "grant_type") == None;
  }

  /** Whoever registers can log in with the same password, and the token
      they get back authenticates them until it expires; provided the
      password check accepts a password against its own hash and token
      decoding undoes encoding. */
  lemma RegisterThenLogin(db: Store, body: map<string, JsValue>, normalise: EmailNormaliser, hash: PasswordHasher,
                          verify: PasswordChecker, encode: TokenEncoder, decode: TokenDecoder,
                          now: int, minutes: int, later: int)
    requires Valid(db)
    requires RegisterUser(db, body, normalise, hash).reply.Ok?
    requires var uc := ParseUserCreate(body, normalise).value;
             uc.email != "" && verify(uc.password, hash(uc.password))
    requires var uc := ParseUserCreate(body, normalise).value;
             var u := User(db.next.user, uc.name, uc.email, hash(uc.password), UserRole);
             decode(encode(AccessTokenClaims(LoginClaims(u), now, minutes))) == Some(AccessTokenClaims(LoginClaims(u), now, minutes))
    requires later <= now + 60 * minutes
    ensures var uc := ParseUserCreate(body, normalise).value;
            var db1 := RegisterUser(db, body, normalise, hash).state;
            var login := LoginForAccessToken(db1, [("username", uc.email), ("password", uc.password)], now, minutes, verify, encode);
            && login.Ok?
            && GetCurrentUser(db1, Some("Bearer " + login.value.body.accessToken), later, decode).Ok?
            && GetCurrentUser(db1, Some("Bearer " + login.value.body.accessToken), later, decode).value.email == uc.email
  {
    var uc := ParseUserCreate(body, normalise).value;
    var db1 := RegisterUser(db, body, normalise, hash).state;
    var u := User(db.next.user, uc.name, uc.email, hash(uc.password), UserRole);
    CreateUserKeepsValid(db, uc, hash);
    assert u in db1.users;
    GetUserByEmailFindsOwner(db1, u);
    ClientLoginFormParses(uc.email, uc.password);
    IssuedTokenAuthenticatesUntilExpiry(db1, u, now, minutes, later, encode, decode);
  }

  /** Registering the same email twice is answered 400 the second time. */
  lemma RegisterTwice(db: Store, first: map<string, JsValue>, second: map<string, JsValue>,
                      normalise: EmailNormaliser, hash: PasswordHasher)
    requires RegisterUser(db, first, normalise, hash).reply.Ok?
    requires ParseUserCreate(second, normalise).Ok?
    requires ParseUserCreate(second, normalise).value.email == ParseUserCreate(first, normalise).value.email
    ensures var db1 := RegisterUser(db, first, normalise, hash).state;
            RegisterUser(db1, second, normalise, hash) == Outcome(db1, Err(EmailTaken))
  {
    var db1 := RegisterUser(db, first, normalise, hash).state;
    var u := db1.users[|db1.users| - 1];
    assert u in db1.users;
  }

  /** An unknown email and a wrong password are answered alike, so a
      failed login does not tell whether the email is registered. */
  lemma LoginFailureDoesNotRevealEmail(db: Store, unknown: seq<(string, string)>, wrong: seq<(string, string)>,
                                       now: int, minutes: int, verify: PasswordChecker, encode: TokenEncoder)
    requires ParseLoginForm(unknown).Ok? && GetUserByEmail(db, ParseLoginForm(unknown).value.username).None?
    requires ParseLoginForm(wrong).Ok? && GetUserByEmail(db, ParseLoginForm(wrong).value.username).Some?
    requires !verify(ParseLoginForm(wrong).value.password, GetUserByEmail(db, ParseLoginForm(wrong).value.username).value.hashedPassword)
    ensures LoginForAccessToken(db, unknown, now, minutes, verify, encode) == LoginForAccessToken(db, wrong, now, minutes, verify, encode)
  {
  }

  lemma RegisterKeepsValid(db: Store, body: map<string, JsValue>, normalise: EmailNormaliser, hash: PasswordHasher)
    requires Valid(db)
    ensures Valid(RegisterUser(db, body, normalise, hash).state)
  {
    if ParseUserCreate(body, normalise).Ok? {
      CreateUserKeepsValid(db, ParseUserCreate(body, normalise).value, hash);
    }
  }
}

=== FILE: common.dfy ===
/**
 * Vocabulary shared by the browser client and the backend service: optional
 * values, results, JavaScript truthiness, and the few string operations both
 * sides rely on (case-insensitive containment, path basename).
 */
module Common {

  datatype Option<+T> = None | Some(value: T)

  datatype Result<+T, +E> = Ok(value: T) | Err(error: E)

  /** JavaScript truthiness of a value that is either `null` or a string:
      `null` and `""` are falsy, every other string is truthy. */
  predicate Truthy(s: Option<string>) {
    s.Some? && s.value != ""
  }

  /** A loosely typed JavaScript value as a React form state holds it. */
  datatype JsValue = JsNull | JsStr(str: string) | JsNum(num: int)

  /** JavaScript truthiness: `null`, `""` and `0` are falsy. */
  predicate JsTruthy(v: JsValue) {
    match v
    case JsNull => false
    case JsStr(s) => s != ""
    case JsNum(n) => n != 0
  }

  /** ASCII case folding of one character. */
  function LowerChar(c: char): char {
    if 'A' <= c <= 'Z' then (c as int + 32) as char else c
  }

  function Lower(s: string): (r: string)
    ensures |r| == |s|
    ensures forall i :: 0 <= i < |s| ==> r[i] == LowerChar(s[i])
  {
    seq(|s|, i requires 0 <= i < |s| => LowerChar(s[i]))
  }

  /** `s` has no ASCII capital letter. */
  predicate IsLowerCase(s: string) {
    forall i :: 0 <= i < |s| ==> !('A' <= s[i] <= 'Z')
  }

  /** Folding leaves a string without capitals as it is, and folding twice
      is folding once. */
  lemma LowerKeepsLowerCase(s: string)
    ensures IsLowerCase(Lower(s))
    ensures IsLowerCase(s) ==> Lower(s) == s
  {
    if IsLowerCase(s) {
      assert forall i :: 0 <= i < |s| ==> Lower(s)[i] == s[i];
    }
  }

  predicate IsPrefix(p: string, s: string) {
    |p| <= |s| && s[..|p|] == p
  }

  /** `t` occurs in `s` as a contiguous substring. */
  predicate Contains(s: string, t: string)
    decreases |s|
  {
    IsPrefix(t, s) || (|s| > 0 && Contains(s[1..], t))
  }

  /** Containment ignoring ASCII case, the way an `ILIKE '%term%'` filter
      compares a column with a search term. */
  predicate ContainsIgnoringCase(s: string, t: string) {
    Contains(Lower(s), Lower(t))
  }

  /** Every string contains the empty string. */
  lemma {:induction false} ContainsEmpty(s: string)
    ensures Contains(s, "")
  {
    assert IsPrefix("", s);
  }

  /** A string contains itself, whatever the case of its letters. */
  lemma ContainsItself(s: string)
    ensures ContainsIgnoringCase(s, s)
  {
    assert IsPrefix(Lower(s), Lower(s));
  }

  /** Position of the last `/` in `p`, or -1 when there is none. */
  function LastSlash(p: string): (k: int)
    ensures -1 <= k < |p|
    ensures k >= 0 ==> p[k] == '/'
    ensures forall i :: k < i < |p| ==> p[i] != '/'
    decreases |p|
  {
    if |p| == 0 then -1
    else if p[|p| - 1] == '/' then |p| - 1
    else LastSlash(p[..|p| - 1])
  }

  /** The last component of a `/`-separated path (Python's `os.path.basename`
      on a POSIX system): the text after the final `/`. */
  function Basename(p: string): (r: string)
    ensures '/' !in r
    ensures |r| <= |p| && p[|p| - |r|..] == r
    ensures |r| < |p| ==> p[|p| - |r| - 1] == '/'
  {
    p[LastSlash(p) + 1..]
  }

  /** Decimal text of a natural number, as a template literal prints it.
      That it is the inverse of integer parsing is `Schemas.ParseNatToString`. */
  function NatToString(n: nat): (r: string)
    ensures |r| >= 1
    ensures forall i :: 0 <= i < |r| ==> '0' <= r[i] <= '9'
    decreases n
  {
    var d := [(n % 10 + 48) as char];
    if n < 10 then d else NatToString(n / 10) + d
  }
}

=== FILE: crud.dfy ===
/**
 * The query and persistence functions of crud.py over the in-memory store.
 * Hashing is a parameter; files are not written (only the paths the rows
 * record are computed); the server clock is the `now` argument.
 */
module Crud {
  import opened Common
  import opened Seqs
  import opened Ranking
  import opened Models
  import opened Schemas

  // ------------------------------------------------------------------ users

  /** `get_user_by_email`: the first user with exactly this email. */
  function GetUserByEmail(db: Store, email: string): (r: Option<User>)
    ensures r.Some? ==> r.value in db.users && r.value.email == email
    ensures r.None? <==> forall u :: u in db.users ==> u.email != email
  {
    var found := Filter(db.users, (u: User) => u.email == email);
    if |found| == 0 then None else Some(found[0])
  }

  /** Emails are unique, so looking up a stored user's email finds that
      user. */
  lemma GetUserByEmailFindsOwner(db: Store, u: User)
    requires Valid(db) && u in db.users
    ensures GetUserByEmail(db, u.email) == Some(u)
  {
  }

  /** `create_user`: the password is stored hashed and the role is the
      column default. */
  function CreateUser(db: Store, user: UserCreate, hash: string -> string): (r: Result<(Store, User), DbError>)
    ensures r.Err? <==> GetUserByEmail(db, user.email).Some?
    ensures r.Ok? ==>
              && r.value.1.role == UserRole && r.value.1.email == user.email && r.value.1.name == user.name
              && r.value.1.hashedPassword == hash(user.password)
              && r.value.0.users == db.users + [r.value.1]
              && r.value.0.(users := db.users, next := db.next) == db
  {
    InsertUser(db, user.name, user.email, hash(user.password), DefaultRole)
  }

  lemma CreateUserKeepsValid(db: Store, user: UserCreate, hash: string -> string)
    requires Valid(db)
    ensures CreateUser(db, user, hash).Ok? ==> Valid(CreateUser(db, user, hash).value.0)
  {
    InsertUserKeepsSchema(db, user.name, user.email, hash(user.password), DefaultRole);
  }

  // ------------------------------------------------------------------ e-books

  const UploadDirectory := "uploads"

  /** POSIX `os.path.join(directory, name)`: an absolute name replaces the
      directory; otherwise the two are joined with one `/`. */
  function JoinPath(directory: string, name: string): (r: string)
    ensures |name| > 0 && name[0] == '/' ==> r == name
    ensures (|name| == 0 || name[0] != '/') && directory != "" && directory[|directory| - 1] != '/' ==>
              r == directory + "/" + name
  {
    if |name| > 0 && name[0] == '/' then name
    else if directory == "" || directory[|directory| - 1] == '/' then directory + name
    else directory + "/" + name
  }

  /** An upload name without a `/` is stored directly in the upload
      directory, and the path's last component gives the name back. */
  lemma UploadPathKeepsName(name: string)
    requires '/' !in name
    ensures JoinPath(UploadDirectory, name) == "uploads/" + name
    ensures Basename(JoinPath(UploadDirectory, name)) == name
  {
    var p := JoinPath(UploadDirectory, name);
    assert p == "uploads/" + name;
    assert p[|"uploads/"|..] == name;
    var k := LastSlash(p);
    assert p[7] == '/';
    assert forall i :: 8 <= i < |p| ==> p[i] == name[i - 8];
    assert k == 7;
  }

  /** The paths of the files present on the server's disk. */
  type Files = set<string>

  /** The directory a path puts its file in: the text before the last `/`,
      the root for a file directly under it, the working directory for a
      bare name. */
  function ContainingDirectory(path: string): (d: string)
    ensures '/' !in path ==> d == "."
    ensures '/' in path && d != "/" ==> path == d + "/" + Basename(path)
  {
    var k := LastSlash(path);
    if k < 0 then
      assert forall i :: 0 <= i < |path| ==> path[i] != '/';
      "."
    else if k == 0 then "/"
    else
      assert path == path[..k] + "/" + path[k + 1..];
      path[..k]
  }

  /** Whether `open(path, "wb")` succeeds, given the directories on disk:
      the path names a file rather than a directory (no trailing `/`, not an
      existing directory), and the directory it names exists. */
  predicate CanCreate(dirs: set<string>, path: string) {
    && path != "" && path[|path| - 1] != '/'
    && path !in dirs
    && ContainingDirectory(path) in dirs
  }

  /** A plain, non-empty file name can be written into the upload directory
      whenever that directory exists and no directory has the name. */
  lemma PlainNameCanBeCreated(dirs: set<string>, name: string)
    requires name != "" && '/' !in name
    requires UploadDirectory in dirs && JoinPath(UploadDirectory, name) !in dirs
    ensures CanCreate(dirs, JoinPath(UploadDirectory, name))
  {
    var p := JoinPath(UploadDirectory, name);
    UploadPathKeepsName(name);
    assert p[..7] == UploadDirectory;
    assert LastSlash(p) == 7 by {
      assert p[7] == '/';
      assert forall i :: 8 <= i < |p| ==> p[i] == name[i - 8];
    }
    assert p[|p| - 1] == name[|name| - 1];
  }

  /** An empty upload name makes the path the upload directory itself
      (`uploads/`), which cannot be opened as a file. */
  lemma EmptyNameCannotBeCreated(dirs: set<string>)
    ensures !CanCreate(dirs, JoinPath(UploadDirectory, ""))
  {
    assert JoinPath(UploadDirectory, "") == "uploads/";
  }

  /** What `create_ebook` leaves behind: the files on disk, and the store
      with the new row unless opening one of the files raised. */
  datatype Creation = Creation(files: Files, created: Option<(Store, Ebook)>)

  /** `create_ebook`: the PDF and then the cover are written into the
      upload directory, and a new row records their paths. Opening a file
      that cannot be created raises: nothing is inserted, and a PDF already
      written stays on disk. */
  function CreateEbook(db: Store, files: Files, dirs: set<string>, form: UploadForm): (r: Creation)
    ensures var pdfPath := JoinPath(UploadDirectory, form.pdfFile.name);
            var coverPath := JoinPath(UploadDirectory, form.coverImage.name);
            && (r.created.Some? <==> CanCreate(dirs, pdfPath) && CanCreate(dirs, coverPath))
            && (!CanCreate(dirs, pdfPath) ==> r.files == files)
            && (CanCreate(dirs, pdfPath) && !CanCreate(dirs, coverPath) ==> r.files == files + {pdfPath})
            && (r.created.Some? ==> r.files == files + {pdfPath, coverPath})
    ensures r.created.Some? ==>
              var (db', e) := r.created.value;
              && e.title == form.ebook.title && e.author == form.ebook.author
              && e.description == form.ebook.description && e.publicationYear == form.ebook.publicationYear
              && e.filePath == JoinPath(UploadDirectory, form.pdfFile.name)
              && e.coverImagePath == Some(JoinPath(UploadDirectory, form.coverImage.name))
              && db'.ebooks == db.ebooks + [e] && e.id == db.next.ebook
              && db'.(ebooks := db.ebooks, next := db.next) == db
  {
    var pdfPath := JoinPath(UploadDirectory, form.pdfFile.name);
    var coverPath := JoinPath(UploadDirectory, form.coverImage.name);
    if !CanCreate(dirs, pdfPath) then Creation(files, None)
    else if !CanCreate(dirs, coverPath) then Creation(files + {pdfPath}, None)
    else
      var (db', e) := InsertEbook(db, form.ebook.title, form.ebook.author, form.ebook.description,
                                  form.ebook.publicationYear, pdfPath, Some(coverPath));
      Creation(files + {pdfPath, coverPath}, Some((db', e)))
  }

  /** Two uploads of files with the same name share one stored path: the
      second write replaces the first file. */
  lemma SameUploadNameSharesPath(db: Store, files: Files, dirs: set<string>, a: UploadForm, b: UploadForm)
    requires a.pdfFile.name == b.pdfFile.name
    requires CreateEbook(db, files, dirs, a).created.Some?
    ensures var first := CreateEbook(db, files, dirs, a);
            var (db1, e1) := first.created.value;
            var second := CreateEbook(db1, first.files, dirs, b);
            && (second.created.Some? <==> CanCreate(dirs, JoinPath(UploadDirectory, b.coverImage.name)))
            && (second.created.Some? ==> second.created.value.1.filePath == e1.filePath)
  {
  }

  lemma CreateEbookKeepsValid(db: Store, files: Files, dirs: set<string>, form: UploadForm)
    requires Valid(db)
    ensures CreateEbook(db, files, dirs, form).created.Some? ==> Valid(CreateEbook(db, files, dirs, form).created.value.0)
  {
    var ebook := form.ebook;
    InsertEbookKeepsSchema(db, ebook.title, ebook.author, ebook.description, ebook.publicationYear,
                           JoinPath(UploadDirectory, form.pdfFile.name), Some(JoinPath(UploadDirectory, form.coverImage.name)));
  }

  /** `get_ebook`: the row with this id, if any. */
  function GetEbook(db: Store, id: int): (r: Option<Ebook>)
    ensures r.Some? ==> r.value in db.ebooks && r.value.id == id
    ensures r.None? <==> forall e :: e in db.ebooks ==> e.id != id
  {
    var found := Filter(db.ebooks, (e: Ebook) => e.id == id);
    if |found| == 0 then None else Some(found[0])
  }

  lemma GetEbookFindsRow(db: Store, e: Ebook)
    requires Valid(db) && e in db.ebooks
    ensures GetEbook(db, e.id) == Some(e)
  {
    var i :| 0 <= i < |db.ebooks| && db.ebooks[i] == e;
    var found := GetEbook(db, e.id).value;
    var j :| 0 <= j < |db.ebooks| && db.ebooks[j] == found;
    AscendingKeysIdentify(db.ebooks, EbookKey, db.next.ebook, i, j);
  }

  /** The `sort_by` query parameter: "popular", "rating" and "newest" name
      an order; anything else, or nothing, means ascending id. */
  datatype SortBy = ById | Popular | Rating | Newest

  function ParseSortBy(s: Option<string>): (r: SortBy)
    ensures r == Popular <==> s == Some("popular")
    ensures r == Rating <==> s == Some("rating")
    ensures r == Newest <==> s == Some("newest")
  {
    if s == Some("popular") then Popular
    else if s == Some("rating") then Rating
    else if s == Some("newest") then Newest
    else ById
  }

  /** The search filter: the term occurs in the title or in the author,
      ignoring case. A missing author never matches. */
  predicate MatchesSearch(e: Ebook, term: string) {
    ContainsIgnoringCase(e.title, term) || (e.author.Some? && ContainsIgnoringCase(e.author.value, term))
  }

  function SearchFilter(ebooks: seq<Ebook>, search: Option<string>): (r: seq<Ebook>)
    ensures Truthy(search) ==> forall e :: e in r <==> e in ebooks && MatchesSearch(e, search.value)
    ensures !Truthy(search) ==> r == ebooks
    ensures multiset(r) <= multiset(ebooks)
  {
    if Truthy(search) then
      var r := Filter(ebooks, (e: Ebook) => MatchesSearch(e, search.value));
      FilterPartition(ebooks, (e: Ebook) => MatchesSearch(e, search.value), (e: Ebook) => !MatchesSearch(e, search.value));
      r
    else ebooks
  }

  /** Number of "download" entries in the activity log for an e-book. */
  function DownloadCount(db: Store, ebookId: nat): nat {
    Count(db.logs, (l: ActivityLog) => l.ebookId == ebookId && l.action == "download")
  }

  /** Number of activity-log entries of any kind for a user. */
  function ActivityCount(db: Store, userId: nat): nat {
    Count(db.logs, (l: ActivityLog) => l.userId == userId)
  }

  /** The "popular" order: joining the log and keeping only "download"
      rows drops e-books that were never downloaded; the rest come most
      downloaded first. */
  function PopularOrder(db: Store, ebooks: seq<Ebook>): (r: seq<Ebook>)
    ensures forall e :: e in r <==> e in ebooks && DownloadCount(db, e.id) > 0
    ensures forall i, j :: 0 <= i < j < |r| ==> DownloadCount(db, r[i].id) >= DownloadCount(db, r[j].id)
  {
    var downloaded := Filter(ebooks, (e: Ebook) => DownloadCount(db, e.id) > 0);
    var key := (e: Ebook) => DownloadCount(db, e.id) as real;
    SortDescKeepsMembers(downloaded, key);
    SortDesc(downloaded, key)
  }

  /** A sort key that may be NULL. */
  type NullableKey = Ebook -> Option<real>

  /** The key with NULL read as 0, for sorting the rows whose key is set. */
  function KnownKey(key: NullableKey): Ebook -> real {
    (e: Ebook) => if key(e).Some? then key(e).value else 0.0
  }

  /** `ORDER BY key DESC` with the NULLs together at one end: rows whose key
      is set come largest first, and rows whose key is NULL sit wholly
      before them or wholly after them. */
  predicate OrderedWithNulls(r: seq<Ebook>, key: NullableKey, nullsFirst: bool) {
    && (forall i, j :: 0 <= i < j < |r| && key(r[i]).Some? && key(r[j]).Some? ==> key(r[i]).value >= key(r[j]).value)
    && (forall i, j :: 0 <= i < |r| && 0 <= j < |r| && key(r[i]).None? && key(r[j]).Some? ==>
          (if nullsFirst then i < j else j < i))
  }

  lemma JoinNulls(unknown: seq<Ebook>, known: seq<Ebook>, key: NullableKey, nullsFirst: bool)
    requires forall k :: 0 <= k < |unknown| ==> key(unknown[k]).None?
    requires forall k :: 0 <= k < |known| ==> key(known[k]).Some?
    requires SortedDesc(known, KnownKey(key))
    ensures OrderedWithNulls(if nullsFirst then unknown + known else known + unknown, key, nullsFirst)
  {
    var r := if nullsFirst then unknown + known else known + unknown;
    if nullsFirst {
      assert forall k :: 0 <= k < |r| ==> r[k] == (if k < |unknown| then unknown[k] else known[k - |unknown|]);
    } else {
      assert forall k :: 0 <= k < |r| ==> r[k] == (if k < |known| then known[k] else unknown[k - |known|]);
    }
  }

  /** Sorting keeps a property every element has. */
  lemma SortKeepsProperty(s: seq<Ebook>, sortKey: Ebook -> real, p: Ebook -> bool)
    requires forall k :: 0 <= k < |s| ==> p(s[k])
    ensures forall k :: 0 <= k < |SortDesc(s, sortKey)| ==> p(SortDesc(s, sortKey)[k])
  {
    SortDescKeepsMembers(s, sortKey);
    var r := SortDesc(s, sortKey);
    forall k | 0 <= k < |r|
      ensures p(r[k])
    {
      assert r[k] in s;
    }
  }

  /** Sort by a nullable key, largest first, NULLs at the chosen end. */
  function NullsOrder(ebooks: seq<Ebook>, key: NullableKey, nullsFirst: bool): (r: seq<Ebook>)
    ensures multiset(r) == multiset(ebooks)
    ensures OrderedWithNulls(r, key, nullsFirst)
  {
    var known := Filter(ebooks, (e: Ebook) => key(e).Some?);
    var unknown := Filter(ebooks, (e: Ebook) => key(e).None?);
    FilterPartition(ebooks, (e: Ebook) => key(e).Some?, (e: Ebook) => key(e).None?);
    var sorted := SortDesc(known, KnownKey(key));
    SortKeepsProperty(known, KnownKey(key), (e: Ebook) => key(e).Some?);
    JoinNulls(unknown, sorted, key, nullsFirst);
    if nullsFirst then unknown + sorted else sorted + unknown
  }

  /** The publication year as a sort key. */
  function YearKey(e: Ebook): (k: Option<real>)
    ensures k.Some? <==> e.publicationYear.Some?
    ensures k.Some? ==> k.value == e.publicationYear.value as real
  {
    if e.publicationYear.Some? then Some(e.publicationYear.value as real) else None
  }

  /** Sum of the ratings of a list of reviews. */
  function RatingSum(reviews: seq<Review>): int
    decreases |reviews|
  {
    if |reviews| == 0 then 0 else reviews[0].rating + RatingSum(reviews[1..])
  }

  /** With every rating between 1 and 5, the sum of `n` ratings lies
      between `n` and `5n`. */
  lemma {:induction false} RatingSumBounds(reviews: seq<Review>)
    requires forall k :: 0 <= k < |reviews| ==> RatingMin <= reviews[k].rating <= RatingMax
    ensures |reviews| * RatingMin <= RatingSum(reviews) <= |reviews| * RatingMax
    decreases |reviews|
  {
    if |reviews| > 0 {
      RatingSumBounds(reviews[1..]);
    }
  }

  /** `AVG(reviews.rating)` over an e-book's reviews; NULL when it has
      none. */
  function AverageRating(db: Store, ebookId: nat): (r: Option<real>)
    ensures r.None? <==> forall v :: v in db.reviews ==> v.ebookId != ebookId
  {
    var mine := Filter(db.reviews, (v: Review) => v.ebookId == ebookId);
    assert |mine| > 0 ==> mine[0] in mine;
    if |mine| == 0 then None else Some(RatingSum(mine) as real / |mine| as real)
  }

  /** In a valid store every average rating lies between 1 and 5. */
  lemma AverageRatingInRange(db: Store, ebookId: nat)
    requires Valid(db) && AverageRating(db, ebookId).Some?
    ensures RatingMin as real <= AverageRating(db, ebookId).value <= RatingMax as real
  {
    var mine := Filter(db.reviews, (v: Review) => v.ebookId == ebookId);
    assert forall k :: 0 <= k < |mine| ==> mine[k] in db.reviews;
    MeanInRange(mine);
  }

  /** The mean of ratings that each lie between 1 and 5 lies there too. */
  lemma MeanInRange(reviews: seq<Review>)
    requires |reviews| > 0
    requires forall k :: 0 <= k < |reviews| ==> RatingMin <= reviews[k].rating <= RatingMax
    ensures RatingMin as real <= RatingSum(reviews) as real / |reviews| as real <= RatingMax as real
  {
    RatingSumBounds(reviews);
    DivisionBounds(RatingSum(reviews) as real, |reviews| as real, RatingMin as real, RatingMax as real);
  }

  /** `lo·n <= s <= hi·n` with `n > 0` puts `s / n` between `lo` and `hi`. */
  lemma DivisionBounds(s: real, n: real, lo: real, hi: real)
    requires n > 0.0 && lo * n <= s <= hi * n
    ensures lo <= s / n <= hi
  {
  }

  function RatingKey(db: Store): NullableKey {
    (e: Ebook) => AverageRating(db, e.id)
  }

  /** The default order, ascending id, as a descending order on the negated
      id. */
  function IdOrder(ebooks: seq<Ebook>): (r: seq<Ebook>)
    ensures multiset(r) == multiset(ebooks)
    ensures forall i, j :: 0 <= i < j < |r| ==> r[i].id <= r[j].id
  {
    SortDesc(ebooks, (e: Ebook) => -(e.id as real))
  }

  /** The rows of `get_ebooks` before the window is applied. "newest" leaves
      the place of e-books without a year to the database engine
      (PostgreSQL puts NULLs first in a descending order, SQLite last), so it
      is the `nullsFirst` parameter; "rating" asks for NULLs last itself. */
  function Listing(db: Store, search: Option<string>, sortBy: SortBy, nullsFirst: bool): (r: seq<Ebook>)
    ensures forall e :: e in r ==> e in db.ebooks && (Truthy(search) ==> MatchesSearch(e, search.value))
    ensures sortBy != Popular ==> multiset(r) == multiset(SearchFilter(db.ebooks, search))
    ensures sortBy == Popular ==> forall e :: e in r <==> e in SearchFilter(db.ebooks, search) && DownloadCount(db, e.id) > 0
    ensures sortBy == Popular ==> forall i, j :: 0 <= i < j < |r| ==> DownloadCount(db, r[i].id) >= DownloadCount(db, r[j].id)
    ensures sortBy == Newest ==> OrderedWithNulls(r, YearKey, nullsFirst)
    ensures sortBy == Rating ==> OrderedWithNulls(r, RatingKey(db), false)
    ensures sortBy == ById ==> forall i, j :: 0 <= i < j < |r| ==> r[i].id <= r[j].id
  {
    var matching := SearchFilter(db.ebooks, search);
    match sortBy
    case Popular =>
      var r := PopularOrder(db, matching);
      SearchedRows(db, search, r);
      r
    case Newest =>
      var r := NullsOrder(matching, YearKey, nullsFirst);
      SameMultisetSameMembers(r, matching);
      SearchedRows(db, search, r);
      r
    case Rating =>
      var r := NullsOrder(matching, RatingKey(db), false);
      SameMultisetSameMembers(r, matching);
      SearchedRows(db, search, r);
      r
    case ById =>
      var r := IdOrder(matching);
      SameMultisetSameMembers(r, matching);
      SearchedRows(db, search, r);
      r
  }

  /** Rows drawn from the search result are stored rows matching the
      search. */
  lemma SearchedRows(db: Store, search: Option<string>, r: seq<Ebook>)
    requires forall e :: e in r ==> e in SearchFilter(db.ebooks, search)
    ensures forall e :: e in r ==> e in db.ebooks && (Truthy(search) ==> MatchesSearch(e, search.value))
  {
  }

  /** `OFFSET … LIMIT …` keeps rows in the order they had. */
  lemma WindowKeepsOrder(s: seq<Ebook>, skip: nat, limit: nat, key: NullableKey, nullsFirst: bool)
    requires OrderedWithNulls(s, key, nullsFirst)
    ensures OrderedWithNulls(Window(s, skip, limit), key, nullsFirst)
  {
  }

  /** `get_ebooks`: search, order, then `OFFSET skip LIMIT limit`. */
  function GetEbooks(db: Store, skip: nat, limit: nat, search: Option<string>, sortBy: SortBy, nullsFirst: bool): (r: seq<Ebook>)
    ensures var listing := Listing(db, search, sortBy, nullsFirst);
            && |r| == (if skip >= |listing| then 0 else if |listing| - skip < limit then |listing| - skip else limit)
            && forall i :: 0 <= i < |r| ==> r[i] == listing[skip + i]
    ensures |r| <= limit
    ensures forall e :: e in r ==> e in db.ebooks && (Truthy(search) ==> MatchesSearch(e, search.value))
    ensures sortBy == Popular ==> forall e :: e in r ==> DownloadCount(db, e.id) > 0
    ensures sortBy == Popular ==> forall i, j :: 0 <= i < j < |r| ==> DownloadCount(db, r[i].id) >= DownloadCount(db, r[j].id)
    ensures sortBy == ById ==> forall i, j :: 0 <= i < j < |r| ==> r[i].id <= r[j].id
    ensures sortBy == Newest ==> OrderedWithNulls(r, YearKey, nullsFirst)
    ensures sortBy == Rating ==> OrderedWithNulls(r, RatingKey(db), false)
  {
    var listing := Listing(db, search, sortBy, nullsFirst);
    WindowOfListingKeepsOrder(db, skip, limit, search, sortBy, nullsFirst);
    Window(listing, skip, limit)
  }

  /** A window of the listing keeps the listing's order and draws from its
      rows. */
  lemma WindowOfListingKeepsOrder(db: Store, skip: nat, limit: nat, search: Option<string>, sortBy: SortBy, nullsFirst: bool)
    ensures var r := Window(Listing(db, search, sortBy, nullsFirst), skip, limit);
            && (forall e :: e in r ==> e in db.ebooks && (Truthy(search) ==> MatchesSearch(e, search.value)))
            && (sortBy == Popular ==> forall e :: e in r ==> DownloadCount(db, e.id) > 0)
            && (sortBy == Popular ==> forall i, j :: 0 <= i < j < |r| ==> DownloadCount(db, r[i].id) >= DownloadCount(db, r[j].id))
            && (sortBy == ById ==> forall i, j :: 0 <= i < j < |r| ==> r[i].id <= r[j].id)
            && (sortBy == Newest ==> OrderedWithNulls(r, YearKey, nullsFirst))
            && (sortBy == Rating ==> OrderedWithNulls(r, RatingKey(db), false))
  {
    var listing := Listing(db, search, sortBy, nullsFirst);
    WindowDrawsFromInput(listing, skip, limit);
    match sortBy
    case Newest =>
      WindowKeepsOrder(listing, skip, limit, YearKey, nullsFirst);
    case Rating =>
      WindowKeepsOrder(listing, skip, limit, RatingKey(db), false);
    case Popular =>
      WindowKeepsPairwise(listing, skip, limit, (a: Ebook, b: Ebook) => DownloadCount(db, a.id) >= DownloadCount(db, b.id));
    case ById =>
      WindowKeepsPairwise(listing, skip, limit, (a: Ebook, b: Ebook) => a.id <= b.id);
  }

  /** Without a search and in the default order, a page of e-books is the
      corresponding slice of the table: ids ascend in insertion order, so
      sorting by id changes nothing. */
  lemma {:induction false} DefaultListingIsTableOrder(db: Store, skip: nat, limit: nat, nullsFirst: bool)
    requires Valid(db)
    ensures GetEbooks(db, skip, limit, None, ById, nullsFirst) == Window(db.ebooks, skip, limit)
  {
    var key := (e: Ebook) => -(e.id as real);
    assert forall i, j :: 0 <= i < j < |db.ebooks| ==> key(db.ebooks[i]) > key(db.ebooks[j]) by {
      forall i, j | 0 <= i < j < |db.ebooks| ensures key(db.ebooks[i]) > key(db.ebooks[j]) {
        assert EbookKey(db.ebooks[i]) < EbookKey(db.ebooks[j]);
      }
    }
    SortStrictlyDescendingIsIdentity(db.ebooks, key);
  }

  /** A search with a large enough limit returns exactly the matching
      e-books. */
  lemma SearchIsExact(db: Store, term: string, sortBy: SortBy, nullsFirst: bool, e: Ebook)
    requires term != "" && sortBy != Popular
    ensures e in GetEbooks(db, 0, |db.ebooks|, Some(term), sortBy, nullsFirst) <==> e in db.ebooks && MatchesSearch(e, term)
  {
    var listing := Listing(db, Some(term), sortBy, nullsFirst);
    var matching := SearchFilter(db.ebooks, Some(term));
    assert |listing| == |multiset(listing)| == |multiset(matching)| == |matching| <= |db.ebooks|;
    assert Window(listing, 0, |db.ebooks|) == listing;
    assert e in listing <==> e in multiset(matching);
  }

  /** `update_ebook`: the fields the update sets are written, the rest kept,
      and every other row is untouched. A null title violates NOT NULL. */
  function UpdateEbook(db: Store, e: Ebook, update: EbookUpdate): (r: Result<(Store, Ebook), DbError>)
    ensures r.Err? <==> update.title == SetTo(None)
    ensures r.Ok? ==> Ok(r.value.1) == ApplyUpdate(e, update) && r.value.1.id == e.id
    ensures r.Ok? ==> r.value.0.(ebooks := db.ebooks) == db && |r.value.0.ebooks| == |db.ebooks|
    ensures r.Ok? ==> forall i :: 0 <= i < |db.ebooks| && db.ebooks[i].id != e.id ==> r.value.0.ebooks[i] == db.ebooks[i]
  {
    match ApplyUpdate(e, update)
    case Err(err) => Err(err)
    case Ok(e') => Ok((db.(ebooks := ReplaceEbook(db.ebooks, e')), e'))
  }

  lemma UpdateEbookKeepsValid(db: Store, e: Ebook, update: EbookUpdate)
    requires Valid(db) && e in db.ebooks
    ensures UpdateEbook(db, e, update).Ok? ==> Valid(UpdateEbook(db, e, update).value.0)
  {
    var r := UpdateEbook(db, e, update);
    if r.Ok? {
      ReplaceEbookKeepsSchema(db, r.value.1);
    }
  }

  /** The first half of `delete_ebook`: the book's PDF and cover are
      removed from disk when their paths are set. */
  function RemoveEbookFiles(files: Files, e: Ebook): (r: Files)
    ensures r <= files
    ensures e.filePath != "" ==> e.filePath !in r
    ensures e.coverImagePath.Some? && e.coverImagePath.value != "" ==> e.coverImagePath.value !in r
    ensures forall p :: p in files && p != e.filePath && e.coverImagePath != Some(p) ==> p in r
  {
    var afterPdf := if e.filePath != "" then files - {e.filePath} else files;
    if e.coverImagePath.Some? && e.coverImagePath.value != "" then afterPdf - {e.coverImagePath.value} else afterPdf
  }

  /** `delete_ebook`: the files go first; then the row goes, with its
      reviews and category links, unless favourites or activity logs still
      refer to it. A refused delete leaves the rows as they were but the
      files already removed. */
  function DeleteEbook(db: Store, files: Files, e: Ebook): (r: (Result<Store, DbError>, Files))
    ensures r.1 == RemoveEbookFiles(files, e)
    ensures r.0.Err? <==> (exists f :: f in db.favorites && f.ebookId == e.id) || (exists l :: l in db.logs && l.ebookId == e.id)
    ensures r.0.Ok? ==> !HasEbook(r.0.value, e.id) && forall v :: v in r.0.value.reviews ==> v.ebookId != e.id
    ensures r.0.Ok? ==> forall x :: x in db.ebooks && x.id != e.id ==> x in r.0.value.ebooks
  {
    (DeleteEbookRow(db, e.id), RemoveEbookFiles(files, e))
  }

  lemma DeleteEbookKeepsValid(db: Store, files: Files, e: Ebook)
    requires Valid(db)
    ensures DeleteEbook(db, files, e).0.Ok? ==> Valid(DeleteEbook(db, files, e).0.value)
  {
    DeleteEbookRowKeepsSchema(db, e.id);
  }

  /** An e-book that has been downloaded cannot be deleted, yet its PDF is
      gone from disk afterwards. */
  lemma DownloadedEbookCannotBeDeleted(db: Store, files: Files, e: Ebook)
    requires DownloadCount(db, e.id) > 0 && e.filePath != ""
    ensures DeleteEbook(db, files, e).0.Err?
    ensures e.filePath !in DeleteEbook(db, files, e).1
  {
    var logs := Filter(db.logs, (l: ActivityLog) => l.ebookId == e.id && l.action == "download");
    assert logs[0] in logs;
  }

  // ------------------------------------------------------------------ favourites

  /** `get_favorite`: the entry for this (user, e-book) pair, if any. */
  function GetFavorite(db: Store, userId: nat, ebookId: nat): (r: Option<Favorite>)
    ensures r.Some? ==> r.value in db.favorites && r.value.userId == userId && r.value.ebookId == ebookId
    ensures r.None? <==> forall f :: f in db.favorites ==> !(f.userId == userId && f.ebookId == ebookId)
  {
    var found := Filter(db.favorites, (f: Favorite) => f.userId == userId && f.ebookId == ebookId);
    if |found| == 0 then None else Some(found[0])
  }

  /** `add_to_favorites`: an existing entry is returned and nothing is
      written; otherwise one entry is inserted. */
  function AddToFavorites(db: Store, userId: nat, ebookId: nat): (r: Result<(Store, Favorite), DbError>)
    ensures GetFavorite(db, userId, ebookId).Some? ==> r == Ok((db, GetFavorite(db, userId, ebookId).value))
    ensures GetFavorite(db, userId, ebookId).None? ==>
              (r.Err? <==> !HasUser(db, userId) || !HasEbook(db, ebookId))
    ensures GetFavorite(db, userId, ebookId).None? && r.Ok? ==>
              r.value.0.favorites == db.favorites + [Favorite(db.next.favorite, userId, ebookId)]
    ensures r.Ok? ==> r.value.1.userId == userId && r.value.1.ebookId == ebookId
  {
    match GetFavorite(db, userId, ebookId)
    case Some(f) => Ok((db, f))
    case None => InsertFavorite(db, userId, ebookId)
  }

  /** Adding a favourite twice is adding it once. */
  lemma AddToFavoritesIdempotent(db: Store, userId: nat, ebookId: nat)
    requires AddToFavorites(db, userId, ebookId).Ok?
    ensures var (db1, f1) := AddToFavorites(db, userId, ebookId).value;
            AddToFavorites(db1, userId, ebookId) == Ok((db1, f1))
  {
    var (db1, f1) := AddToFavorites(db, userId, ebookId).value;
    if GetFavorite(db, userId, ebookId).None? {
      var found := Filter(db1.favorites, (f: Favorite) => f.userId == userId && f.ebookId == ebookId);
      FilterAppend(db.favorites, [f1], (f: Favorite) => f.userId == userId && f.ebookId == ebookId);
      assert Filter(db.favorites, (f: Favorite) => f.userId == userId && f.ebookId == ebookId) == [];
      assert [f1][1..] == [];
      assert found == [f1];
    }
  }

  lemma AddToFavoritesKeepsValid(db: Store, userId: nat, ebookId: nat)
    requires Valid(db)
    ensures AddToFavorites(db, userId, ebookId).Ok? ==> Valid(AddToFavorites(db, userId, ebookId).value.0)
  {
    if GetFavorite(db, userId, ebookId).None? {
      var r := InsertFavorite(db, userId, ebookId);
      if r.Ok? {
        InsertFavoriteKeepsSchema(db, userId, ebookId);
        var (db', f) := r.value;
        assert db'.reviews == db.reviews;
        forall a, b | a in db'.favorites && b in db'.favorites && a.userId == b.userId && a.ebookId == b.ebookId
          ensures a == b
        {
          assert a in db.favorites || a == f;
          assert b in db.favorites || b == f;
        }
      }
    }
  }

  /** `remove_from_favorites`. */
  function RemoveFromFavorites(db: Store, favorite: Favorite): (db': Store)
    ensures favorite !in db'.favorites
    ensures forall f :: f in db'.favorites <==> f in db.favorites && f.id != favorite.id
    ensures db'.(favorites := db.favorites) == db
  {
    DeleteFavoriteRow(db, favorite.id)
  }

  lemma RemoveFromFavoritesKeepsValid(db: Store, favorite: Favorite)
    requires Valid(db)
    ensures Valid(RemoveFromFavorites(db, favorite))
  {
    DeleteFavoriteRowKeepsSchema(db, favorite.id);
  }

  /** Removing the entry that adding created leaves no favourite for the
      pair. */
  lemma AddThenRemoveLeavesNoFavorite(db: Store, userId: nat, ebookId: nat)
    requires Valid(db) && AddToFavorites(db, userId, ebookId).Ok?
    ensures var (db1, f) := AddToFavorites(db, userId, ebookId).value;
            GetFavorite(RemoveFromFavorites(db1, f), userId, ebookId).None?
  {
    AddToFavoritesKeepsValid(db, userId, ebookId);
  }

  /** `get_user_favorites`: the e-books this user marked. */
  function GetUserFavorites(db: Store, userId: nat): (r: seq<Ebook>)
    ensures forall e :: e in r <==> e in db.ebooks && GetFavorite(db, userId, e.id).Some?
  {
    Filter(db.ebooks, (e: Ebook) => GetFavorite(db, userId, e.id).Some?)
  }

  // ------------------------------------------------------------------ activity

  /** `create_activity_log`. */
  function CreateActivityLog(db: Store, userId: nat, ebookId: nat, action: string, now: int): (r: Result<(Store, ActivityLog), DbError>)
    ensures r.Err? <==> !HasUser(db, userId) || !HasEbook(db, ebookId)
    ensures r.Ok? ==> r.value.0.logs == db.logs + [r.value.1] && r.value.1.userId == userId
                      && r.value.1.ebookId == ebookId && r.value.1.action == action && r.value.1.timestamp == now
    ensures r.Ok? ==> r.value.0.(logs := db.logs, next := db.next) == db
  {
    InsertLog(db, userId, ebookId, action, now)
  }

  lemma CreateActivityLogKeepsValid(db: Store, userId: nat, ebookId: nat, action: string, now: int)
    requires Valid(db)
    ensures CreateActivityLog(db, userId, ebookId, action, now).Ok? ==> Valid(CreateActivityLog(db, userId, ebookId, action, now).value.0)
  {
    InsertLogKeepsSchema(db, userId, ebookId, action, now);
  }

  /** A new download entry raises that e-book's download count by one and
      leaves every other e-book's count alone. */
  lemma DownloadLogCounts(db: Store, userId: nat, ebookId: nat, now: int, other: nat)
    requires CreateActivityLog(db, userId, ebookId, "download", now).Ok?
    ensures var db' := CreateActivityLog(db, userId, ebookId, "download", now).value.0;
            DownloadCount(db', ebookId) == DownloadCount(db, ebookId) + 1
            && (other != ebookId ==> DownloadCount(db', other) == DownloadCount(db, other))
  {
    var l := CreateActivityLog(db, userId, ebookId, "download", now).value.1;
    CountAppend(db.logs, l, (x: ActivityLog) => x.ebookId == ebookId && x.action == "download");
    CountAppend(db.logs, l, (x: ActivityLog) => x.ebookId == other && x.action == "download");
  }

  /** `get_user_activity_logs`: this user's entries, newest first. */
  function GetUserActivityLogs(db: Store, userId: nat): (r: seq<ActivityLog>)
    ensures multiset(r) == multiset(Filter(db.logs, (l: ActivityLog) => l.userId == userId))
    ensures forall l :: l in r <==> l in db.logs && l.userId == userId
    ensures forall i, j :: 0 <= i < j < |r| ==> r[i].timestamp >= r[j].timestamp
  {
    var mine := Filter(db.logs, (l: ActivityLog) => l.userId == userId);
    var key := (l: ActivityLog) => l.timestamp as real;
    SortDescKeepsMembers(mine, key);
    SortDesc(mine, key)
  }

  // ------------------------------------------------------------------ statistics

  datatype EbookStat = EbookStat(ebook: Ebook, downloadCount: nat)

  datatype UserStat = UserStat(user: User, activityCount: nat)

  /** One row per downloaded e-book with its download count (the inner join
      with "download" entries drops e-books never downloaded). */
  function EbookStats(db: Store, ebooks: seq<Ebook>): (r: seq<EbookStat>)
    ensures forall s :: s in r <==> s.ebook in ebooks && s.downloadCount == DownloadCount(db, s.ebook.id) && s.downloadCount > 0
    decreases |ebooks|
  {
    if |ebooks| == 0 then []
    else
      var rest := EbookStats(db, ebooks[1..]);
      assert forall e :: e in ebooks <==> e == ebooks[0] || e in ebooks[1..];
      var n := DownloadCount(db, ebooks[0].id);
      if n > 0 then [EbookStat(ebooks[0], n)] + rest else rest
  }

  function StatCount(s: EbookStat): real { s.downloadCount as real }

  /** Whether an e-book has at least one download. */
  function Downloaded(db: Store): Ebook -> bool {
    (e: Ebook) => DownloadCount(db, e.id) > 0
  }

  /** `EbookStats` has one row for each downloaded e-book. */
  lemma {:induction false} EbookStatsCountsDownloaded(db: Store, ebooks: seq<Ebook>)
    ensures |EbookStats(db, ebooks)| == Count(ebooks, Downloaded(db))
    decreases |ebooks|
  {
    if |ebooks| > 0 {
      EbookStatsCountsDownloaded(db, ebooks[1..]);
      var head := ebooks[0];
      var n := DownloadCount(db, head.id);
      var one := if n > 0 then 1 else 0;
      assert |EbookStats(db, ebooks)| == one + |EbookStats(db, ebooks[1..])|;
      assert |Filter(ebooks, Downloaded(db))| == one + |Filter(ebooks[1..], Downloaded(db))|;
      assert Count(ebooks[1..], Downloaded(db)) == |Filter(ebooks[1..], Downloaded(db))|;
      assert Count(ebooks, Downloaded(db)) == |Filter(ebooks, Downloaded(db))|;
    }
  }

  /** `get_most_downloaded_ebooks`: `limit` downloaded e-books, or all of
      them when fewer were downloaded, most downloaded first. It is the top
      `limit` of `EbookStats` by count, so nothing left out ranks higher
      (`Ranking.LeftOutOfTopN`), and with few downloaded e-books none is
      left out (`FewDownloadedAllShown`). */
  function GetMostDownloadedEbooks(db: Store, limit: nat): (r: seq<EbookStat>)
    ensures var downloaded := Count(db.ebooks, Downloaded(db));
            |r| == if limit < downloaded then limit else downloaded
    ensures forall s :: s in r ==> s.ebook in db.ebooks && s.downloadCount == DownloadCount(db, s.ebook.id) > 0
    ensures forall i, j :: 0 <= i < j < |r| ==> r[i].downloadCount >= r[j].downloadCount
  {
    var all := EbookStats(db, db.ebooks);
    EbookStatsCountsDownloaded(db, db.ebooks);
    TopNDrawsFromInput(all, StatCount, limit);
    TopN(all, StatCount, limit)
  }

  /** When no more than `limit` e-books were downloaded, every one of them
      is listed with its count. */
  lemma FewDownloadedAllShown(db: Store, limit: nat, e: Ebook)
    requires Count(db.ebooks, Downloaded(db)) <= limit
    requires e in db.ebooks && DownloadCount(db, e.id) > 0
    ensures EbookStat(e, DownloadCount(db, e.id)) in GetMostDownloadedEbooks(db, limit)
  {
    var all := EbookStats(db, db.ebooks);
    EbookStatsCountsDownloaded(db, db.ebooks);
    TopNKeepsAllWhenFew(all, StatCount, limit);
    assert EbookStat(e, DownloadCount(db, e.id)) in all;
  }

  /** `get_total_users_count`. */
  function GetTotalUsersCount(db: Store): (n: nat)
    ensures n == |db.users|
    ensures n == 0 <==> forall u :: u !in db.users
  {
    assert |db.users| > 0 ==> db.users[0] in db.users;
    |db.users|
  }

  /** One row per user with at least one activity entry, with that user's
      entry count (all actions). */
  function UserStats(db: Store, users: seq<User>): (r: seq<UserStat>)
    ensures forall s :: s in r <==> s.user in users && s.activityCount == ActivityCount(db, s.user.id) && s.activityCount > 0
    decreases |users|
  {
    if |users| == 0 then []
    else
      var rest := UserStats(db, users[1..]);
      assert forall u :: u in users <==> u == users[0] || u in users[1..];
      var n := ActivityCount(db, users[0].id);
      if n > 0 then [UserStat(users[0], n)] + rest else rest
  }

  function UserStatCount(s: UserStat): real { s.activityCount as real }

  /** Whether a user has at least one activity entry. */
  function Active(db: Store): User -> bool {
    (u: User) => ActivityCount(db, u.id) > 0
  }

  /** `UserStats` has one row for each active user. */
  lemma {:induction false} UserStatsCountsActive(db: Store, users: seq<User>)
    ensures |UserStats(db, users)| == Count(users, Active(db))
    decreases |users|
  {
    if |users| > 0 {
      UserStatsCountsActive(db, users[1..]);
      var head := users[0];
      var n := ActivityCount(db, head.id);
      var one := if n > 0 then 1 else 0;
      assert |UserStats(db, users)| == one + |UserStats(db, users[1..])|;
      assert |Filter(users, Active(db))| == one + |Filter(users[1..], Active(db))|;
      assert Count(users[1..], Active(db)) == |Filter(users[1..], Active(db))|;
      assert Count(users, Active(db)) == |Filter(users, Active(db))|;
    }
  }

  /** `get_most_active_users`: `limit` users who did anything, or all of
      them when fewer did, most active first. */
  function GetMostActiveUsers(db: Store, limit: nat): (r: seq<UserStat>)
    ensures var active := Count(db.users, Active(db));
            |r| == if limit < active then limit else active
    ensures forall s :: s in r ==> s.user in db.users && s.activityCount == ActivityCount(db, s.user.id) > 0
    ensures forall i, j :: 0 <= i < j < |r| ==> r[i].activityCount >= r[j].activityCount
  {
    var all := UserStats(db, db.users);
    UserStatsCountsActive(db, db.users);
    TopNDrawsFromInput(all, UserStatCount, limit);
    TopN(all, UserStatCount, limit)
  }

  /** When no more than `limit` users did anything, every one of them is
      listed with its count. */
  lemma FewActiveAllShown(db: Store, limit: nat, u: User)
    requires Count(db.users, Active(db)) <= limit
    requires u in db.users && ActivityCount(db, u.id) > 0
    ensures UserStat(u, ActivityCount(db, u.id)) in GetMostActiveUsers(db, limit)
  {
    var all := UserStats(db, db.users);
    UserStatsCountsActive(db, db.users);
    TopNKeepsAllWhenFew(all, UserStatCount, limit);
    assert UserStat(u, ActivityCount(db, u.id)) in all;
  }

  // ------------------------------------------------------------------ reviews

  /** `create_ebook_review`: nothing is written (the result is "none") when
      this user already reviewed this e-book; otherwise one review is
      inserted. */
  function CreateEbookReview(db: Store, userId: nat, ebookId: nat, review: ReviewCreate, now: int): (r: Result<Option<(Store, Review)>, DbError>)
    ensures (exists v :: v in db.reviews && v.userId == userId && v.ebookId == ebookId) ==> r == Ok(None)
    ensures (forall v :: v in db.reviews ==> !(v.userId == userId && v.ebookId == ebookId)) ==>
              (r.Err? <==> !HasUser(db, userId) || !HasEbook(db, ebookId))
    ensures r.Ok? && r.value.Some? ==>
              var (db', v) := r.value.value;
              && v == Review(db.next.review, review.rating, review.comment, userId, ebookId, now)
              && db'.reviews == db.reviews + [v] && db'.(reviews := db.reviews, next := db.next) == db
  {
    if exists v :: v in db.reviews && v.userId == userId && v.ebookId == ebookId then Ok(None)
    else
      match InsertReview(db, review.rating, review.comment, userId, ebookId, now)
      case Err(e) => Err(e)
      case Ok(created) => Ok(Some(created))
  }

  lemma CreateEbookReviewKeepsValid(db: Store, userId: nat, ebookId: nat, review: ReviewCreate, now: int)
    requires Valid(db) && RatingOk(review.rating)
    ensures var r := CreateEbookReview(db, userId, ebookId, review, now);
            r.Ok? && r.value.Some? ==> Valid(r.value.value.0)
  {
    InsertReviewKeepsSchema(db, review.rating, review.comment, userId, ebookId, now);
    var r := CreateEbookReview(db, userId, ebookId, review, now);
    if r.Ok? && r.value.Some? {
      var (db', v) := r.value.value;
      assert db'.favorites == db.favorites;
      forall a | a in db'.reviews
        ensures a in db.reviews || a == v
      {
      }
      forall a, b | a in db'.reviews && b in db'.reviews && a.userId == b.userId && a.ebookId == b.ebookId
        ensures a == b
      {
      }
    }
  }

  /** A second review of the same e-book by the same user is turned away and
      leaves the first one in place. */
  lemma SecondReviewRefused(db: Store, userId: nat, ebookId: nat, first: ReviewCreate, second: ReviewCreate, t1: int, t2: int)
    requires CreateEbookReview(db, userId, ebookId, first, t1).Ok?
    requires CreateEbookReview(db, userId, ebookId, first, t1).value.Some?
    ensures var db1 := CreateEbookReview(db, userId, ebookId, first, t1).value.value.0;
            CreateEbookReview(db1, userId, ebookId, second, t2) == Ok(None)
  {
    var (db1, v) := CreateEbookReview(db, userId, ebookId, first, t1).value.value;
    assert v in db1.reviews;
  }

  const DefaultReviewLimit := 100

  /** The reviews of one e-book, in table order. */
  function ReviewsOf(db: Store, ebookId: int): (r: seq<Review>)
    ensures forall v :: v in r <==> v in db.reviews && v.ebookId == ebookId
  {
    Filter(db.reviews, (v: Review) => v.ebookId == ebookId)
  }

  /** Adding a review of one e-book adds it at the end of that e-book's
      reviews and leaves every other e-book's reviews as they were. */
  lemma ReviewsOfAppend(db: Store, v: Review, ebookId: int)
    ensures ReviewsOf(db.(reviews := db.reviews + [v]), ebookId)
            == ReviewsOf(db, ebookId) + (if v.ebookId == ebookId then [v] else [])
  {
    FilterAppend(db.reviews, [v], (v: Review) => v.ebookId == ebookId);
  }

  /** `get_ebook_reviews`: this e-book's reviews, `OFFSET skip LIMIT limit`. */
  function GetEbookReviews(db: Store, ebookId: nat, skip: nat, limit: nat): (r: seq<Review>)
    ensures var mine := ReviewsOf(db, ebookId);
            && |r| == (if skip >= |mine| then 0 else if |mine| - skip < limit then |mine| - skip else limit)
            && forall i :: 0 <= i < |r| ==> r[i] == mine[skip + i]
    ensures |r| <= limit
    ensures forall v :: v in r ==> v in db.reviews && v.ebookId == ebookId
    ensures skip == 0 && limit >= |db.reviews| ==> forall v :: v in r <==> v in db.reviews && v.ebookId == ebookId
  {
    var mine := ReviewsOf(db, ebookId);
    var r := Window(mine, skip, limit);
    assert forall v :: v in r ==> v in mine;
    assert skip == 0 && limit >= |db.reviews| ==> r == mine;
    r
  }

  // ------------------------------------------------------------------ monitoring

  function UserId(u: User): real { u.id as real }
  function EbookId(e: Ebook): real { e.id as real }

  /** `get_latest_users`: the `limit` most recently registered users (largest
      ids), newest first. */
  function GetLatestUsers(db: Store, limit: nat): (r: seq<User>)
    ensures |r| == (if limit < |db.users| then limit else |db.users|)
    ensures forall i, j :: 0 <= i < j < |r| ==> r[i].id >= r[j].id
    ensures multiset(r) <= multiset(db.users)
    ensures forall u, i :: u in multiset(db.users) - multiset(r) && 0 <= i < |r| ==> u.id <= r[i].id
  {
    TopN(db.users, UserId, limit)
  }

  /** `get_latest_ebooks`: the `limit` most recently added e-books, newest
      first. */
  function GetLatestEbooks(db: Store, limit: nat): (r: seq<Ebook>)
    ensures |r| == (if limit < |db.ebooks| then limit else |db.ebooks|)
    ensures forall i, j :: 0 <= i < j < |r| ==> r[i].id >= r[j].id
    ensures multiset(r) <= multiset(db.ebooks)
    ensures forall e, i :: e in multiset(db.ebooks) - multiset(r) && 0 <= i < |r| ==> e.id <= r[i].id
  {
    TopN(db.ebooks, EbookId, limit)
  }
}

=== FILE: ebook_detail_page.dfy ===
/**
 * The e-book detail page (src/pages/EbookDetailPage.js): it fetches the
 * book and its reviews together, shows a cover, lets signed-in visitors
 * download the file and add a review, and opens the online reader.
 */
module EbookDetailPage {
  import opened Common
  import opened ApiClient
  import opened Ui

  datatype DetailState = DetailState(
    ebookId: string,
    ebook: Option<EbookItem>,
    reviews: seq<ReviewItem>,
    loading: bool,
    isDownloading: bool)

  const PlaceholderCover := "https://via.placeholder.com/300x400.png?text=No+Cover"
  const LoginForDownloadMessage := "Anda harus login terlebih dahulu untuk mengunduh."
  const DownloadFailedMessage := "Gagal mengunduh file. Mungkin Anda tidak memiliki akses."

  function Initial(ebookId: string): (s: DetailState)
    ensures s.ebook.None? && s.reviews == [] && s.loading && !s.isDownloading
  {
    DetailState(ebookId, None, [], true, false)
  }

  /** The mount effect. The two fetches are awaited together, so the book
      and its reviews are taken only when both succeed; either way loading
      ends. */
  function FetchDetails(s: DetailState, ebookResponse: Result<EbookItem, ApiError>,
                        reviewsResponse: Result<seq<ReviewItem>, ApiError>): (r: Step<DetailState>)
    ensures r.calls == [GetEbookById(s.ebookId), GetReviewsForEbook(s.ebookId)]
    ensures r.effects == []
    ensures !r.state.loading && r.state.ebookId == s.ebookId
    ensures ebookResponse.Ok? && reviewsResponse.Ok? ==>
              r.state.ebook == Some(ebookResponse.value) && r.state.reviews == reviewsResponse.value
    ensures ebookResponse.Err? || reviewsResponse.Err? ==> r.state == s.(loading := false)
  {
    var calls := [GetEbookById(s.ebookId), GetReviewsForEbook(s.ebookId)];
    if ebookResponse.Ok? && reviewsResponse.Ok? then
      Step(s.(ebook := Some(ebookResponse.value), reviews := reviewsResponse.value, loading := false), calls, [])
    else
      Step(s.(loading := false), calls, [])
  }

  /** `handleReviewAdded`: the new review goes first. */
  function HandleReviewAdded(s: DetailState, review: ReviewItem): (r: DetailState)
    ensures |r.reviews| == |s.reviews| + 1
    ensures r.reviews[0] == review && r.reviews[1..] == s.reviews
    ensures r.(reviews := s.reviews) == s
  {
    s.(reviews := [review] + s.reviews)
  }

  /** `handleDownloadClick`. A signed-out visitor is sent to the login page
      with an explanation and nothing is requested. A signed-in one
      downloads the file under the book's title; a failure is reported in
      an alert, and the download flag is off again afterwards. With no book
      loaded the title lookup throws inside the same `try`, so the failure
      alert appears and nothing is requested. */
  function HandleDownloadClick(s: DetailState, isAuthenticated: bool, response: Result<(), ApiError>): (r: Step<DetailState>)
    ensures !isAuthenticated ==> r.calls == [] && r.effects == [Navigate("/login", Some(LoginForDownloadMessage))]
    ensures isAuthenticated && s.ebook.Some? ==> r.calls == [DownloadEbookFile(s.ebookId, s.ebook.value.title)]
    ensures isAuthenticated && (s.ebook.None? || response.Err?) ==> r.effects == [Alert(DownloadFailedMessage)]
    ensures isAuthenticated && s.ebook.Some? && response.Ok? ==> r.effects == []
    ensures s.ebook.None? ==> r.calls == []
    ensures isAuthenticated ==> r.state == s.(isDownloading := false)
    ensures !isAuthenticated ==> r.state == s
  {
    if !isAuthenticated then
      Step(s, [], [Navigate("/login", Some(LoginForDownloadMessage))])
    else
      var done := s.(isDownloading := false);
      match s.ebook
      case None => Step(done, [], [Alert(DownloadFailedMessage)])
      case Some(book) =>
        var calls := [DownloadEbookFile(s.ebookId, book.title)];
        if response.Ok? then Step(done, calls, []) else Step(done, calls, [Alert(DownloadFailedMessage)])
  }

  /** `handleReadOnlineClick`: open the reader address in a new tab. */
  function HandleReadOnlineClick(s: DetailState): (r: Step<DetailState>)
    ensures r.state == s && r.calls == []
    ensures r.effects == [OpenWindow(BaseUrl + "/ebooks/" + s.ebookId + "/read", "_blank")]
  {
    Step(s, [], [OpenWindow(BaseUrl + "/ebooks/" + s.ebookId + "/read", "_blank")])
  }

  /** The cover address: the backend's base address and the stored cover
      path when one is set, else a fixed placeholder. */
  function CoverUrl(book: EbookItem): (url: string)
    ensures Truthy(book.coverImagePath) ==> url == BaseUrl + "/" + book.coverImagePath.value
    ensures !Truthy(book.coverImagePath) ==> url == PlaceholderCover
  {
    if Truthy(book.coverImagePath) then BaseUrl + "/" + book.coverImagePath.value else PlaceholderCover
  }

  datatype DetailView =
    | LoadingView
    | NotFoundView
    | BookView(coverUrl: string, showReviewForm: bool, downloadDisabled: bool, reviews: seq<ReviewItem>)

  /** Which of the three renderings the page shows. */
  function View(s: DetailState, isAuthenticated: bool): (v: DetailView)
    ensures v == LoadingView <==> s.loading
    ensures v == NotFoundView <==> !s.loading && s.ebook.None?
    ensures v.BookView? ==> v.showReviewForm == isAuthenticated && v.reviews == s.reviews
                            && v.downloadDisabled == s.isDownloading && v.coverUrl == CoverUrl(s.ebook.value)
  {
    if s.loading then LoadingView
    else if s.ebook.None? then NotFoundView
    else BookView(CoverUrl(s.ebook.value), isAuthenticated, s.isDownloading, s.reviews)
  }

  /** If either fetch fails the page settles on "not found". */
  lemma FailedFetchShowsNotFound(id: string, ebookResponse: Result<EbookItem, ApiError>,
                                 reviewsResponse: Result<seq<ReviewItem>, ApiError>, isAuthenticated: bool)
    requires ebookResponse.Err? || reviewsResponse.Err?
    ensures View(FetchDetails(Initial(id), ebookResponse, reviewsResponse).state, isAuthenticated) == NotFoundView
  {
  }

  /** A signed-out visitor can never start a download from this page and
      never sees the review form. */
  lemma SignedOutVisitorCannotDownloadOrReview(s: DetailState, response: Result<(), ApiError>)
    ensures HandleDownloadClick(s, false, response).calls == []
    ensures !View(s, false).BookView? || !View(s, false).showReviewForm
  {
  }

  /** Adding reviews one after another keeps them newest first. */
  lemma ReviewsStayNewestFirst(s: DetailState, a: ReviewItem, b: ReviewItem)
    ensures HandleReviewAdded(HandleReviewAdded(s, a), b).reviews == [b, a] + s.reviews
  {
  }
}

=== FILE: ebooks_router.dfy ===
/**
 * The `/ebooks` endpoints (app/routers/ebooks.py). The server's state is
 * the database together with the set of files on its disk. FastAPI runs an
 * endpoint's dependencies first, so authentication (401) and the admin
 * check (403) answer before the request body is validated (422), and the
 * handler's own checks (404) come last. A database error the handler does
 * not catch is answered with 500 and leaves the database as it was.
 */
module EbooksRouter {
  import opened Common
  import opened Models
  import opened Schemas
  import opened Http
  import opened Security
  import opened Crud
  import ApiClient

  /** The database and the server's disk: the files on it and its
      directories, which no endpoint creates or removes. */
  datatype Server = Server(db: Store, files: Files, dirs: set<string>)

  const EbookNotFound := Fail(NotFound404, "Ebook not found")
  const FileNotFound := Fail(NotFound404, "File not found on server")
  const FavoriteNotFound := Fail(NotFound404, "Favorite entry not found")

  /** `skip` and `limit` when the query leaves them out. */
  const DefaultSkip := 0
  const DefaultLimit := 100

  /** A PDF sent back: as an attachment under a file name, or inline for
      reading in the browser. */
  datatype FileReply = FileReply(path: string, mediaType: string, attachmentName: Option<string>)

  const PdfMediaType := "application/pdf"

  function EbookResponses(db: Store, ebooks: seq<Ebook>): (r: seq<EbookOut>)
    ensures |r| == |ebooks|
    ensures forall i :: 0 <= i < |r| ==> r[i] == EbookResponse(db, ebooks[i])
  {
    seq(|ebooks|, i requires 0 <= i < |ebooks| => EbookResponse(db, ebooks[i]))
  }

  /** `GET /ebooks/`: public; a page of the catalogue. */
  function ReadEbooks(db: Store, skip: nat, limit: nat, search: Option<string>, sortBy: Option<string>,
                      nullsFirst: bool): (r: Response<seq<EbookOut>>)
    ensures var listing := Listing(db, search, ParseSortBy(sortBy), nullsFirst);
            && r.status == Ok200
            && |r.body| == (if skip >= |listing| then 0 else if |listing| - skip < limit then |listing| - skip else limit)
            && forall i :: 0 <= i < |r.body| ==> r.body[i] == EbookResponse(db, listing[skip + i])
    ensures |r.body| <= limit
    ensures forall o :: o in r.body ==>
              exists e :: e in db.ebooks && o == EbookResponse(db, e) && (Truthy(search) ==> MatchesSearch(e, search.value))
  {
    var books := GetEbooks(db, skip, limit, search, ParseSortBy(sortBy), nullsFirst);
    ResponsesOfMatches(db, books, search);
    Response(Ok200, EbookResponses(db, books))
  }

  /** A freshly uploaded e-book is listed on the first page of the
      unsearched catalogue, in every order but by popularity, once the limit
      covers the catalogue. */
  lemma UploadedEbookIsListed(s: Server, authorization: Option<string>, env: Env,
                              parts: seq<(string, ApiClient.Part)>, limit: nat, sortBy: Option<string>, nullsFirst: bool)
    requires CreateNewEbook(s, authorization, env, parts).reply.Ok?
    requires limit >= |CreateNewEbook(s, authorization, env, parts).state.db.ebooks|
    requires ParseSortBy(sortBy) != Popular
    ensures var r := CreateNewEbook(s, authorization, env, parts);
            r.reply.value.body in ReadEbooks(r.state.db, 0, limit, None, sortBy, nullsFirst).body
  {
    var c := CreateEbook(s.db, s.files, s.dirs, ParseUploadForm(parts).value);
    var (db', e) := c.created.value;
    StoredEbookIsListed(db', e, limit, sortBy, nullsFirst);
  }

  /** Every stored e-book is listed on the first page of the unsearched
      catalogue, in every order but by popularity, once the limit covers the
      catalogue. */
  lemma StoredEbookIsListed(db: Store, e: Ebook, limit: nat, sortBy: Option<string>, nullsFirst: bool)
    requires e in db.ebooks && limit >= |db.ebooks|
    requires ParseSortBy(sortBy) != Popular
    ensures EbookResponse(db, e) in ReadEbooks(db, 0, limit, None, sortBy, nullsFirst).body
  {
    var listing := Listing(db, None, ParseSortBy(sortBy), nullsFirst);
    assert multiset(listing) == multiset(db.ebooks);
    assert |listing| == |db.ebooks|;
    assert e in multiset(listing);
    var i :| 0 <= i < |listing| && listing[i] == e;
    var body := ReadEbooks(db, 0, limit, None, sortBy, nullsFirst).body;
    assert body[i] == EbookResponse(db, e);
  }

  lemma ResponsesOfMatches(db: Store, books: seq<Ebook>, search: Option<string>)
    requires forall e :: e in books ==> e in db.ebooks && (Truthy(search) ==> MatchesSearch(e, search.value))
    ensures forall o :: o in EbookResponses(db, books) ==>
              exists e :: e in db.ebooks && o == EbookResponse(db, e) && (Truthy(search) ==> MatchesSearch(e, search.value))
  {
    var body := EbookResponses(db, books);
    forall o | o in body
      ensures exists e :: e in db.ebooks && o == EbookResponse(db, e) && (Truthy(search) ==> MatchesSearch(e, search.value))
    {
      var i :| 0 <= i < |body| && body[i] == o;
      assert books[i] in books;
    }
  }

  /** `POST /ebooks/`: admins only; stores both uploads and answers 201 with
      the new e-book. A file that cannot be opened for writing raises, which
      is answered with 500: no row is added, and a PDF written before the
      cover failed stays on disk. */
  function CreateNewEbook(s: Server, authorization: Option<string>, env: Env,
                          parts: seq<(string, ApiClient.Part)>): (r: Outcome<Server, EbookOut>)
    ensures GetCurrentAdminUser(s.db, authorization, env.now, env.decode).Err? ==>
              r == Outcome(s, Err(GetCurrentAdminUser(s.db, authorization, env.now, env.decode).error))
    ensures GetCurrentAdminUser(s.db, authorization, env.now, env.decode).Ok? && ParseUploadForm(parts).Err? ==>
              r == Outcome(s, Err(Unprocessable(ParseUploadForm(parts).error)))
    ensures GetCurrentAdminUser(s.db, authorization, env.now, env.decode).Ok? && ParseUploadForm(parts).Ok? ==>
              var c := CreateEbook(s.db, s.files, s.dirs, ParseUploadForm(parts).value);
              && r.state.files == c.files
              && (c.created.None? ==> r == Outcome(s.(files := c.files), Err(InternalError)))
              && (c.created.Some? ==>
                    var (db', e) := c.created.value;
                    r == Outcome(s.(db := db', files := c.files), Ok(Response(Created201, EbookResponse(db', e)))))
    ensures r.reply.Err? ==> r.state.db == s.db && r.state.dirs == s.dirs
  {
    match GetCurrentAdminUser(s.db, authorization, env.now, env.decode)
    case Err(e) => Outcome(s, Err(e))
    case Ok(_) =>
      match ParseUploadForm(parts)
      case Err(fields) => Outcome(s, Err(Unprocessable(fields)))
      case Ok(form) =>
        var c := CreateEbook(s.db, s.files, s.dirs, form);
        match c.created
        case None => Outcome(s.(files := c.files), Err(InternalError))
        case Some((db', e)) => Outcome(s.(db := db', files := c.files), Ok(Response(Created201, EbookResponse(db', e))))
  }

  /** `GET /ebooks/{id}`: public; the e-book or 404. */
  function ReadEbookDetail(db: Store, ebookId: int): (r: Result<Response<EbookOut>, HttpError>)
    ensures r.Err? <==> forall e :: e in db.ebooks ==> e.id != ebookId
    ensures r.Err? ==> r.error == EbookNotFound
    ensures r.Ok? ==>
              && r.value.status == Ok200
              && exists e :: e in db.ebooks && e.id == ebookId && r.value.body == EbookResponse(db, e)
  {
    match GetEbook(db, ebookId)
    case None => Err(EbookNotFound)
    case Some(e) => Ok(Response(Ok200, EbookResponse(db, e)))
  }

  /** `PUT /ebooks/{id}`: admins only; applies the fields the body sets. A
      null title breaks the NOT NULL constraint, which is answered with 500. */
  function UpdateExistingEbook(s: Server, authorization: Option<string>, env: Env, ebookId: int,
                               body: map<string, JsValue>): (r: Outcome<Server, EbookOut>)
    ensures GetCurrentAdminUser(s.db, authorization, env.now, env.decode).Err? ==>
              r == Outcome(s, Err(GetCurrentAdminUser(s.db, authorization, env.now, env.decode).error))
    ensures GetCurrentAdminUser(s.db, authorization, env.now, env.decode).Ok? && ParseEbookUpdate(body).Err? ==>
              r == Outcome(s, Err(Unprocessable(ParseEbookUpdate(body).error)))
    ensures GetCurrentAdminUser(s.db, authorization, env.now, env.decode).Ok? && ParseEbookUpdate(body).Ok? ==>
              && (GetEbook(s.db, ebookId).None? ==> r == Outcome(s, Err(EbookNotFound)))
              && (GetEbook(s.db, ebookId).Some? && ParseEbookUpdate(body).value.title == SetTo(None) ==>
                    r == Outcome(s, Err(InternalError)))
    ensures r.reply.Ok? ==>
              && GetEbook(s.db, ebookId).Some? && ParseEbookUpdate(body).Ok?
              && var e := GetEbook(s.db, ebookId).value;
                 var (db', e') := UpdateEbook(s.db, e, ParseEbookUpdate(body).value).value;
                 r == Outcome(s.(db := db'), Ok(Response(Ok200, EbookResponse(db', e'))))
    ensures r.reply.Err? ==> r.state == s
  {
    match GetCurrentAdminUser(s.db, authorization, env.now, env.decode)
    case Err(e) => Outcome(s, Err(e))
    case Ok(_) =>
      match ParseEbookUpdate(body)
      case Err(fields) => Outcome(s, Err(Unprocessable(fields)))
      case Ok(update) =>
        match GetEbook(s.db, ebookId)
        case None => Outcome(s, Err(EbookNotFound))
        case Some(e) =>
          match UpdateEbook(s.db, e, update)
          case Err(_) => Outcome(s, Err(InternalError))
          case Ok((db', e')) => Outcome(s.(db := db'), Ok(Response(Ok200, EbookResponse(db', e'))))
  }

  /** `DELETE /ebooks/{id}`: admins only. The files are removed before the
      row; when the row cannot go (favourites or activity logs refer to
      it) the answer is 500, the rows stay, and the files are gone all the
      same. A 204 answer carries no body. */
  function DeleteExistingEbook(s: Server, authorization: Option<string>, env: Env, ebookId: int): (r: Outcome<Server, ()>)
    ensures GetCurrentAdminUser(s.db, authorization, env.now, env.decode).Err? ==>
              r == Outcome(s, Err(GetCurrentAdminUser(s.db, authorization, env.now, env.decode).error))
    ensures GetCurrentAdminUser(s.db, authorization, env.now, env.decode).Ok? && GetEbook(s.db, ebookId).None? ==>
              r == Outcome(s, Err(EbookNotFound))
    ensures GetCurrentAdminUser(s.db, authorization, env.now, env.decode).Ok? && GetEbook(s.db, ebookId).Some? ==>
              var e := GetEbook(s.db, ebookId).value;
              var (deleted, files') := DeleteEbook(s.db, s.files, e);
              && r.state.files == files'
              && (deleted.Err? ==> r == Outcome(s.(files := files'), Err(InternalError)))
              && (deleted.Ok? ==> r == Outcome(s.(db := deleted.value, files := files'), Ok(Response(NoContent204, ()))))
  {
    match GetCurrentAdminUser(s.db, authorization, env.now, env.decode)
    case Err(e) => Outcome(s, Err(e))
    case Ok(_) =>
      match GetEbook(s.db, ebookId)
      case None => Outcome(s, Err(EbookNotFound))
      case Some(e) =>
        var (deleted, files') := DeleteEbook(s.db, s.files, e);
        match deleted
        case Err(_) => Outcome(s.(files := files'), Err(InternalError))
        case Ok(db') => Outcome(s.(db := db', files := files'), Ok(Response(NoContent204, ())))
  }

  /** The file an e-book row points to, if its path is set and the file is
      on disk. */
  function StoredFile(s: Server, ebookId: int): (r: Result<Ebook, HttpError>)
    ensures r.Ok? <==> GetEbook(s.db, ebookId).Some? && GetEbook(s.db, ebookId).value.filePath in s.files
                       && GetEbook(s.db, ebookId).value.filePath != ""
    ensures r.Ok? ==> r.value == GetEbook(s.db, ebookId).value
    ensures r.Err? ==> r.error == (if GetEbook(s.db, ebookId).None? then EbookNotFound else FileNotFound)
  {
    match GetEbook(s.db, ebookId)
    case None => Err(EbookNotFound)
    case Some(e) =>
      if e.filePath == "" || e.filePath !in s.files then Err(FileNotFound) else Ok(e)
  }

  /** `GET /ebooks/{id}/download`: signed-in users only; records one
      "download" entry, then sends the PDF under its file name. */
  function DownloadEbook(s: Server, authorization: Option<string>, env: Env, ebookId: int): (r: Outcome<Server, FileReply>)
    ensures GetCurrentUser(s.db, authorization, env.now, env.decode).Err? ==>
              r == Outcome(s, Err(GetCurrentUser(s.db, authorization, env.now, env.decode).error))
    ensures GetCurrentUser(s.db, authorization, env.now, env.decode).Ok? && StoredFile(s, ebookId).Err? ==>
              r == Outcome(s, Err(StoredFile(s, ebookId).error))
    ensures r.reply.Ok? ==>
              && GetCurrentUser(s.db, authorization, env.now, env.decode).Ok? && StoredFile(s, ebookId).Ok?
              && var u := GetCurrentUser(s.db, authorization, env.now, env.decode).value;
                 var e := StoredFile(s, ebookId).value;
                 && r.state.files == s.files
                 && r.state.db.logs == s.db.logs + [ActivityLog(s.db.next.log, u.id, e.id, "download", env.now)]
                 && r.state.db.(logs := s.db.logs, next := s.db.next) == s.db
                 && r.reply.value == Response(Ok200, FileReply(e.filePath, PdfMediaType, Some(Basename(e.filePath))))
    ensures r.reply.Err? ==> r.state == s
  {
    match GetCurrentUser(s.db, authorization, env.now, env.decode)
    case Err(err) => Outcome(s, Err(err))
    case Ok(u) =>
      match StoredFile(s, ebookId)
      case Err(err) => Outcome(s, Err(err))
      case Ok(e) =>
        match CreateActivityLog(s.db, u.id, e.id, "download", env.now)
        case Err(_) => Outcome(s, Err(InternalError))
        case Ok((db', _)) =>
          Outcome(s.(db := db'), Ok(Response(Ok200, FileReply(e.filePath, PdfMediaType, Some(Basename(e.filePath))))))
  }

  /** `GET /ebooks/{id}/read`: public; the PDF inline. Nothing is
      recorded. */
  function ReadEbookOnline(s: Server, ebookId: int): (r: Result<Response<FileReply>, HttpError>)
    ensures r.Err? <==> StoredFile(s, ebookId).Err?
    ensures r.Err? ==> r.error == StoredFile(s, ebookId).error
    ensures r.Ok? ==> r.value == Response(Ok200, FileReply(StoredFile(s, ebookId).value.filePath, PdfMediaType, None))
  {
    match StoredFile(s, ebookId)
    case Err(err) => Err(err)
    case Ok(e) => Ok(Response(Ok200, FileReply(e.filePath, PdfMediaType, None)))
  }

  /** `POST /ebooks/{id}/favorite`: signed-in users only; 201 with the
      e-book whether or not it was a favourite already. */
  function AddEbookToFavorites(s: Server, authorization: Option<string>, env: Env, ebookId: int): (r: Outcome<Server, EbookOut>)
    ensures GetCurrentUser(s.db, authorization, env.now, env.decode).Err? ==>
              r == Outcome(s, Err(GetCurrentUser(s.db, authorization, env.now, env.decode).error))
    ensures GetCurrentUser(s.db, authorization, env.now, env.decode).Ok? && GetEbook(s.db, ebookId).None? ==>
              r == Outcome(s, Err(EbookNotFound))
    ensures r.reply.Ok? ==>
              && GetCurrentUser(s.db, authorization, env.now, env.decode).Ok? && GetEbook(s.db, ebookId).Some?
              && var u := GetCurrentUser(s.db, authorization, env.now, env.decode).value;
                 var e := GetEbook(s.db, ebookId).value;
                 && r.state.files == s.files
                 && r.state.db == AddToFavorites(s.db, u.id, e.id).value.0
                 && GetFavorite(r.state.db, u.id, e.id).Some?
                 && r.reply.value == Response(Created201, EbookResponse(r.state.db, e))
    ensures r.reply.Err? ==> r.state == s
  {
    match GetCurrentUser(s.db, authorization, env.now, env.decode)
    case Err(err) => Outcome(s, Err(err))
    case Ok(u) =>
      match GetEbook(s.db, ebookId)
      case None => Outcome(s, Err(EbookNotFound))
      case Some(e) =>
        match AddToFavorites(s.db, u.id, e.id)
        case Err(_) => Outcome(s, Err(InternalError))
        case Ok((db', f)) =>
          assert f in db'.favorites by {
            if GetFavorite(s.db, u.id, e.id).None? {
              assert db'.favorites == s.db.favorites + [f];
            }
          }
          Outcome(s.(db := db'), Ok(Response(Created201, EbookResponse(db', e))))
  }

  /** `DELETE /ebooks/{id}/favorite`: signed-in users only; 404 when the
      e-book is not among the user's favourites, whether or not it exists. */
  function RemoveEbookFromFavorites(s: Server, authorization: Option<string>, env: Env, ebookId: int): (r: Outcome<Server, ()>)
    ensures GetCurrentUser(s.db, authorization, env.now, env.decode).Err? ==>
              r == Outcome(s, Err(GetCurrentUser(s.db, authorization, env.now, env.decode).error))
    ensures GetCurrentUser(s.db, authorization, env.now, env.decode).Ok? ==>
              var u := GetCurrentUser(s.db, authorization, env.now, env.decode).value;
              && (ebookId < 0 || GetFavorite(s.db, u.id, ebookId).None? ==> r == Outcome(s, Err(FavoriteNotFound)))
              && (r.reply.Ok? ==> r.reply.value.status == NoContent204 && ebookId >= 0
                                  && r.state == s.(db := RemoveFromFavorites(s.db, GetFavorite(s.db, u.id, ebookId).value)))
  {
    match GetCurrentUser(s.db, authorization, env.now, env.decode)
    case Err(err) => Outcome(s, Err(err))
    case Ok(u) =>
      if ebookId < 0 then Outcome(s, Err(FavoriteNotFound))
      else
        match GetFavorite(s.db, u.id, ebookId)
        case None => Outcome(s, Err(FavoriteNotFound))
        case Some(f) => Outcome(s.(db := RemoveFromFavorites(s.db, f)), Ok(Response(NoContent204, ())))
  }

  // ------------------------------------------------------------ properties

  /** A book an admin uploads can be downloaded right away by any signed-in
      user, under the name its PDF was uploaded with. */
  lemma UploadThenDownload(s: Server, admin: Option<string>, reader: Option<string>, env: Env,
                           parts: seq<(string, ApiClient.Part)>)
    requires Valid(s.db)
    requires CreateNewEbook(s, admin, env, parts).reply.Ok?
    requires GetCurrentUser(s.db, reader, env.now, env.decode).Ok?
    requires '/' !in ParseUploadForm(parts).value.pdfFile.name
    ensures var s1 := CreateNewEbook(s, admin, env, parts).state;
            var d := DownloadEbook(s1, reader, env, s.db.next.ebook);
            && d.reply.Ok?
            && d.reply.value.body.attachmentName == Some(ParseUploadForm(parts).value.pdfFile.name)
  {
    var form := ParseUploadForm(parts).value;
    var c := CreateEbook(s.db, s.files, s.dirs, form);
    var (db1, e) := c.created.value;
    var s1 := s.(db := db1, files := c.files);
    assert CreateNewEbook(s, admin, env, parts).state == s1;
    CreateEbookKeepsValid(s.db, s.files, s.dirs, form);
    assert e in db1.ebooks;
    GetEbookFindsRow(db1, e);
    assert StoredFile(s1, s.db.next.ebook) == Ok(e);
    AuthenticationReadsOnlyUsers(s.db, db1, reader, env.now, env.decode);
    DownloadOfStoredFileSucceeds(s1, reader, env, s.db.next.ebook);
    UploadPathKeepsName(form.pdfFile.name);
  }

  /** An upload whose cover cannot be written, for instance one with an
      empty cover name, is answered with 500 and adds no row, yet its PDF
      has been written and stays on disk with no row pointing at it. */
  lemma FailedCoverWriteLeavesOrphanPdf(s: Server, admin: Option<string>, env: Env,
                                        parts: seq<(string, ApiClient.Part)>)
    requires GetCurrentAdminUser(s.db, admin, env.now, env.decode).Ok? && ParseUploadForm(parts).Ok?
    requires var form := ParseUploadForm(parts).value;
             CanCreate(s.dirs, JoinPath(UploadDirectory, form.pdfFile.name))
             && !CanCreate(s.dirs, JoinPath(UploadDirectory, form.coverImage.name))
    ensures var r := CreateNewEbook(s, admin, env, parts);
            && r.reply == Err(InternalError)
            && r.state.db == s.db
            && r.state.files == s.files + {JoinPath(UploadDirectory, ParseUploadForm(parts).value.pdfFile.name)}
  {
  }

  /** A delete refused because the book has been downloaded still removes
      its PDF from disk, so the row that stays can no longer be downloaded
      or read. */
  lemma RefusedDeleteLosesFile(s: Server, admin: Option<string>, reader: Option<string>, env: Env, e: Ebook)
    requires Valid(s.db) && e in s.db.ebooks && e.filePath != "" && DownloadCount(s.db, e.id) > 0
    requires GetCurrentAdminUser(s.db, admin, env.now, env.decode).Ok?
    requires GetCurrentUser(s.db, reader, env.now, env.decode).Ok?
    ensures var s1 := DeleteExistingEbook(s, admin, env, e.id).state;
            && DeleteExistingEbook(s, admin, env, e.id).reply == Err(InternalError)
            && s1.db == s.db
            && DownloadEbook(s1, reader, env, e.id) == Outcome(s1, Err(FileNotFound))
            && ReadEbookOnline(s1, e.id) == Err(FileNotFound)
  {
    GetEbookFindsRow(s.db, e);
    DownloadedEbookCannotBeDeleted(s.db, s.files, e);
  }

  /** Marking a favourite twice answers the same and stores it once. */
  lemma AddFavoriteTwice(s: Server, authorization: Option<string>, env: Env, ebookId: int)
    requires AddEbookToFavorites(s, authorization, env, ebookId).reply.Ok?
    ensures var once := AddEbookToFavorites(s, authorization, env, ebookId);
            AddEbookToFavorites(once.state, authorization, env, ebookId) == once
  {
    var u := GetCurrentUser(s.db, authorization, env.now, env.decode).value;
    var e := GetEbook(s.db, ebookId).value;
    var (db1, f) := AddToFavorites(s.db, u.id, e.id).value;
    AddToFavoritesIdempotent(s.db, u.id, e.id);
    assert db1.(favorites := s.db.favorites, next := s.db.next) == s.db by {
      if GetFavorite(s.db, u.id, e.id).None? {
        assert db1.favorites == s.db.favorites + [Favorite(s.db.next.favorite, u.id, e.id)];
      }
    }
    assert GetCurrentUser(db1, authorization, env.now, env.decode) == GetCurrentUser(s.db, authorization, env.now, env.decode);
    assert GetEbook(db1, ebookId) == GetEbook(s.db, ebookId);
  }

  /** Removing a favourite and then removing it again answers 404 the
      second time. */
  lemma RemoveFavoriteTwice(s: Server, authorization: Option<string>, env: Env, ebookId: int)
    requires Valid(s.db)
    requires RemoveEbookFromFavorites(s, authorization, env, ebookId).reply.Ok?
    ensures var once := RemoveEbookFromFavorites(s, authorization, env, ebookId);
            RemoveEbookFromFavorites(once.state, authorization, env, ebookId) == Outcome(once.state, Err(FavoriteNotFound))
  {
    var u := GetCurrentUser(s.db, authorization, env.now, env.decode).value;
    var f := GetFavorite(s.db, u.id, ebookId).value;
    var db1 := RemoveFromFavorites(s.db, f);
    assert GetCurrentUser(db1, authorization, env.now, env.decode) == GetCurrentUser(s.db, authorization, env.now, env.decode);
    forall g | g in db1.favorites
      ensures !(g.userId == u.id && g.ebookId == ebookId)
    {
      assert g in s.db.favorites && g.id != f.id;
    }
  }

  /** Each writing endpoint keeps the database valid, whatever it
      answers. */
  lemma CreateNewEbookKeepsValid(s: Server, authorization: Option<string>, env: Env, parts: seq<(string, ApiClient.Part)>)
    requires Valid(s.db)
    ensures Valid(CreateNewEbook(s, authorization, env, parts).state.db)
  {
    if ParseUploadForm(parts).Ok? {
      CreateEbookKeepsValid(s.db, s.files, s.dirs, ParseUploadForm(parts).value);
    }
  }

  lemma UpdateExistingEbookKeepsValid(s: Server, authorization: Option<string>, env: Env, ebookId: int,
                                      body: map<string, JsValue>)
    requires Valid(s.db)
    ensures Valid(UpdateExistingEbook(s, authorization, env, ebookId, body).state.db)
  {
    if GetEbook(s.db, ebookId).Some? && ParseEbookUpdate(body).Ok? {
      UpdateEbookKeepsValid(s.db, GetEbook(s.db, ebookId).value, ParseEbookUpdate(body).value);
    }
  }

  lemma DeleteExistingEbookKeepsValid(s: Server, authorization: Option<string>, env: Env, ebookId: int)
    requires Valid(s.db)
    ensures Valid(DeleteExistingEbook(s, authorization, env, ebookId).state.db)
  {
    if GetEbook(s.db, ebookId).Some? {
      DeleteEbookKeepsValid(s.db, s.files, GetEbook(s.db, ebookId).value);
    }
  }

  lemma DownloadEbookKeepsValid(s: Server, authorization: Option<string>, env: Env, ebookId: int)
    requires Valid(s.db)
    ensures Valid(DownloadEbook(s, authorization, env, ebookId).state.db)
  {
    var user := GetCurrentUser(s.db, authorization, env.now, env.decode);
    if user.Ok? && GetEbook(s.db, ebookId).Some? {
      CreateActivityLogKeepsValid(s.db, user.value.id, GetEbook(s.db, ebookId).value.id, "download", env.now);
    }
  }

  lemma FavoriteEndpointsKeepValid(s: Server, authorization: Option<string>, env: Env, ebookId: int)
    requires Valid(s.db)
    ensures Valid(AddEbookToFavorites(s, authorization, env, ebookId).state.db)
    ensures Valid(RemoveEbookFromFavorites(s, authorization, env, ebookId).state.db)
  {
    var user := GetCurrentUser(s.db, authorization, env.now, env.decode);
    if user.Ok? {
      if GetEbook(s.db, ebookId).Some? {
        AddToFavoritesKeepsValid(s.db, user.value.id, GetEbook(s.db, ebookId).value.id);
      }
      if ebookId >= 0 && GetFavorite(s.db, user.value.id, ebookId).Some? {
        RemoveFromFavoritesKeepsValid(s.db, GetFavorite(s.db, user.value.id, ebookId).value);
      }
    }
  }

  /** In a valid store a download of a book whose file is on disk never
      fails inside the handler. */
  lemma DownloadOfStoredFileSucceeds(s: Server, authorization: Option<string>, env: Env, ebookId: int)
    requires Valid(s.db)
    requires GetCurrentUser(s.db, authorization, env.now, env.decode).Ok? && StoredFile(s, ebookId).Ok?
    ensures DownloadEbook(s, authorization, env, ebookId).reply.Ok?
  {
    var u := GetCurrentUser(s.db, authorization, env.now, env.decode).value;
    assert HasUser(s.db, u.id);
    assert HasEbook(s.db, StoredFile(s, ebookId).value.id);
  }
}

=== FILE: edit_ebook_page.dfy ===
/**
 * The administrator's edit page (src/pages/AdminEditEbookPage.js): load one
 * e-book into a four-field form, edit fields one at a time, and send the
 * whole form back as the update.
 */
module EditEbookPage {
  import opened Common
  import opened ApiClient
  import opened Ui

  /** The form state. Values loaded from the server keep their JSON type;
      a field edited in an input becomes text. */
  datatype EditForm = EditForm(title: JsValue, author: JsValue, description: JsValue, publicationYear: JsValue)

  datatype EditField = Title | Author | Description | PublicationYear

  datatype EditState = EditState(ebookId: string, form: EditForm, loading: bool, error: string, success: string)

  const LoadFailedMessage := "Gagal mengambil data buku."
  const UpdatedMessage := "Data buku berhasil diperbarui!"
  const UpdateFailedMessage := "Gagal memperbarui data."

  const EmptyForm := EditForm(JsStr(""), JsStr(""), JsStr(""), JsStr(""))

  function Initial(ebookId: string): EditState {
    EditState(ebookId, EmptyForm, true, "", "")
  }

  function OptStr(v: Option<string>): JsValue {
    if v.Some? then JsStr(v.value) else JsNull
  }

  function OptNum(v: Option<int>): JsValue {
    if v.Some? then JsNum(v.value) else JsNull
  }

  /** The loaded book as form values: title and author as they came, a
      missing or empty description as "", a missing or zero year as "". */
  function FormOf(book: EbookItem): (f: EditForm)
    ensures f.title == JsStr(book.title) && f.author == OptStr(book.author)
    ensures f.description == (if Truthy(book.description) then JsStr(book.description.value) else JsStr(""))
    ensures f.publicationYear == (if book.publicationYear.Some? && book.publicationYear.value != 0
                                  then JsNum(book.publicationYear.value) else JsStr(""))
  {
    EditForm(JsStr(book.title), OptStr(book.author),
             if JsTruthy(OptStr(book.description)) then OptStr(book.description) else JsStr(""),
             if JsTruthy(OptNum(book.publicationYear)) then OptNum(book.publicationYear) else JsStr(""))
  }

  /** The mount effect: fill the form, or set the load error; loading ends
      on both paths. */
  function Load(s: EditState, response: Result<EbookItem, ApiError>): (r: Step<EditState>)
    ensures r.calls == [GetEbookById(s.ebookId)] && r.effects == []
    ensures !r.state.loading && r.state.ebookId == s.ebookId
    ensures response.Ok? ==> r.state.form == FormOf(response.value) && r.state.error == s.error
    ensures response.Err? ==> r.state.form == s.form && r.state.error == LoadFailedMessage
  {
    var s' := match response
              case Ok(book) => s.(form := FormOf(book))
              case Err(_) => s.(error := LoadFailedMessage);
    Step(s'.(loading := false), [GetEbookById(s.ebookId)], [])
  }

  function Get(f: EditForm, field: EditField): JsValue {
    match field
    case Title => f.title
    case Author => f.author
    case Description => f.description
    case PublicationYear => f.publicationYear
  }

  /** `handleChange`: the named field takes the input's text. */
  function HandleChange(s: EditState, field: EditField, value: string): (r: EditState)
    ensures Get(r.form, field) == JsStr(value)
    ensures forall other :: other != field ==> Get(r.form, other) == Get(s.form, other)
    ensures r.(form := s.form) == s
  {
    var f := s.form;
    var f' := match field
              case Title => f.(title := JsStr(value))
              case Author => f.(author := JsStr(value))
              case Description => f.(description := JsStr(value))
              case PublicationYear => f.(publicationYear := JsStr(value));
    s.(form := f')
  }

  /** The JSON object the update sends: every field of the form. */
  function Payload(f: EditForm): (m: map<string, JsValue>)
    ensures m.Keys == {"title", "author", "description", "publication_year"}
    ensures m["title"] == f.title && m["author"] == f.author
    ensures m["description"] == f.description && m["publication_year"] == f.publicationYear
  {
    map["title" := f.title, "author" := f.author, "description" := f.description,
        "publication_year" := f.publicationYear]
  }

  /** `handleSubmit`: both messages cleared, the whole form sent; success
      shows the message and schedules the return to the list, failure shows
      the error. */
  function Submit(s: EditState, response: Result<(), ApiError>): (r: Step<EditState>)
    ensures r.calls == [UpdateEbook(s.ebookId, Payload(s.form))]
    ensures r.state.form == s.form && r.state.loading == s.loading
    ensures response.Ok? ==>
              r.state.success == UpdatedMessage && r.state.error == ""
              && r.effects == [NavigateAfter("/admin/ebooks", 1500)]
    ensures response.Err? ==> r.state.error == UpdateFailedMessage && r.state.success == "" && r.effects == []
  {
    var calls := [UpdateEbook(s.ebookId, Payload(s.form))];
    if response.Ok? then Step(s.(error := "", success := UpdatedMessage), calls, [NavigateAfter("/admin/ebooks", 1500)])
    else Step(s.(error := UpdateFailedMessage, success := ""), calls, [])
  }

  /** Edits to two different fields do not interfere: their order does not
      matter. */
  lemma ChangesToDifferentFieldsCommute(s: EditState, a: EditField, b: EditField, x: string, y: string)
    requires a != b
    ensures HandleChange(HandleChange(s, a, x), b, y) == HandleChange(HandleChange(s, b, y), a, x)
  {
  }

  /** Loading then submitting without edits sends back the loaded title and
      author unchanged, and "" for a book without a year. */
  lemma UntouchedSubmitEchoesLoadedBook(id: string, book: EbookItem, r1: Result<(), ApiError>)
    ensures var s := Load(Initial(id), Ok(book)).state;
            var p := Submit(s, r1).calls[0].fields;
            p["title"] == JsStr(book.title) && p["author"] == OptStr(book.author)
            && (book.publicationYear.None? ==> p["publication_year"] == JsStr(""))
  {
  }
}

=== FILE: end_to_end.dfy ===
/**
 * The browser client and the backend side by side: what the client sends
 * is what the backend's parsing and authentication expect, and where the
 * two disagree the disagreement is stated.
 */
module EndToEnd {
  import opened Common
  import opened Models
  import opened Schemas
  import opened Http
  import opened Security
  import opened Crud
  import opened EbooksRouter
  import AuthRouter
  import ApiClient
  import Ui
  import AuthForms
  import UploadForm
  import ReviewForm
  import EditEbookPage
  import ManageEbooksPage
  import EbookDetailPage

  /** Whatever the call, a request sent while a token is stored
      authenticates with exactly that token. */
  lemma StoredTokenAuthenticatesRequest(token: string, call: ApiClient.ApiCall)
    requires token != ""
    ensures var req := ApiClient.Send(Some(token), call);
            && "Authorization" in req.headers
            && BearerToken(Some(req.headers["Authorization"])) == Ok(token)
  {
    BearerHeaderRoundTrip(token);
  }

  /** A request sent while no token is stored carries no credentials, so
      every endpoint that needs a user turns it away with 401. */
  lemma NoTokenIsNotAuthenticated(db: Store, call: ApiClient.ApiCall, now: int, decode: TokenDecoder)
    ensures "Authorization" !in ApiClient.Send(None, call).headers
    ensures GetCurrentUser(db, None, now, decode) == Err(NotAuthenticated)
    ensures GetCurrentAdminUser(db, None, now, decode) == Err(NotAuthenticated)
  {
  }

  /** The login request the client sends is the password grant the login
      endpoint expects: it parses to the email and password typed in. */
  lemma ClientLoginRequestParses(email: string, password: string)
    requires email != "" && password != ""
    ensures var body := ApiClient.Prepare(ApiClient.Login(email, password)).body;
            && body.UrlEncoded?
            && AuthRouter.ParseLoginForm(body.pairs) == Ok(AuthRouter.LoginForm(email, password))
  {
    AuthRouter.ClientLoginFormParses(email, password);
  }

  /** The error a client receives for a server's error answer: a text
      `detail` arrives as text, a validation error's field list as a list. */
  function ReceivedError(e: HttpError): ApiClient.ApiError {
    match e.detail
    case Message(text) => ApiClient.ApiError(Some(ApiClient.TextDetail(text)))
    case Invalid(fields) => ApiClient.ApiError(Some(ApiClient.ValidationErrors(fields)))
  }

  /** A registration the schema refuses although the form's own input
      constraints let it through (a password of at least the eight characters
      the field demands but longer than 72, or an address such as `a@b` that
      passes the browser's email check but not the email validator) comes
      back as 422 with a list as its detail; the registration form keeps
      that list as its error, and rendering it throws. */
  lemma RefusedRegistrationBreaksRegisterForm(db: Store, f: AuthForms.RegisterFormState,
                                              normalise: EmailNormaliser, hash: AuthRouter.PasswordHasher)
    requires f.name != "" && f.email != "" && |f.password| >= 8
    requires normalise(f.email).None? || !PasswordLengthOk(f.password)
    ensures var body := ApiClient.Prepare(ApiClient.Register(f.name, f.email, f.password)).body;
            && body.Json?
            && var reply := AuthRouter.RegisterUser(db, body.fields, normalise, hash).reply;
            && reply.Err? && reply.error.status == Unprocessable422
            && Ui.RenderError(AuthForms.SubmitRegister(f, Err(ReceivedError(reply.error))).state.error) == Ui.RenderThrows
  {
    var body := ApiClient.Prepare(ApiClient.Register(f.name, f.email, f.password)).body;
    assert StrField(body.fields, "email") == Some(f.email);
    assert StrField(body.fields, "password") == Some(f.password);
    assert ParseUserCreate(body.fields, normalise).Err?;
  }

  /** A registration refused for a taken address shows the server's text. */
  lemma TakenEmailIsShownAsText(db: Store, f: AuthForms.RegisterFormState,
                                normalise: EmailNormaliser, hash: AuthRouter.PasswordHasher)
    requires f.name != "" && f.email != "" && PasswordLengthOk(f.password)
    requires normalise(f.email).Some? && GetUserByEmail(db, normalise(f.email).value).Some?
    ensures var body := ApiClient.Prepare(ApiClient.Register(f.name, f.email, f.password)).body;
            && body.Json?
            && var reply := AuthRouter.RegisterUser(db, body.fields, normalise, hash).reply;
            && reply == Err(AuthRouter.EmailTaken)
            && Ui.RenderError(AuthForms.SubmitRegister(f, Err(ReceivedError(reply.error))).state.error)
               == Ui.Message(AuthRouter.EmailTaken.detail.text)
  {
    var body := ApiClient.Prepare(ApiClient.Register(f.name, f.email, f.password)).body;
    assert StrField(body.fields, "name") == Some(f.name);
    assert StrField(body.fields, "email") == Some(f.email);
    assert StrField(body.fields, "password") == Some(f.password);
  }

  /** The parts of a complete upload form name each field once. */
  lemma UploadPartsLookup(f: UploadForm.UploadState)
    requires f.pdfFile.Some? && f.coverImage.Some?
    ensures var parts := UploadForm.FormParts(f);
            && FormGet(parts, "title") == Some(ApiClient.TextPart(f.title))
            && FormGet(parts, "author") == Some(ApiClient.TextPart(f.author))
            && FormGet(parts, "description") == Some(ApiClient.TextPart(f.description))
            && FormGet(parts, "publication_year") == Some(ApiClient.TextPart(f.publicationYear))
            && FormGet(parts, "pdf_file") == Some(ApiClient.FilePart(f.pdfFile.value))
            && FormGet(parts, "cover_image") == Some(ApiClient.FilePart(f.coverImage.value))
  {
    var parts := UploadForm.FormParts(f);
    forall k | 0 <= k < |parts|
      ensures LastSentAt(parts, parts[k].0, k)
    {
      assert forall j :: 0 <= j < |parts| && j != k ==> parts[j].0 != parts[k].0;
    }
    FormGetFindsLast(parts, "title", 0);
    FormGetFindsLast(parts, "author", 1);
    FormGetFindsLast(parts, "description", 2);
    FormGetFindsLast(parts, "publication_year", 3);
    FormGetFindsLast(parts, "pdf_file", 4);
    FormGetFindsLast(parts, "cover_image", 5);
  }

  /** A form the upload page lets through is accepted by the upload
      endpoint when its year is empty or an integer, with the title, author
      and files the admin picked. */
  lemma CompleteUploadIsAccepted(f: UploadForm.UploadState)
    requires UploadForm.Complete(f)
    requires f.publicationYear == "" || ParseInt(f.publicationYear).Some?
    ensures var r := ParseUploadForm(UploadForm.FormParts(f));
            && r.Ok?
            && r.value.ebook.title == f.title && r.value.ebook.author == Some(f.author)
            && (r.value.ebook.publicationYear.None? <==> f.publicationYear == "")
            && (r.value.ebook.description.None? <==> f.description == "")
  {
    UploadPartsLookup(f);
  }

  /** Every rating the review form offers, with the non-empty comment the
      form insists on, is accepted by the review endpoint. */
  lemma ReviewFormSubmissionIsAccepted(f: ReviewForm.ReviewFormState, ebookId: string,
                                       response: Result<ApiClient.ReviewItem, ApiClient.ApiError>)
    requires f.rating in ReviewForm.RatingOptions && f.comment != ""
    ensures var call := ReviewForm.Submit(f, ebookId, response).calls[0];
            var body := ApiClient.Prepare(call).body;
            && body.Json?
            && ParseReviewCreate(body.fields) == Ok(ReviewCreate(f.rating, Some(f.comment)))
  {
  }

  /** Loading a book without a year into the edit page and saving it
      unchanged sends the year as "", which the update endpoint refuses
      with 422 before looking at anything else. */
  lemma EditingBookWithoutYearIsRefused(id: string, book: ApiClient.EbookItem, response: Result<(), ApiClient.ApiError>,
                                        s: Server, authorization: Option<string>, env: Env, ebookId: int)
    requires book.publicationYear.None?
    requires GetCurrentAdminUser(s.db, authorization, env.now, env.decode).Ok?
    ensures var page := EditEbookPage.Load(EditEbookPage.Initial(id), Ok(book)).state;
            var fields := EditEbookPage.Submit(page, response).calls[0].fields;
            && ParseEbookUpdate(fields).Err?
            && var r := UpdateExistingEbook(s, authorization, env, ebookId, fields);
               && r.state == s && r.reply.Err? && r.reply.error.status == Unprocessable422
  {
    var page := EditEbookPage.Load(EditEbookPage.Initial(id), Ok(book)).state;
    var fields := EditEbookPage.Submit(page, response).calls[0].fields;
    assert fields["publication_year"] == JsStr("");
  }

  /** Deleting a downloaded e-book from the admin list: the server answers
      500, so the list keeps the book and the admin is told the delete
      failed, yet the book can no longer be read because its PDF is gone. */
  lemma RefusedDeleteLeavesUnreadableBookListed(s: Server, admin: Option<string>, env: Env, e: Ebook,
                                                page: ManageEbooksPage.ManageState)
    requires Valid(s.db) && e in s.db.ebooks && e.filePath != "" && DownloadCount(s.db, e.id) > 0
    requires GetCurrentAdminUser(s.db, admin, env.now, env.decode).Ok?
    ensures var r := DeleteExistingEbook(s, admin, env, e.id);
            var shown := ManageEbooksPage.HandleDelete(page, e.id, true, Err(ApiClient.ApiError(None)));
            && r.reply == Err(InternalError)
            && shown.state == page
            && shown.effects == [Ui.Alert(ManageEbooksPage.DeleteFailedMessage)]
            && ReadEbookOnline(r.state, e.id) == Err(FileNotFound)
  {
    GetEbookFindsRow(s.db, e);
    DownloadedEbookCannotBeDeleted(s.db, s.files, e);
  }

  /** The client's copy of an e-book the server sends: the JSON carries
      every field the client reads; the categories it ignores. */
  function Received(o: EbookOut): ApiClient.EbookItem {
    ApiClient.EbookItem(o.id, o.title, o.author, o.description, o.publicationYear, o.coverImagePath)
  }

  /** The detail page of a freshly uploaded e-book shows its cover from the
      backend address of the file the upload just wrote: `/uploads/<name>`
      for a relative file name. */
  lemma UploadedCoverIsShown(s: Server, authorization: Option<string>, env: Env,
                             parts: seq<(string, ApiClient.Part)>)
    requires CreateNewEbook(s, authorization, env, parts).reply.Ok?
    ensures var r := CreateNewEbook(s, authorization, env, parts);
            var name := ParseUploadForm(parts).value.coverImage.name;
            var url := EbookDetailPage.CoverUrl(Received(r.reply.value.body));
            && url == ApiClient.BaseUrl + "/" + JoinPath(UploadDirectory, name)
            && JoinPath(UploadDirectory, name) in r.state.files
            && ((|name| == 0 || name[0] != '/') ==> url == ApiClient.BaseUrl + "/uploads/" + name)
  {
    var form := ParseUploadForm(parts).value;
    var c := CreateEbook(s.db, s.files, s.dirs, form);
    var (db', e) := c.created.value;
    assert CreateNewEbook(s, authorization, env, parts).reply.value.body == EbookResponse(db', e);
    StoredCoverAddress(EbookResponse(db', e), form.coverImage.name);
  }

  /** The cover address of an e-book whose cover was stored under an upload
      name. */
  lemma StoredCoverAddress(o: EbookOut, name: string)
    requires o.coverImagePath == Some(JoinPath(UploadDirectory, name))
    ensures EbookDetailPage.CoverUrl(Received(o)) == ApiClient.BaseUrl + "/" + JoinPath(UploadDirectory, name)
    ensures (|name| == 0 || name[0] != '/') ==> EbookDetailPage.CoverUrl(Received(o)) == ApiClient.BaseUrl + "/uploads/" + name
  {
    var path := JoinPath(UploadDirectory, name);
    assert path != "";
    if |name| == 0 || name[0] != '/' {
      assert path == "uploads/" + name;
      assert ApiClient.BaseUrl + "/" + path == ApiClient.BaseUrl + "/uploads/" + name;
    }
  }

  /** The detail page's "read online" button opens the public reader
      endpoint of the page's own e-book: the id in the address parses back
      to the e-book's id, and the endpoint, which needs no token from the
      new tab, answers with that e-book's PDF inline while the file is on
      disk. */
  lemma ReadOnlineOpensTheBooksPdf(s: Server, page: EbookDetailPage.DetailState, e: Ebook)
    requires Valid(s.db) && e in s.db.ebooks && e.filePath in s.files && e.filePath != ""
    requires page.ebookId == NatToString(e.id)
    ensures var effects := EbookDetailPage.HandleReadOnlineClick(page).effects;
            && |effects| == 1 && effects[0].OpenWindow?
            && effects[0].url == ApiClient.BaseUrl + "/ebooks/" + page.ebookId + "/read"
            && ParseInt(page.ebookId) == Some(e.id)
            && ReadEbookOnline(s, e.id) == Ok(Response(Ok200, FileReply(e.filePath, PdfMediaType, None)))
  {
    ParseNatToString(e.id);
    GetEbookFindsRow(s.db, e);
  }
}

=== FILE: header_nav.dfy ===
/**
 * The navigation links of the page header (src/components/common/Header.js),
 * chosen from the session state.
 */
module HeaderNav {
  import opened Common
  import opened AuthContext
  import opened RouteGuards

  datatype NavItem = Beranda | Dasbor | Profil | LogoutButton | LoginLink

  /** Where a link points; the logout control is a button, not a link. */
  function Href(item: NavItem): Option<string> {
    match item
    case Beranda => Some("/")
    case Dasbor => Some("/admin/dashboard")
    case Profil => Some("/profile")
    case LogoutButton => None
    case LoginLink => Some("/login")
  }

  /** The header's links in display order. */
  function NavItems(s: AuthState): (items: seq<NavItem>)
    ensures |items| >= 2 && items[0] == Beranda
    ensures Beranda !in items[1..]
    ensures LoginLink in items <==> !IsAuthenticated(s)
    ensures Profil in items <==> IsAuthenticated(s)
    ensures LogoutButton in items <==> IsAuthenticated(s)
    ensures Dasbor in items <==> IsAuthenticated(s) && HasAdminRole(s.user)
    ensures !IsAuthenticated(s) ==> items == [Beranda, LoginLink]
  {
    if IsAuthenticated(s) then
      [Beranda] + (if HasAdminRole(s.user) then [Dasbor] else []) + [Profil, LogoutButton]
    else
      [Beranda, LoginLink]
  }

  /** The profile link appears exactly when ProtectedRoute would render the
      profile page. */
  lemma ProfilLinkMatchesProtectedRoute(s: AuthState)
    ensures Profil in NavItems(s) <==> ProtectedRoute(s) == Render
  {
  }

  /** Once loading has ended, the dashboard link appears exactly when
      AdminRoute would render the dashboard. While loading, the header may
      already show it for a user restored from storage. */
  lemma DasborLinkMatchesAdminRoute(s: AuthState)
    ensures !s.loading ==> (Dasbor in NavItems(s) <==> AdminRoute(s) == Render)
    ensures Dasbor in NavItems(s) ==> AdminRoute(s) == Render || AdminRoute(s) == Checking
  {
  }

  /** Every link points at a path the route table knows: `/`, `/profile`,
      `/login` or `/admin/dashboard`. */
  lemma LinksPointAtKnownPaths(s: AuthState)
    ensures forall item :: item in NavItems(s) && Href(item).Some? ==>
              Href(item).value in {"/", "/admin/dashboard", "/profile", "/login"}
  {
  }
}

=== FILE: http.dfy ===
/**
 * What an endpoint of the backend answers: a status with a body, or an
 * error. FastAPI turns a raised `HTTPException` into its status and
 * `detail`, and a request that fails validation into 422 listing the
 * offending fields.
 */
module Http {
  import opened Common

  datatype Detail = Message(text: string) | Invalid(fields: seq<string>)

  /** `challenge` is the `WWW-Authenticate: Bearer` header the
      authentication errors carry. */
  datatype HttpError = HttpError(status: nat, detail: Detail, challenge: bool)

  datatype Response<T> = Response(status: nat, body: T)

  /** The state an endpoint leaves behind, and what it answers. */
  datatype Outcome<S, T> = Outcome(state: S, reply: Result<Response<T>, HttpError>)

  const Ok200 := 200
  const Created201 := 201
  const NoContent204 := 204
  const BadRequest400 := 400
  const Unauthorized401 := 401
  const Forbidden403 := 403
  const NotFound404 := 404
  const Unprocessable422 := 422
  const ServerError500 := 500

  function Fail(status: nat, text: string): HttpError {
    HttpError(status, Message(text), false)
  }

  function Unprocessable(fields: seq<string>): HttpError {
    HttpError(Unprocessable422, Invalid(fields), false)
  }

  /** An unhandled database error, which the server answers with 500. */
  const InternalError := Fail(ServerError500, "Internal Server Error")
}

=== FILE: manage_ebooks_page.dfy ===
/**
 * The administrator's catalogue list (src/pages/AdminManageEbooksPage.js):
 * load all e-books once, and delete one after a confirmation dialog.
 */
module ManageEbooksPage {
  import opened Common
  import opened ApiClient
  import opened Ui

  datatype ManageState = ManageState(ebooks: seq<EbookItem>, loading: bool)

  const ConfirmDeleteQuestion := "Apakah Anda yakin ingin menghapus buku ini?"
  const DeletedMessage := "Buku berhasil dihapus!"
  const DeleteFailedMessage := "Gagal menghapus buku."

  const Initial := ManageState([], true)

  /** The mount effect: fetch the whole catalogue without a search term. On
      failure the list stays as it was (empty on first load); loading ends
      either way. */
  function LoadEbooks(s: ManageState, response: Result<seq<EbookItem>, ApiError>): (r: Step<ManageState>)
    ensures r.calls == [GetAllEbooks(None)] && r.effects == []
    ensures !r.state.loading
    ensures response.Ok? ==> r.state.ebooks == response.value
    ensures response.Err? ==> r.state.ebooks == s.ebooks
  {
    var ebooks := if response.Ok? then response.value else s.ebooks;
    Step(ManageState(ebooks, false), [GetAllEbooks(None)], [])
  }

  /** The entries whose id differs from `id`, in their original order. */
  function WithoutId(ebooks: seq<EbookItem>, id: nat): (r: seq<EbookItem>)
    ensures |r| <= |ebooks|
    decreases |ebooks|
  {
    if |ebooks| == 0 then []
    else if ebooks[0].id == id then WithoutId(ebooks[1..], id)
    else [ebooks[0]] + WithoutId(ebooks[1..], id)
  }

  /** Exactly the entries with another id remain, each as often as before;
      a list without that id comes back unchanged. */
  lemma {:induction false} WithoutIdContents(ebooks: seq<EbookItem>, id: nat)
    ensures var r := WithoutId(ebooks, id);
            && (forall b :: b in r <==> b in ebooks && b.id != id)
            && (forall b :: b in ebooks && b.id != id ==> multiset(r)[b] == multiset(ebooks)[b])
            && ((forall b :: b in ebooks ==> b.id != id) ==> r == ebooks)
    decreases |ebooks|
  {
    if |ebooks| > 0 {
      var rest := WithoutId(ebooks[1..], id);
      WithoutIdContents(ebooks[1..], id);
      assert ebooks == [ebooks[0]] + ebooks[1..];
      assert multiset(ebooks) == multiset{ebooks[0]} + multiset(ebooks[1..]);
      if ebooks[0].id != id {
        assert multiset([ebooks[0]] + rest) == multiset{ebooks[0]} + multiset(rest);
      }
    }
  }

  /** `handleDelete(id)`. A declined confirmation does nothing at all. A
      confirmed delete calls the gateway; on success every entry with that
      id leaves the list and the rest keep their order, on failure the list
      is unchanged. Either outcome is announced in an alert. */
  function HandleDelete(s: ManageState, id: nat, confirmed: bool, response: Result<(), ApiError>): (r: Step<ManageState>)
    ensures !confirmed ==> r.state == s && r.calls == [] && r.effects == []
    ensures confirmed ==> r.calls == [DeleteEbookById(NatToString(id))]
    ensures confirmed && response.Ok? ==>
              r.state.ebooks == WithoutId(s.ebooks, id) && r.effects == [Alert(DeletedMessage)]
    ensures confirmed && response.Err? ==> r.state == s && r.effects == [Alert(DeleteFailedMessage)]
    ensures r.state.loading == s.loading
  {
    if !confirmed then Step(s, [], [])
    else
      var calls := [DeleteEbookById(NatToString(id))];
      if response.Ok? then Step(s.(ebooks := WithoutId(s.ebooks, id)), calls, [Alert(DeletedMessage)])
      else Step(s, calls, [Alert(DeleteFailedMessage)])
  }

  /** `WithoutId` works piecewise: filtering a concatenation is
      concatenating the filtered parts, so the surviving entries keep their
      relative order. */
  lemma {:induction false} WithoutIdKeepsOrder(a: seq<EbookItem>, b: seq<EbookItem>, id: nat)
    ensures WithoutId(a + b, id) == WithoutId(a, id) + WithoutId(b, id)
  {
    if |a| == 0 {
      assert a + b == b;
    } else {
      var ab := a + b;
      assert ab[0] == a[0];
      assert ab[1..] == a[1..] + b;
      WithoutIdKeepsOrder(a[1..], b, id);
      if a[0].id != id {
        assert [a[0]] + (WithoutId(a[1..], id) + WithoutId(b, id))
               == ([a[0]] + WithoutId(a[1..], id)) + WithoutId(b, id);
      }
    }
  }

  /** Deleting the same id twice removes no more than deleting it once. */
  lemma DeleteTwiceIsDeleteOnce(ebooks: seq<EbookItem>, id: nat)
    ensures WithoutId(WithoutId(ebooks, id), id) == WithoutId(ebooks, id)
  {
    WithoutIdContents(ebooks, id);
    WithoutIdContents(WithoutId(ebooks, id), id);
  }

  /** A failed first load leaves an empty list with loading finished. */
  lemma FailedLoadLeavesEmptyList(e: ApiError)
    ensures LoadEbooks(Initial, Err(e)).state == ManageState([], false)
  {
  }
}

=== FILE: models.dfy ===
/**
 * The backend's tables (models.py) as one immutable store, and the row
 * operations the database and the ORM perform on it: inserts that draw the
 * next primary key and check foreign keys and unique columns, updates, and
 * deletes with their cascades. A write the database refuses is an
 * `IntegrityError` and leaves the store as it was (the transaction rolls
 * back).
 */
module Models {
  import opened Common
  import opened Seqs

  /** The `user_role` enum. */
  datatype Role = UserRole | AdminRole

  /** The column default for users created without a role. */
  const DefaultRole := UserRole

  function RoleName(r: Role): (name: string)
    ensures name == "user" <==> r == UserRole
    ensures name == "admin" <==> r == AdminRole
  {
    match r
    case UserRole => "user"
    case AdminRole => "admin"
  }

  datatype User = User(id: nat, name: string, email: string, hashedPassword: string, role: Role)

  /** Title and file path are NOT NULL columns, so they are plain strings;
      the nullable columns are options. */
  datatype Ebook = Ebook(
    id: nat,
    title: string,
    author: Option<string>,
    description: Option<string>,
    publicationYear: Option<int>,
    filePath: string,
    coverImagePath: Option<string>)

  datatype Category = Category(id: nat, name: string)

  /** A row of the `ebook_categories` association table, whose primary key
      is the pair itself. */
  datatype EbookCategory = EbookCategory(ebookId: nat, categoryId: nat)

  datatype Favorite = Favorite(id: nat, userId: nat, ebookId: nat)

  /** `timestamp` is the server's clock when the row was inserted. */
  datatype ActivityLog = ActivityLog(id: nat, userId: nat, ebookId: nat, action: string, timestamp: int)

  datatype Review = Review(id: nat, rating: int, comment: Option<string>, userId: nat, ebookId: nat, timestamp: int)

  /** The value each table's id sequence hands out next. */
  datatype Counters = Counters(user: nat, ebook: nat, category: nat, favorite: nat, log: nat, review: nat)

  /** The database. The association table is a set: its primary key is the
      whole row, so a pair appears at most once. */
  datatype Store = Store(
    users: seq<User>,
    ebooks: seq<Ebook>,
    categories: seq<Category>,
    links: set<EbookCategory>,
    favorites: seq<Favorite>,
    logs: seq<ActivityLog>,
    reviews: seq<Review>,
    next: Counters)

  /** A fresh database: no rows, every sequence at 1. */
  const EmptyStore := Store([], [], [], {}, [], [], [], Counters(1, 1, 1, 1, 1, 1))

  datatype DbError = IntegrityError

  function UserKey(u: User): nat { u.id }
  function EbookKey(e: Ebook): nat { e.id }
  function CategoryKey(c: Category): nat { c.id }
  function FavoriteKey(f: Favorite): nat { f.id }
  function LogKey(l: ActivityLog): nat { l.id }
  function ReviewKey(r: Review): nat { r.id }

  predicate HasUser(db: Store, id: nat) {
    exists u :: u in db.users && u.id == id
  }

  predicate HasEbook(db: Store, id: nat) {
    exists e :: e in db.ebooks && e.id == id
  }

  predicate HasCategory(db: Store, id: nat) {
    exists c :: c in db.categories && c.id == id
  }

  /** Every table's primary key comes from its sequence, in insertion order. */
  predicate KeysValid(db: Store) {
    && KeysAscending(db.users, UserKey, db.next.user)
    && KeysAscending(db.ebooks, EbookKey, db.next.ebook)
    && KeysAscending(db.categories, CategoryKey, db.next.category)
    && KeysAscending(db.favorites, FavoriteKey, db.next.favorite)
    && KeysAscending(db.logs, LogKey, db.next.log)
    && KeysAscending(db.reviews, ReviewKey, db.next.review)
  }

  /** The UNIQUE columns: user email and category name. */
  predicate UniqueColumns(db: Store) {
    && (forall a, b :: a in db.users && b in db.users && a.email == b.email ==> a == b)
    && (forall a, b :: a in db.categories && b in db.categories && a.name == b.name ==> a == b)
  }

  predicate FavoriteRefsHold(db: Store) {
    forall f :: f in db.favorites ==> HasUser(db, f.userId) && HasEbook(db, f.ebookId)
  }

  predicate LogRefsHold(db: Store) {
    forall l :: l in db.logs ==> HasUser(db, l.userId) && HasEbook(db, l.ebookId)
  }

  predicate ReviewRefsHold(db: Store) {
    forall r :: r in db.reviews ==> HasUser(db, r.userId) && HasEbook(db, r.ebookId)
  }

  predicate LinkRefsHold(db: Store) {
    forall c :: c in db.links ==> HasEbook(db, c.ebookId) && HasCategory(db, c.categoryId)
  }

  /** The FOREIGN KEY columns. */
  predicate ForeignKeysHold(db: Store) {
    FavoriteRefsHold(db) && LogRefsHold(db) && ReviewRefsHold(db) && LinkRefsHold(db)
  }

  /** What the schema itself enforces. */
  predicate SchemaValid(db: Store) {
    KeysValid(db) && UniqueColumns(db) && ForeignKeysHold(db)
  }

  /** What the application keeps on top of the schema: one favourite and
      one review per (user, e-book) pair, and ratings from 1 to 5. */
  predicate AppInvariant(db: Store) {
    && (forall a, b :: a in db.favorites && b in db.favorites && a.userId == b.userId && a.ebookId == b.ebookId ==> a == b)
    && (forall a, b :: a in db.reviews && b in db.reviews && a.userId == b.userId && a.ebookId == b.ebookId ==> a == b)
    && (forall r :: r in db.reviews ==> 1 <= r.rating <= 5)
  }

  predicate Valid(db: Store) {
    SchemaValid(db) && AppInvariant(db)
  }

  lemma EmptyStoreIsValid()
    ensures Valid(EmptyStore)
  {
  }

  // ---------------------------------------------------------------- inserts

  /** INSERT INTO users: refused when the email is taken; the role column
      takes its default unless one is given. */
  function InsertUser(db: Store, name: string, email: string, hashedPassword: string, role: Role): (r: Result<(Store, User), DbError>)
    ensures r.Err? <==> exists u :: u in db.users && u.email == email
    ensures r.Ok? ==>
              var (db', u) := r.value;
              && u == User(db.next.user, name, email, hashedPassword, role)
              && db' == db.(users := db.users + [u], next := db.next.(user := db.next.user + 1))
  {
    if exists u :: u in db.users && u.email == email then Err(IntegrityError)
    else
      var u := User(db.next.user, name, email, hashedPassword, role);
      Ok((db.(users := db.users + [u], next := db.next.(user := db.next.user + 1)), u))
  }

  /** INSERT INTO ebooks: no constraint can fail. */
  function InsertEbook(db: Store, title: string, author: Option<string>, description: Option<string>,
                       publicationYear: Option<int>, filePath: string, coverImagePath: Option<string>): (r: (Store, Ebook))
    ensures r.1 == Ebook(db.next.ebook, title, author, description, publicationYear, filePath, coverImagePath)
    ensures r.0.ebooks == db.ebooks + [r.1] && r.0.next == db.next.(ebook := db.next.ebook + 1)
    ensures r.0.(ebooks := db.ebooks, next := db.next) == db
  {
    var e := Ebook(db.next.ebook, title, author, description, publicationYear, filePath, coverImagePath);
    (db.(ebooks := db.ebooks + [e], next := db.next.(ebook := db.next.ebook + 1)), e)
  }

  /** INSERT INTO favorites: both referenced rows must exist. */
  function InsertFavorite(db: Store, userId: nat, ebookId: nat): (r: Result<(Store, Favorite), DbError>)
    ensures r.Err? <==> !HasUser(db, userId) || !HasEbook(db, ebookId)
    ensures r.Ok? ==>
              && r.value.1 == Favorite(db.next.favorite, userId, ebookId)
              && r.value.0 == db.(favorites := db.favorites + [r.value.1], next := db.next.(favorite := db.next.favorite + 1))
  {
    if !HasUser(db, userId) || !HasEbook(db, ebookId) then Err(IntegrityError)
    else
      var f := Favorite(db.next.favorite, userId, ebookId);
      Ok((db.(favorites := db.favorites + [f], next := db.next.(favorite := db.next.favorite + 1)), f))
  }

  /** INSERT INTO activity_log, stamped with the server clock. */
  function InsertLog(db: Store, userId: nat, ebookId: nat, action: string, now: int): (r: Result<(Store, ActivityLog), DbError>)
    ensures r.Err? <==> !HasUser(db, userId) || !HasEbook(db, ebookId)
    ensures r.Ok? ==>
              && r.value.1 == ActivityLog(db.next.log, userId, ebookId, action, now)
              && r.value.0 == db.(logs := db.logs + [r.value.1], next := db.next.(log := db.next.log + 1))
  {
    if !HasUser(db, userId) || !HasEbook(db, ebookId) then Err(IntegrityError)
    else
      var l := ActivityLog(db.next.log, userId, ebookId, action, now);
      Ok((db.(logs := db.logs + [l], next := db.next.(log := db.next.log + 1)), l))
  }

  /** INSERT INTO reviews, stamped with the server clock. */
  function InsertReview(db: Store, rating: int, comment: Option<string>, userId: nat, ebookId: nat, now: int): (r: Result<(Store, Review), DbError>)
    ensures r.Err? <==> !HasUser(db, userId) || !HasEbook(db, ebookId)
    ensures r.Ok? ==>
              && r.value.1 == Review(db.next.review, rating, comment, userId, ebookId, now)
              && r.value.0 == db.(reviews := db.reviews + [r.value.1], next := db.next.(review := db.next.review + 1))
  {
    if !HasUser(db, userId) || !HasEbook(db, ebookId) then Err(IntegrityError)
    else
      var rv := Review(db.next.review, rating, comment, userId, ebookId, now);
      Ok((db.(reviews := db.reviews + [rv], next := db.next.(review := db.next.review + 1)), rv))
  }

  // ---------------------------------------------------------------- updates

  /** The row with `e.id` replaced by `e`. */
  function ReplaceEbook(ebooks: seq<Ebook>, e: Ebook): (r: seq<Ebook>)
    ensures |r| == |ebooks|
    ensures forall i :: 0 <= i < |r| ==> r[i] == (if ebooks[i].id == e.id then e else ebooks[i])
  {
    seq(|ebooks|, i requires 0 <= i < |ebooks| => if ebooks[i].id == e.id then e else ebooks[i])
  }

  // ---------------------------------------------------------------- deletes

  /** DELETE of one favourite. */
  function DeleteFavoriteRow(db: Store, id: nat): (db': Store)
    ensures forall f :: f in db'.favorites <==> f in db.favorites && f.id != id
    ensures db'.(favorites := db.favorites) == db
  {
    db.(favorites := Filter(db.favorites, (f: Favorite) => f.id != id))
  }

  /** `session.delete(ebook)`: the ORM deletes the e-book's reviews (the
      relationship cascades) and its category links (the secondary table),
      but nothing cascades to favourites or activity logs, so a reference
      from either makes the database refuse the delete. */
  function DeleteEbookRow(db: Store, id: nat): (r: Result<Store, DbError>)
    ensures r.Err? <==> (exists f :: f in db.favorites && f.ebookId == id) || (exists l :: l in db.logs && l.ebookId == id)
    ensures r.Ok? ==>
              && (forall e :: e in r.value.ebooks <==> e in db.ebooks && e.id != id)
              && (forall v :: v in r.value.reviews <==> v in db.reviews && v.ebookId != id)
              && (forall c :: c in r.value.links <==> c in db.links && c.ebookId != id)
              && r.value.(ebooks := db.ebooks, reviews := db.reviews, links := db.links) == db
  {
    if (exists f :: f in db.favorites && f.ebookId == id) || (exists l :: l in db.logs && l.ebookId == id) then
      Err(IntegrityError)
    else
      Ok(db.(ebooks := Filter(db.ebooks, (e: Ebook) => e.id != id),
             reviews := Filter(db.reviews, (v: Review) => v.ebookId != id),
             links := set c | c in db.links && c.ebookId != id))
  }

  /** `session.delete(user)`: favourites, activity logs and reviews go with
      the user (the relationships cascade with delete-orphan). */
  function DeleteUserRow(db: Store, id: nat): (db': Store)
    ensures forall u :: u in db'.users <==> u in db.users && u.id != id
    ensures forall f :: f in db'.favorites <==> f in db.favorites && f.userId != id
    ensures forall l :: l in db'.logs <==> l in db.logs && l.userId != id
    ensures forall v :: v in db'.reviews <==> v in db.reviews && v.userId != id
    ensures db'.(users := db.users, favorites := db.favorites, logs := db.logs, reviews := db.reviews) == db
  {
    db.(users := Filter(db.users, (u: User) => u.id != id),
        favorites := Filter(db.favorites, (f: Favorite) => f.userId != id),
        logs := Filter(db.logs, (l: ActivityLog) => l.userId != id),
        reviews := Filter(db.reviews, (v: Review) => v.userId != id))
  }

  // ------------------------------------------------- the schema is preserved

  lemma InsertUserKeepsSchema(db: Store, name: string, email: string, hashedPassword: string, role: Role)
    requires SchemaValid(db)
    ensures InsertUser(db, name, email, hashedPassword, role).Ok? ==>
              SchemaValid(InsertUser(db, name, email, hashedPassword, role).value.0)
  {
    var r := InsertUser(db, name, email, hashedPassword, role);
    if r.Ok? {
      var (db', u) := r.value;
      AppendFreshKey(db.users, u, UserKey, db.next.user);
      assert forall x :: x in db'.users <==> x in db.users || x == u;
      assert forall id :: HasUser(db, id) ==> HasUser(db', id);
    }
  }

  lemma InsertEbookKeepsSchema(db: Store, title: string, author: Option<string>, description: Option<string>,
                               publicationYear: Option<int>, filePath: string, coverImagePath: Option<string>)
    requires SchemaValid(db)
    ensures SchemaValid(InsertEbook(db, title, author, description, publicationYear, filePath, coverImagePath).0)
  {
    var (db', e) := InsertEbook(db, title, author, description, publicationYear, filePath, coverImagePath);
    AppendFreshKey(db.ebooks, e, EbookKey, db.next.ebook);
    assert forall id :: HasEbook(db, id) ==> HasEbook(db', id) by {
      forall id | HasEbook(db, id) ensures HasEbook(db', id) {
        var x :| x in db.ebooks && x.id == id;
        assert x in db'.ebooks;
      }
    }
  }

  lemma InsertFavoriteKeepsSchema(db: Store, userId: nat, ebookId: nat)
    requires SchemaValid(db)
    ensures InsertFavorite(db, userId, ebookId).Ok? ==> SchemaValid(InsertFavorite(db, userId, ebookId).value.0)
  {
    var r := InsertFavorite(db, userId, ebookId);
    if r.Ok? {
      AppendFreshKey(db.favorites, r.value.1, FavoriteKey, db.next.favorite);
    }
  }

  lemma InsertLogKeepsSchema(db: Store, userId: nat, ebookId: nat, action: string, now: int)
    requires SchemaValid(db)
    ensures InsertLog(db, userId, ebookId, action, now).Ok? ==> SchemaValid(InsertLog(db, userId, ebookId, action, now).value.0)
  {
    var r := InsertLog(db, userId, ebookId, action, now);
    if r.Ok? {
      AppendFreshKey(db.logs, r.value.1, LogKey, db.next.log);
    }
  }

  lemma InsertReviewKeepsSchema(db: Store, rating: int, comment: Option<string>, userId: nat, ebookId: nat, now: int)
    requires SchemaValid(db)
    ensures InsertReview(db, rating, comment, userId, ebookId, now).Ok? ==>
              SchemaValid(InsertReview(db, rating, comment, userId, ebookId, now).value.0)
  {
    var r := InsertReview(db, rating, comment, userId, ebookId, now);
    if r.Ok? {
      AppendFreshKey(db.reviews, r.value.1, ReviewKey, db.next.review);
    }
  }

  /** Replacing an e-book by a row with the same id keeps every key and
      reference intact. */
  lemma ReplaceEbookKeepsSchema(db: Store, e: Ebook)
    requires SchemaValid(db) && HasEbook(db, e.id)
    ensures SchemaValid(db.(ebooks := ReplaceEbook(db.ebooks, e)))
  {
    var db' := db.(ebooks := ReplaceEbook(db.ebooks, e));
    assert forall id :: HasEbook(db, id) ==> HasEbook(db', id) by {
      forall id | HasEbook(db, id) ensures HasEbook(db', id) {
        var x :| x in db.ebooks && x.id == id;
        var i :| 0 <= i < |db.ebooks| && db.ebooks[i] == x;
        assert db'.ebooks[i].id == id;
      }
    }
  }

  lemma DeleteFavoriteRowKeepsSchema(db: Store, id: nat)
    requires SchemaValid(db)
    ensures SchemaValid(DeleteFavoriteRow(db, id))
  {
    FilterKeepsKeysAscending(db.favorites, (f: Favorite) => f.id != id, FavoriteKey, db.next.favorite);
  }

  lemma DeleteEbookRowKeepsSchema(db: Store, id: nat)
    requires SchemaValid(db)
    ensures DeleteEbookRow(db, id).Ok? ==> SchemaValid(DeleteEbookRow(db, id).value)
  {
    var r := DeleteEbookRow(db, id);
    if r.Ok? {
      var db' := r.value;
      FilterKeepsKeysAscending(db.ebooks, (e: Ebook) => e.id != id, EbookKey, db.next.ebook);
      FilterKeepsKeysAscending(db.reviews, (v: Review) => v.ebookId != id, ReviewKey, db.next.review);
      assert forall x :: HasEbook(db, x) && x != id ==> HasEbook(db', x) by {
        forall x | HasEbook(db, x) && x != id ensures HasEbook(db', x) {
          var e :| e in db.ebooks && e.id == x;
          assert e in db'.ebooks;
        }
      }
    }
  }

  lemma DeleteUserRowKeepsSchema(db: Store, id: nat)
    requires SchemaValid(db)
    ensures SchemaValid(DeleteUserRow(db, id))
  {
    DeleteUserRowKeepsKeys(db, id);
    DeleteUserRowKeepsRefs(db, id);
  }

  lemma DeleteUserRowKeepsKeys(db: Store, id: nat)
    requires SchemaValid(db)
    ensures KeysValid(DeleteUserRow(db, id)) && UniqueColumns(DeleteUserRow(db, id))
  {
    FilterKeepsKeysAscending(db.users, (u: User) => u.id != id, UserKey, db.next.user);
    FilterKeepsKeysAscending(db.favorites, (f: Favorite) => f.userId != id, FavoriteKey, db.next.favorite);
    FilterKeepsKeysAscending(db.logs, (l: ActivityLog) => l.userId != id, LogKey, db.next.log);
    FilterKeepsKeysAscending(db.reviews, (v: Review) => v.userId != id, ReviewKey, db.next.review);
  }

  lemma DeleteUserRowKeepsRefs(db: Store, id: nat)
    requires SchemaValid(db)
    ensures ForeignKeysHold(DeleteUserRow(db, id))
  {
    var db' := DeleteUserRow(db, id);
    assert forall x :: HasUser(db, x) && x != id ==> HasUser(db', x) by {
      forall x | HasUser(db, x) && x != id ensures HasUser(db', x) {
        var u :| u in db.users && u.id == x;
        assert u in db'.users;
      }
    }
    assert FavoriteRefsHold(db');
    assert LogRefsHold(db');
    assert ReviewRefsHold(db');
  }

  /** After a user is deleted nothing refers to that user any more. */
  lemma DeleteUserLeavesNoTrace(db: Store, id: nat)
    ensures !HasUser(DeleteUserRow(db, id), id)
    ensures forall f :: f in DeleteUserRow(db, id).favorites ==> f.userId != id
    ensures forall l :: l in DeleteUserRow(db, id).logs ==> l.userId != id
    ensures forall v :: v in DeleteUserRow(db, id).reviews ==> v.userId != id
  {
  }
}

=== FILE: ranking.dfy ===
/**
 * Ordering for the backend's `ORDER BY … DESC [LIMIT n]` queries: a sort by
 * a numeric key, largest first, and the top `n` rows of it. Keys are real
 * numbers so that averages can serve as keys next to counts and ids; an
 * ascending order is the descending order of the negated key.
 */
module Ranking {

  /** Keys never increase along `s`. */
  predicate SortedDesc<T>(s: seq<T>, key: T -> real) {
    forall i, j :: 0 <= i < j < |s| ==> key(s[i]) >= key(s[j])
  }

  /** `x` placed before the first element whose key is strictly smaller, so
      it lands after every element with an equal key. */
  function Insert<T>(x: T, s: seq<T>, key: T -> real): (r: seq<T>)
    requires SortedDesc(s, key)
    ensures multiset(r) == multiset(s) + multiset{x}
    ensures SortedDesc(r, key)
    decreases |s|
  {
    if |s| == 0 then [x]
    else if key(s[0]) < key(x) then [x] + s
    else
      var rest := Insert(x, s[1..], key);
      assert s == [s[0]] + s[1..];
      assert forall k :: 0 <= k < |rest| ==> key(s[0]) >= key(rest[k]) by {
        forall k | 0 <= k < |rest|
          ensures key(s[0]) >= key(rest[k])
        {
          assert rest[k] in multiset(rest);
          if rest[k] != x {
            assert rest[k] in multiset(s[1..]);
            var m :| 0 <= m < |s[1..]| && s[1..][m] == rest[k];
            assert s[m + 1] == rest[k];
          }
        }
      }
      ConsKeepsSorted(s[0], rest, key);
      [s[0]] + rest
  }

  lemma ConsKeepsSorted<T>(h: T, s: seq<T>, key: T -> real)
    requires SortedDesc(s, key)
    requires forall k :: 0 <= k < |s| ==> key(h) >= key(s[k])
    ensures SortedDesc([h] + s, key)
  {
    var r := [h] + s;
    forall i, j | 0 <= i < j < |r|
      ensures key(r[i]) >= key(r[j])
    {
      assert r[j] == s[j - 1];
      if i > 0 {
        assert r[i] == s[i - 1];
      }
    }
  }

  /** Insertion sort, largest key first. SQL leaves the order of rows with
      equal keys open, and nothing here depends on it. */
  function SortDesc<T>(s: seq<T>, key: T -> real): (r: seq<T>)
    ensures multiset(r) == multiset(s)
    ensures |r| == |s|
    ensures SortedDesc(r, key)
    decreases |s|
  {
    if |s| == 0 then []
    else
      assert s == [s[0]] + s[1..];
      var r := Insert(s[0], SortDesc(s[1..], key), key);
      assert |r| == |multiset(r)| == |s|;
      r
  }

  /** A sequence already in strictly descending key order is its own sorted
      order. */
  lemma {:induction false} SortStrictlyDescendingIsIdentity<T>(s: seq<T>, key: T -> real)
    requires forall i, j :: 0 <= i < j < |s| ==> key(s[i]) > key(s[j])
    ensures SortDesc(s, key) == s
    decreases |s|
  {
    if |s| > 0 {
      SortStrictlyDescendingIsIdentity(s[1..], key);
      assert s == [s[0]] + s[1..];
    }
  }

  /** Cutting a sorted sequence at `k`: the prefix is sorted, and nothing
      left out outranks anything kept. */
  lemma {:induction false} PrefixOfSorted<T>(sorted: seq<T>, key: T -> real, k: nat)
    requires SortedDesc(sorted, key) && k <= |sorted|
    ensures SortedDesc(sorted[..k], key)
    ensures multiset(sorted[..k]) <= multiset(sorted)
    ensures forall x, i :: x in multiset(sorted) - multiset(sorted[..k]) && 0 <= i < k ==>
              key(x) <= key(sorted[..k][i])
  {
    var pre, post := sorted[..k], sorted[k..];
    assert sorted == pre + post;
    assert multiset(sorted) == multiset(pre) + multiset(post);
    forall x, i | x in multiset(sorted) - multiset(pre) && 0 <= i < k
      ensures key(x) <= key(pre[i])
    {
      assert x in multiset(post);
      var m :| 0 <= m < |post| && post[m] == x;
      assert sorted[k + m] == x;
    }
  }

  /** The `n` rows with the largest keys, largest first. */
  function TopN<T>(s: seq<T>, key: T -> real, n: nat): (r: seq<T>)
    ensures |r| == (if n < |s| then n else |s|)
    ensures SortedDesc(r, key)
    ensures multiset(r) <= multiset(s)
    ensures forall x, i :: x in multiset(s) - multiset(r) && 0 <= i < |r| ==> key(x) <= key(r[i])
  {
    var sorted := SortDesc(s, key);
    var k := if n < |s| then n else |s|;
    PrefixOfSorted(sorted, key, k);
    sorted[..k]
  }

  /** An element whose key beats every other position's heads the top
      `n`. */
  lemma UniqueMaximumHeadsTopN<T>(s: seq<T>, key: T -> real, n: nat, m: nat)
    requires n > 0 && m < |s|
    requires forall k :: 0 <= k < |s| && k != m ==> key(s[k]) < key(s[m])
    ensures TopN(s, key, n)[0] == s[m]
  {
    var head := TopN(s, key, n)[0];
    TopNHeadIsMaximal(s, key, n);
    TopNDrawsFromInput(s, key, n);
    assert head in TopN(s, key, n);
    var k :| 0 <= k < |s| && s[k] == head;
    assert key(s[m]) <= key(head);
  }

  /** With no more than `n` rows, the top `n` holds every one of them. */
  lemma TopNKeepsAllWhenFew<T>(s: seq<T>, key: T -> real, n: nat)
    requires |s| <= n
    ensures forall x :: x in TopN(s, key, n) <==> x in s
  {
    var sorted := SortDesc(s, key);
    SortDescKeepsMembers(s, key);
    assert sorted[..|s|] == sorted;
  }

  /** Every row of the top `n` comes from the input. */
  lemma TopNDrawsFromInput<T>(s: seq<T>, key: T -> real, n: nat)
    ensures forall x :: x in TopN(s, key, n) ==> x in s
  {
    var r := TopN(s, key, n);
    forall x | x in r
      ensures x in s
    {
      assert x in multiset(r);
    }
  }

  /** Sorting keeps exactly the same elements. */
  lemma SortDescKeepsMembers<T>(s: seq<T>, key: T -> real)
    ensures forall x :: x in SortDesc(s, key) <==> x in s
  {
    var r := SortDesc(s, key);
    forall x
      ensures x in r <==> x in s
    {
      assert x in r <==> x in multiset(r);
    }
  }

  /** The first of the top `n` rows has the largest key of all. */
  lemma TopNHeadIsMaximal<T>(s: seq<T>, key: T -> real, n: nat)
    requires n > 0 && |s| > 0
    ensures forall x :: x in s ==> key(x) <= key(TopN(s, key, n)[0])
  {
    var sorted := SortDesc(s, key);
    SortDescKeepsMembers(s, key);
    forall x | x in s
      ensures key(x) <= key(TopN(s, key, n)[0])
    {
      var j :| 0 <= j < |sorted| && sorted[j] == x;
      assert TopN(s, key, n)[0] == sorted[0];
    }
  }

  /** A row of the input that did not make the top `n` has a key no larger
      than any that did. */
  lemma LeftOutOfTopN<T>(s: seq<T>, key: T -> real, n: nat, x: T)
    requires x in s && x !in TopN(s, key, n)
    ensures forall i :: 0 <= i < |TopN(s, key, n)| ==> key(x) <= key(TopN(s, key, n)[i])
  {
    assert x in multiset(s) - multiset(TopN(s, key, n));
  }
}

=== FILE: review_form.dfy ===
/**
 * The review form on the detail page (src/components/reviews/AddReviewForm.js):
 * a rating chosen from a fixed list and a comment that must not be empty.
 */
module ReviewForm {
  import opened Common
  import opened ApiClient
  import opened Ui

  /** The error is the server's `detail` when one is shown, so it has the
      detail's shape: usually text, a list for a validation error. */
  datatype ReviewFormState = ReviewFormState(rating: int, comment: string, error: ErrorDetail, success: string)

  const EmptyCommentMessage := "Komentar tidak boleh kosong."
  const AddedMessage := "Ulasan Anda berhasil ditambahkan!"
  const AddFailedMessage := "Gagal menambahkan ulasan."

  /** The options of the rating selector, in display order. */
  const RatingOptions: seq<int> := [5, 4, 3, 2, 1]

  const Initial := ReviewFormState(5, "", TextDetail(""), "")

  /** `handleSubmit`. Both messages are cleared first. An empty comment sets
      the error and sends nothing. Otherwise the review is posted; success
      resets the form, shows the success message and hands the created
      review to the page, failure shows the server's `detail` when it has a
      non-empty one and a fixed message otherwise. */
  function Submit(f: ReviewFormState, ebookId: string, response: Result<ReviewItem, ApiError>): (r: Step<ReviewFormState>)
    ensures f.comment == "" ==> r.calls == [] && r.effects == []
                                && r.state == f.(error := TextDetail(EmptyCommentMessage), success := "")
    ensures f.comment != "" ==> r.calls == [AddReviewForEbook(ebookId, f.rating, f.comment)]
    ensures f.comment != "" && response.Ok? ==>
              r.state == Initial.(success := AddedMessage) && r.effects == [ReviewAdded(response.value)]
    ensures f.comment != "" && response.Err? ==>
              r.state == f.(error := ErrorText(response.error), success := "") && r.effects == []
  {
    if f.comment == "" then Step(f.(error := TextDetail(EmptyCommentMessage), success := ""), [], [])
    else
      var calls := [AddReviewForEbook(ebookId, f.rating, f.comment)];
      match response
      case Ok(review) => Step(ReviewFormState(5, "", TextDetail(""), AddedMessage), calls, [ReviewAdded(review)])
      case Err(e) => Step(f.(error := ErrorText(e), success := ""), calls, [])
  }

  /** `err.response?.data?.detail || "Gagal menambahkan ulasan."` */
  function ErrorText(e: ApiError): (msg: ErrorDetail)
    ensures msg != TextDetail("")
    ensures DetailTruthy(e.detail) ==> msg == e.detail.value
    ensures !DetailTruthy(e.detail) ==> msg == TextDetail(AddFailedMessage)
  {
    DetailOr(e, AddFailedMessage)
  }

  /** The selector offers exactly the ratings 1 to 5, each once. */
  lemma RatingOptionsAreOneToFive()
    ensures forall n :: n in RatingOptions <==> 1 <= n <= 5
    ensures |RatingOptions| == 5
  {
  }

  /** No submission leaves an error and a success message showing together. */
  lemma MessagesAreExclusive(f: ReviewFormState, ebookId: string, response: Result<ReviewItem, ApiError>)
    ensures Submit(f, ebookId, response).state.error == TextDetail("") || Submit(f, ebookId, response).state.success == ""
  {
  }
}

=== FILE: reviews_router.dfy ===
/**
 * The `/ebooks/{id}/reviews` endpoints (app/routers/reviews.py): a
 * signed-in user reviews an e-book once; anyone lists an e-book's reviews.
 */
module ReviewsRouter {
  import opened Common
  import opened Seqs
  import opened Models
  import opened Schemas
  import opened Http
  import opened Security
  import opened Crud

  /** A review as the response schema shows it: with its author. */
  datatype ReviewOut = ReviewOut(id: nat, rating: int, comment: Option<string>, user: UserOut, timestamp: int)

  const EbookNotFound := Fail(NotFound404, "Ebook not found")
  const AlreadyReviewed := Fail(BadRequest400, "User has already reviewed this ebook")

  /** A stored review rendered for the response: the schema checks the
      rating again and loads the author; either failing is a server
      error. */
  function ReviewReply(db: Store, v: Review): (r: Result<ReviewOut, HttpError>)
    ensures r.Ok? <==> ReviewResponseValid(v) && HasUser(db, v.userId)
    ensures r.Ok? ==> r.value.id == v.id && r.value.rating == v.rating && r.value.comment == v.comment
                      && r.value.timestamp == v.timestamp && r.value.user.id == v.userId
    ensures r.Err? ==> r.error == InternalError
  {
    var authors := Filter(db.users, (u: User) => u.id == v.userId);
    assert |authors| > 0 ==> authors[0] in authors;
    if !ReviewResponseValid(v) || |authors| == 0 then Err(InternalError)
    else Ok(ReviewOut(v.id, v.rating, v.comment, UserResponse(authors[0]), v.timestamp))
  }

  /** A list of reviews rendered one by one; any failure fails the whole
      response with 500. */
  function ReviewReplies(db: Store, vs: seq<Review>): (r: Result<seq<ReviewOut>, HttpError>)
    ensures r.Ok? <==> forall k :: 0 <= k < |vs| ==> ReviewReply(db, vs[k]).Ok?
    ensures r.Ok? ==> |r.value| == |vs| && forall k :: 0 <= k < |vs| ==> r.value[k] == ReviewReply(db, vs[k]).value
    ensures r.Err? ==> r.error == InternalError
  {
    if forall k :: 0 <= k < |vs| ==> ReviewReply(db, vs[k]).Ok? then
      Ok(seq(|vs|, k requires 0 <= k < |vs| => ReviewReply(db, vs[k]).value))
    else Err(InternalError)
  }

  /** `POST /ebooks/{id}/reviews/`: signed-in users only; 201 with the new
      review, or 400 when this user already reviewed this e-book. */
  function CreateReviewForEbook(db: Store, authorization: Option<string>, env: Env, ebookId: int,
                                body: map<string, JsValue>): (r: Outcome<Store, ReviewOut>)
    ensures GetCurrentUser(db, authorization, env.now, env.decode).Err? ==>
              r == Outcome(db, Err(GetCurrentUser(db, authorization, env.now, env.decode).error))
    ensures GetCurrentUser(db, authorization, env.now, env.decode).Ok? && ParseReviewCreate(body).Err? ==>
              r == Outcome(db, Err(Unprocessable(ParseReviewCreate(body).error)))
    ensures GetCurrentUser(db, authorization, env.now, env.decode).Ok? && ParseReviewCreate(body).Ok? ==>
              && (GetEbook(db, ebookId).None? ==> r == Outcome(db, Err(EbookNotFound)))
              && (GetEbook(db, ebookId).Some? &&
                  (exists v :: v in db.reviews && v.userId == GetCurrentUser(db, authorization, env.now, env.decode).value.id
                               && v.ebookId == ebookId) ==>
                    r == Outcome(db, Err(AlreadyReviewed)))
    ensures r.reply.Ok? ==>
              && r.reply.value.status == Created201
              && var u := GetCurrentUser(db, authorization, env.now, env.decode).value;
                 var v := Review(db.next.review, ParseReviewCreate(body).value.rating, ParseReviewCreate(body).value.comment,
                                 u.id, ebookId as nat, env.now);
                 && ebookId >= 0
                 && r.state.reviews == db.reviews + [v]
                 && r.state.(reviews := db.reviews, next := db.next) == db
                 && r.reply.value.body.id == v.id && r.reply.value.body.user.id == u.id
    ensures r.reply.Err? && r.state != db ==>
              && r.reply.error == InternalError
              && var u := GetCurrentUser(db, authorization, env.now, env.decode).value;
                 var v := Review(db.next.review, ParseReviewCreate(body).value.rating, ParseReviewCreate(body).value.comment,
                                 u.id, ebookId as nat, env.now);
                 && ebookId >= 0
                 && r.state.reviews == db.reviews + [v]
                 && r.state.(reviews := db.reviews, next := db.next) == db
  {
    match GetCurrentUser(db, authorization, env.now, env.decode)
    case Err(e) => Outcome(db, Err(e))
    case Ok(u) =>
      match ParseReviewCreate(body)
      case Err(fields) => Outcome(db, Err(Unprocessable(fields)))
      case Ok(review) =>
        match GetEbook(db, ebookId)
        case None => Outcome(db, Err(EbookNotFound))
        case Some(e) =>
          match CreateEbookReview(db, u.id, e.id, review, env.now)
          case Err(_) => Outcome(db, Err(InternalError))
          case Ok(None) => Outcome(db, Err(AlreadyReviewed))
          case Ok(Some((db', v))) =>
            match ReviewReply(db', v)
            case Err(err) => Outcome(db', Err(err))
            case Ok(out) => Outcome(db', Ok(Response(Created201, out)))
  }

  /** `GET /ebooks/{id}/reviews/`: public; the e-book's reviews, at most
      100 of them. */
  function ReadReviewsForEbook(db: Store, ebookId: int): (r: Result<Response<seq<ReviewOut>>, HttpError>)
    ensures GetEbook(db, ebookId).None? ==> r == Err(EbookNotFound)
    ensures r.Ok? ==> r.value.status == Ok200 && |r.value.body| <= DefaultReviewLimit
    ensures r.Ok? ==>
              var mine := ReviewsOf(db, ebookId);
              && |r.value.body| == (if |mine| < DefaultReviewLimit then |mine| else DefaultReviewLimit)
              && forall i :: 0 <= i < |r.value.body| ==> ReviewReply(db, mine[i]) == Ok(r.value.body[i])
    ensures r.Err? && GetEbook(db, ebookId).Some? ==>
              && r.error == InternalError
              && exists i :: 0 <= i < |ReviewsOf(db, ebookId)| && i < DefaultReviewLimit && ReviewReply(db, ReviewsOf(db, ebookId)[i]).Err?
    ensures r.Ok? ==> forall o :: o in r.value.body ==>
              exists v :: v in db.reviews && v.ebookId == ebookId && ReviewReply(db, v) == Ok(o)
  {
    match GetEbook(db, ebookId)
    case None => Err(EbookNotFound)
    case Some(e) =>
      var vs := GetEbookReviews(db, e.id, 0, DefaultReviewLimit);
      match ReviewReplies(db, vs)
      case Err(err) => Err(err)
      case Ok(outs) =>
        forall o | o in outs
          ensures exists v :: v in db.reviews && v.ebookId == ebookId && ReviewReply(db, v) == Ok(o)
        {
          var k :| 0 <= k < |outs| && outs[k] == o;
          assert vs[k] in vs;
        }
        Ok(Response(Ok200, outs))
  }

  // ------------------------------------------------------------ properties

  /** In a valid store listing the reviews of an existing e-book never
      fails. */
  lemma ReadReviewsSucceeds(db: Store, ebookId: int)
    requires Valid(db) && GetEbook(db, ebookId).Some?
    ensures ReadReviewsForEbook(db, ebookId).Ok?
  {
    var vs := GetEbookReviews(db, GetEbook(db, ebookId).value.id, 0, DefaultReviewLimit);
    forall k | 0 <= k < |vs|
      ensures ReviewReply(db, vs[k]).Ok?
    {
      assert vs[k] in vs;
    }
  }

  /** After a user reviews an e-book, a second review from the same user
      for the same e-book is answered 400 and changes nothing. */
  lemma SecondReviewAnswers400(db: Store, authorization: Option<string>, env: Env, ebookId: int,
                               first: map<string, JsValue>, second: map<string, JsValue>)
    requires CreateReviewForEbook(db, authorization, env, ebookId, first).reply.Ok?
    requires ParseReviewCreate(second).Ok?
    ensures var db1 := CreateReviewForEbook(db, authorization, env, ebookId, first).state;
            CreateReviewForEbook(db1, authorization, env, ebookId, second) == Outcome(db1, Err(AlreadyReviewed))
  {
    var db1 := CreateReviewForEbook(db, authorization, env, ebookId, first).state;
    var u := GetCurrentUser(db, authorization, env.now, env.decode).value;
    assert GetCurrentUser(db1, authorization, env.now, env.decode) == GetCurrentUser(db, authorization, env.now, env.decode);
    assert GetEbook(db1, ebookId) == GetEbook(db, ebookId);
    var v := db1.reviews[|db1.reviews| - 1];
    assert v in db1.reviews && v.userId == u.id && v.ebookId == ebookId;
  }

  /** A review just created shows up in the e-book's review list, as long
      as that e-book's list is not cut at 100. */
  lemma CreatedReviewIsListed(db: Store, authorization: Option<string>, env: Env, ebookId: int,
                              body: map<string, JsValue>)
    requires Valid(db) && |ReviewsOf(db, ebookId)| < DefaultReviewLimit
    requires CreateReviewForEbook(db, authorization, env, ebookId, body).reply.Ok?
    ensures var c := CreateReviewForEbook(db, authorization, env, ebookId, body);
            ReadReviewsForEbook(c.state, ebookId).Ok? && c.reply.value.body in ReadReviewsForEbook(c.state, ebookId).value.body
  {
    var c := CreateReviewForEbook(db, authorization, env, ebookId, body);
    var u := GetCurrentUser(db, authorization, env.now, env.decode).value;
    var e := GetEbook(db, ebookId).value;
    var review := ParseReviewCreate(body).value;
    var (db1, v) := CreateEbookReview(db, u.id, e.id, review, env.now).value.value;
    assert c.state == db1 && c.reply.value.body == ReviewReply(db1, v).value;
    CreateReviewKeepsValid(db, authorization, env, ebookId, body);
    assert GetEbook(db1, ebookId) == GetEbook(db, ebookId);
    ReviewsOfAppend(db, v, ebookId);
    assert db1 == db.(reviews := db.reviews + [v], next := db1.next);
    assert ReviewsOf(db1, ebookId) == ReviewsOf(db.(reviews := db.reviews + [v]), ebookId);
    StoredReviewIsListed(db1, ebookId, v);
  }

  /** Every review of an e-book is listed, as long as that e-book has at
      most 100 reviews. */
  lemma StoredReviewIsListed(db: Store, ebookId: int, v: Review)
    requires Valid(db) && |ReviewsOf(db, ebookId)| <= DefaultReviewLimit
    requires GetEbook(db, ebookId).Some? && v in db.reviews && v.ebookId == ebookId
    ensures ReadReviewsForEbook(db, ebookId).Ok?
    ensures ReviewReply(db, v).Ok? && ReviewReply(db, v).value in ReadReviewsForEbook(db, ebookId).value.body
  {
    ReadReviewsSucceeds(db, ebookId);
    var e := GetEbook(db, ebookId).value;
    var vs := GetEbookReviews(db, e.id, 0, DefaultReviewLimit);
    assert vs == ReviewsOf(db, ebookId);
    assert v in vs;
    var k :| 0 <= k < |vs| && vs[k] == v;
    var outs := ReviewReplies(db, vs).value;
    assert outs[k] == ReviewReply(db, v).value;
  }

  lemma CreateReviewKeepsValid(db: Store, authorization: Option<string>, env: Env, ebookId: int, body: map<string, JsValue>)
    requires Valid(db)
    ensures Valid(CreateReviewForEbook(db, authorization, env, ebookId, body).state)
  {
    var c := CreateReviewForEbook(db, authorization, env, ebookId, body);
    if c.reply.Ok? {
      var u := GetCurrentUser(db, authorization, env.now, env.decode).value;
      var review := ParseReviewCreate(body).value;
      var e := GetEbook(db, ebookId).value;
      var created := CreateEbookReview(db, u.id, e.id, review, env.now);
      assert created.Ok? && created.value.Some? && c.state == created.value.value.0;
      CreateEbookReviewKeepsValid(db, u.id, e.id, review, env.now);
    } else {
      assert c.state == db;
    }
  }
}

=== FILE: route_guards.dfy ===
/**
 * The two route guards (src/components/common/ProtectedRoute.js and
 * src/components/common/AdminRoute.js) as decisions over the session state.
 */
module RouteGuards {
  import opened Common
  import opened AuthContext

  datatype Decision = Checking | Redirect(to: string) | Render

  /** `user?.role === "admin"` */
  predicate HasAdminRole(user: Option<Claims>) {
    user.Some? && user.value.role == Some("admin")
  }

  /** ProtectedRoute reads only `isAuthenticated`: signed-out visitors are
      sent to the login page, everyone else sees the page. */
  function ProtectedRoute(s: AuthState): (d: Decision)
    ensures d != Checking
    ensures d == Render <==> IsAuthenticated(s)
    ensures d != Render ==> d == Redirect("/login")
  {
    if !IsAuthenticated(s) then Redirect("/login") else Render
  }

  /** AdminRoute waits for the restore, then sends signed-out visitors to
      the login page and signed-in non-admins (a missing user included) to
      the home page. */
  function AdminRoute(s: AuthState): (d: Decision)
    ensures d == Checking <==> s.loading
    ensures d == Render <==> !s.loading && IsAuthenticated(s) && HasAdminRole(s.user)
    ensures d == Redirect("/login") <==> !s.loading && !IsAuthenticated(s)
    ensures d == Redirect("/") <==> !s.loading && IsAuthenticated(s) && !HasAdminRole(s.user)
  {
    if s.loading then Checking
    else if !IsAuthenticated(s) then Redirect("/login")
    else if !HasAdminRole(s.user) then Redirect("/")
    else Render
  }

  /** ProtectedRoute's decision depends on the token alone: neither the
      loading flag nor the user's role changes it. */
  lemma ProtectedRouteReadsOnlyToken(s: AuthState, t: AuthState)
    requires s.token == t.token
    ensures ProtectedRoute(s) == ProtectedRoute(t)
  {
  }

  /** Both guards render a page for an admin; only ProtectedRoute renders it
      for an ordinary signed-in user. */
  lemma RoleMattersOnlyToAdminRoute(s: AuthState)
    requires IsAuthenticated(s) && !s.loading
    ensures ProtectedRoute(s) == Render
    ensures AdminRoute(s) == Render <==> HasAdminRole(s.user)
  {
  }

  /** At start-up ProtectedRoute never shows a placeholder: a stored token
      renders the page before the restore has run, and without one the
      visitor is sent to the login page at once. */
  lemma ProtectedRouteBeforeRestore(stored: Option<string>)
    ensures Truthy(stored) ==> ProtectedRoute(Mount(stored)) == Render
    ensures !Truthy(stored) ==> ProtectedRoute(Mount(stored)) == Redirect("/login")
  {
  }

  /** Before the restore AdminRoute always shows the placeholder, whatever is
      stored; afterwards it never does. */
  lemma AdminRouteWaitsForRestore(stored: Option<string>, decode: Decoder)
    ensures AdminRoute(Mount(stored)) == Checking
    ensures AdminRoute(Startup(stored, decode)) != Checking
  {
  }

  /** A corrupt stored token leaves a session that counts as signed in but
      has no user: ProtectedRoute renders and AdminRoute sends to the home
      page, not to the login page. */
  lemma CorruptTokenSession(stored: Option<string>, decode: Decoder)
    requires Truthy(stored) && decode(stored.value).None?
    ensures ProtectedRoute(Startup(stored, decode)) == Render
    ensures AdminRoute(Startup(stored, decode)) == Redirect("/")
  {
  }
}

=== FILE: schemas.dfy ===
/**
 * Request validation and response shaping (app/schemas.py, together with
 * the framework's form and JSON field parsing it relies on). A request body
 * that fails validation yields the names of the offending fields, in
 * declaration order; the endpoint answers 422 with them.
 */
module Schemas {
  import opened Common
  import opened Models
  import ApiClient

  type FieldErrors = seq<string>

  // ------------------------------------------------------------ integers

  function DigitValue(c: char): nat
    requires '0' <= c <= '9'
  {
    c as int - '0' as int
  }

  predicate AllDigits(s: string) {
    forall i :: 0 <= i < |s| ==> '0' <= s[i] <= '9'
  }

  /** The value of a run of decimal digits, most significant first. */
  function DigitsValue(s: string): nat
    requires AllDigits(s)
    decreases |s|
  {
    if |s| == 0 then 0 else DigitsValue(s[..|s| - 1]) * 10 + DigitValue(s[|s| - 1])
  }

  /** An integer in canonical decimal form: an optional `-` and at least
      one digit. Anything else, including the empty string, is refused. */
  function ParseInt(s: string): (r: Option<int>)
    ensures s == "" ==> r.None?
    ensures r.Some? && |s| > 0 && s[0] != '-' ==> AllDigits(s) && r.value >= 0
  {
    if |s| > 0 && s[0] == '-' then
      if |s| > 1 && AllDigits(s[1..]) then Some(0 - DigitsValue(s[1..]) as int) else None
    else if |s| > 0 && AllDigits(s) then Some(DigitsValue(s))
    else None
  }

  /** Printing a natural number and parsing it back gives the number. */
  lemma {:induction false} ParseNatToString(n: nat)
    ensures AllDigits(NatToString(n)) && DigitsValue(NatToString(n)) == n
    ensures ParseInt(NatToString(n)) == Some(n)
    decreases n
  {
    var s := NatToString(n);
    if n >= 10 {
      ParseNatToString(n / 10);
      var p := NatToString(n / 10);
      assert s == p + [(n % 10 + 48) as char];
      assert s[..|s| - 1] == p;
    }
  }

  // ------------------------------------------------------------ users

  datatype UserCreate = UserCreate(name: string, email: string, password: string)

  /** What `EmailStr` does with an address: the normalised address, or
      nothing when the address is not valid. */
  type EmailNormaliser = string -> Option<string>

  const PasswordMinLength := 8
  const PasswordMaxLength := 72

  predicate PasswordLengthOk(password: string) {
    PasswordMinLength <= |password| <= PasswordMaxLength
  }

  function StrField(body: map<string, JsValue>, name: string): Option<string> {
    if name in body && body[name].JsStr? then Some(body[name].str) else None
  }

  /** `UserCreate`: a string name, a valid email (stored normalised) and a
      password of 8 to 72 characters. */
  function ParseUserCreate(body: map<string, JsValue>, normalise: EmailNormaliser): (r: Result<UserCreate, FieldErrors>)
    ensures r.Ok? <==>
              && StrField(body, "name").Some?
              && StrField(body, "email").Some? && normalise(StrField(body, "email").value).Some?
              && StrField(body, "password").Some? && PasswordLengthOk(StrField(body, "password").value)
    ensures r.Ok? ==>
              && r.value.name == StrField(body, "name").value
              && r.value.email == normalise(StrField(body, "email").value).value
              && r.value.password == StrField(body, "password").value
    ensures r.Err? ==> |r.error| > 0
  {
    var name := StrField(body, "name");
    var email := StrField(body, "email");
    var normalised := if email.Some? then normalise(email.value) else None;
    var password := StrField(body, "password");
    var errors := (if name.None? then ["name"] else [])
                  + (if normalised.None? then ["email"] else [])
                  + (if password.None? || !PasswordLengthOk(password.value) then ["password"] else []);
    if errors == [] then Ok(UserCreate(name.value, normalised.value, password.value)) else Err(errors)
  }

  /** `UserResponse`: the password hash is never part of it. */
  datatype UserOut = UserOut(id: nat, name: string, email: string, role: string)

  function UserResponse(u: User): (r: UserOut)
    ensures r.id == u.id && r.email == u.email && r.name == u.name
    ensures r.role == "user" || r.role == "admin"
  {
    UserOut(u.id, u.name, u.email, RoleName(u.role))
  }

  datatype Token = Token(accessToken: string, tokenType: string)

  // ------------------------------------------------------------ e-books

  datatype EbookCreate = EbookCreate(title: string, author: Option<string>, description: Option<string>,
                                     publicationYear: Option<int>)

  /** Field `k` of a form is sent under `name` and no later field is. */
  predicate LastSentAt<T>(fields: seq<(string, T)>, name: string, k: int) {
    0 <= k < |fields| && fields[k].0 == name && forall j :: k < j < |fields| ==> fields[j].0 != name
  }

  /** The last field under a name stays the last one when a field under
      another name follows. */
  lemma LastSentAtExtends<T>(fields: seq<(string, T)>, name: string, k: int)
    requires |fields| > 0 && fields[|fields| - 1].0 != name
    requires LastSentAt(fields[..|fields| - 1], name, k)
    ensures LastSentAt(fields, name, k) && fields[k] == fields[..|fields| - 1][k]
  {
    var pre := fields[..|fields| - 1];
    forall j | k < j < |fields|
      ensures fields[j].0 != name
    {
      if j < |pre| {
        assert fields[j] == pre[j];
      }
    }
  }

  /** The last value sent under `name` in a multipart form. */
  function FormGet(parts: seq<(string, ApiClient.Part)>, name: string): (r: Option<ApiClient.Part>)
    ensures r.Some? ==> (name, r.value) in parts
    ensures r.Some? ==> exists k :: LastSentAt(parts, name, k) && parts[k].1 == r.value
    ensures r.None? <==> forall i :: 0 <= i < |parts| ==> parts[i].0 != name
    decreases |parts|
  {
    if |parts| == 0 then None
    else if parts[|parts| - 1].0 == name then
      assert LastSentAt(parts, name, |parts| - 1);
      Some(parts[|parts| - 1].1)
    else
      var pre := parts[..|parts| - 1];
      var r := FormGet(pre, name);
      if r.Some? then
        var k :| LastSentAt(pre, name, k) && pre[k].1 == r.value;
        LastSentAtExtends(parts, name, k);
        assert parts[k] == pre[k];
        r
      else
        assert forall i :: 0 <= i < |pre| ==> parts[i] == pre[i];
        r
  }

  /** Whatever comes before it, the field last sent under a name is the
      one found. */
  lemma {:induction false} FormGetFindsLast(parts: seq<(string, ApiClient.Part)>, name: string, k: int)
    requires LastSentAt(parts, name, k)
    ensures FormGet(parts, name) == Some(parts[k].1)
    decreases |parts|
  {
    if k < |parts| - 1 {
      var pre := parts[..|parts| - 1];
      assert pre[k] == parts[k];
      assert forall j :: k < j < |pre| ==> pre[j] == parts[j];
      FormGetFindsLast(pre, name, k);
    }
  }

  /** A text form field. An empty value counts as not sent, and a file where
      text is expected is invalid. */
  datatype FormText = Missing | Text(text: string) | Wrong

  function FormTextField(parts: seq<(string, ApiClient.Part)>, name: string): FormText {
    var p := FormGet(parts, name);
    if p.None? then Missing
    else if p.value.FilePart? then Wrong
    else if p.value.text == "" then Missing
    else Text(p.value.text)
  }

  function FormFile(parts: seq<(string, ApiClient.Part)>, name: string): Option<ApiClient.FileRef> {
    var p := FormGet(parts, name);
    if p.Some? && p.value.FilePart? then Some(p.value.file) else None
  }

  /** The upload endpoint's form: title and author required, description
      and year optional (an empty value is absent), the year an integer,
      and both files required. */
  datatype UploadForm = UploadForm(ebook: EbookCreate, pdfFile: ApiClient.FileRef, coverImage: ApiClient.FileRef)

  function ParseUploadForm(parts: seq<(string, ApiClient.Part)>): (r: Result<UploadForm, FieldErrors>)
    ensures r.Ok? <==>
              && FormTextField(parts, "title").Text? && FormTextField(parts, "author").Text?
              && !FormTextField(parts, "description").Wrong?
              && (match FormTextField(parts, "publication_year")
                  case Missing => true
                  case Text(t) => ParseInt(t).Some?
                  case Wrong => false)
              && FormFile(parts, "pdf_file").Some? && FormFile(parts, "cover_image").Some?
    ensures r.Ok? ==>
              && r.value.ebook.title == FormTextField(parts, "title").text
              && r.value.ebook.author == Some(FormTextField(parts, "author").text)
              && (FormTextField(parts, "publication_year").Missing? <==> r.value.ebook.publicationYear.None?)
              && (FormTextField(parts, "description").Missing? <==> r.value.ebook.description.None?)
    ensures r.Err? ==> |r.error| > 0
  {
    var title := FormTextField(parts, "title");
    var author := FormTextField(parts, "author");
    var description := FormTextField(parts, "description");
    var year := FormTextField(parts, "publication_year");
    var yearValue := match year
                     case Missing => Some(None)
                     case Text(t) => if ParseInt(t).Some? then Some(Some(ParseInt(t).value)) else None
                     case Wrong => None;
    var pdf := FormFile(parts, "pdf_file");
    var cover := FormFile(parts, "cover_image");
    var errors := (if !title.Text? then ["title"] else [])
                  + (if !author.Text? then ["author"] else [])
                  + (if description.Wrong? then ["description"] else [])
                  + (if yearValue.None? then ["publication_year"] else [])
                  + (if pdf.None? then ["pdf_file"] else [])
                  + (if cover.None? then ["cover_image"] else []);
    if errors != [] then Err(errors)
    else
      var desc := if description.Text? then Some(description.text) else None;
      Ok(UploadForm(EbookCreate(title.text, Some(author.text), desc, yearValue.value), pdf.value, cover.value))
  }

  /** A field of a partial update: left out of the body, or sent (possibly
      as null). Only sent fields are applied. */
  datatype Patch<T> = Unset | SetTo(value: T)

  datatype EbookUpdate = EbookUpdate(
    title: Patch<Option<string>>,
    author: Patch<Option<string>>,
    description: Patch<Option<string>>,
    publicationYear: Patch<Option<int>>)

  const NoChanges := EbookUpdate(Unset, Unset, Unset, Unset)

  /** An optional string field of a JSON body; a number is not a string. */
  function StrPatch(body: map<string, JsValue>, name: string): Option<Patch<Option<string>>> {
    if name !in body then Some(Unset)
    else match body[name]
      case JsNull => Some(SetTo(None))
      case JsStr(s) => Some(SetTo(Some(s)))
      case JsNum(_) => None
  }

  /** An optional integer field of a JSON body; a string must hold an
      integer. */
  function IntPatch(body: map<string, JsValue>, name: string): Option<Patch<Option<int>>> {
    if name !in body then Some(Unset)
    else match body[name]
      case JsNull => Some(SetTo(None))
      case JsNum(n) => Some(SetTo(Some(n)))
      case JsStr(s) => if ParseInt(s).Some? then Some(SetTo(Some(ParseInt(s).value))) else None
  }

  /** `EbookUpdate`: every field optional; unknown keys are ignored. */
  function ParseEbookUpdate(body: map<string, JsValue>): (r: Result<EbookUpdate, FieldErrors>)
    ensures r.Ok? <==>
              StrPatch(body, "title").Some? && StrPatch(body, "author").Some?
              && StrPatch(body, "description").Some? && IntPatch(body, "publication_year").Some?
    ensures r.Ok? ==> r.value == EbookUpdate(StrPatch(body, "title").value, StrPatch(body, "author").value,
                                             StrPatch(body, "description").value,
                                             IntPatch(body, "publication_year").value)
    ensures "publication_year" in body && body["publication_year"] == JsStr("") ==>
              r.Err? && "publication_year" in r.error
  {
    var title := StrPatch(body, "title");
    var author := StrPatch(body, "author");
    var description := StrPatch(body, "description");
    var year := IntPatch(body, "publication_year");
    var errors := (if title.None? then ["title"] else [])
                  + (if author.None? then ["author"] else [])
                  + (if description.None? then ["description"] else [])
                  + (if year.None? then ["publication_year"] else []);
    if errors != [] then Err(errors)
    else Ok(EbookUpdate(title.value, author.value, description.value, year.value))
  }

  /** An empty body is a valid update that changes nothing. */
  lemma EmptyUpdateIsValid()
    ensures ParseEbookUpdate(map[]) == Ok(NoChanges)
  {
  }

  /** The fields an update sets, applied to a row; the others are kept. */
  function ApplyUpdate(e: Ebook, u: EbookUpdate): (r: Result<Ebook, DbError>)
    ensures r.Err? <==> u.title == SetTo(None)
    ensures r.Ok? ==>
              && r.value.id == e.id && r.value.filePath == e.filePath && r.value.coverImagePath == e.coverImagePath
              && r.value.title == (if u.title.SetTo? then u.title.value.value else e.title)
              && r.value.author == (if u.author.SetTo? then u.author.value else e.author)
              && r.value.description == (if u.description.SetTo? then u.description.value else e.description)
              && r.value.publicationYear == (if u.publicationYear.SetTo? then u.publicationYear.value else e.publicationYear)
  {
    if u.title == SetTo(None) then Err(IntegrityError)   // NOT NULL title
    else
      Ok(e.(title := if u.title.SetTo? then u.title.value.value else e.title,
            author := if u.author.SetTo? then u.author.value else e.author,
            description := if u.description.SetTo? then u.description.value else e.description,
            publicationYear := if u.publicationYear.SetTo? then u.publicationYear.value else e.publicationYear))
  }

  /** An update without fields changes nothing, and applying an update a
      second time changes nothing more. */
  lemma ApplyUpdateIdentityAndIdempotent(e: Ebook, u: EbookUpdate)
    ensures ApplyUpdate(e, NoChanges) == Ok(e)
    ensures ApplyUpdate(e, u).Ok? ==> ApplyUpdate(ApplyUpdate(e, u).value, u) == ApplyUpdate(e, u)
  {
  }

  /** `schemas.Ebook`: the public view of a row. The file path is not part
      of it; `categories` lists the linked categories and is empty when
      there are none. */
  datatype EbookOut = EbookOut(
    id: nat,
    title: string,
    author: Option<string>,
    description: Option<string>,
    publicationYear: Option<int>,
    coverImagePath: Option<string>,
    categories: set<Category>)

  function EbookResponse(db: Store, e: Ebook): (r: EbookOut)
    ensures r.id == e.id && r.title == e.title && r.author == e.author && r.description == e.description
    ensures r.publicationYear == e.publicationYear && r.coverImagePath == e.coverImagePath
    ensures forall c :: c in r.categories <==> c in db.categories && EbookCategory(e.id, c.id) in db.links
    ensures (forall l :: l in db.links ==> l.ebookId != e.id) ==> r.categories == {}
  {
    EbookOut(e.id, e.title, e.author, e.description, e.publicationYear, e.coverImagePath,
             set c | c in db.categories && EbookCategory(e.id, c.id) in db.links)
  }

  // ------------------------------------------------------------ reviews

  datatype ReviewCreate = ReviewCreate(rating: int, comment: Option<string>)

  const RatingMin := 1
  const RatingMax := 5

  predicate RatingOk(n: int) {
    RatingMin <= n <= RatingMax
  }

  function RatingField(body: map<string, JsValue>): Option<int> {
    if "rating" !in body then None
    else match body["rating"]
      case JsNum(n) => Some(n)
      case JsStr(s) => ParseInt(s)
      case JsNull => None
  }

  /** `ReviewCreate`: a required integer rating from 1 to 5 and an optional
      comment. */
  function ParseReviewCreate(body: map<string, JsValue>): (r: Result<ReviewCreate, FieldErrors>)
    ensures r.Ok? <==> RatingField(body).Some? && RatingOk(RatingField(body).value) && StrPatch(body, "comment").Some?
    ensures r.Ok? ==> r.value.rating == RatingField(body).value && RatingOk(r.value.rating)
    ensures r.Ok? && "comment" in body && body["comment"].JsStr? ==> r.value.comment == Some(body["comment"].str)
  {
    var rating := RatingField(body);
    var comment := StrPatch(body, "comment");
    var errors := (if rating.None? || !RatingOk(rating.value) then ["rating"] else [])
                  + (if comment.None? then ["comment"] else []);
    if errors != [] then Err(errors)
    else Ok(ReviewCreate(rating.value, if comment.value.SetTo? then comment.value.value else None))
  }

  /** The rating check alone decides a body that carries a numeric rating
      and a text comment. */
  lemma ReviewBodyValidIffRatingInRange(n: int, comment: string)
    ensures ParseReviewCreate(map["rating" := JsNum(n), "comment" := JsStr(comment)]).Ok? <==> 1 <= n <= 5
  {
  }

  /** The response schema of a review checks its rating again. */
  predicate ReviewResponseValid(r: Review) {
    RatingOk(r.rating)
  }

  /** Every stored review passes the response check, so listing reviews
      never fails on output validation. */
  lemma StoredReviewsPassResponseCheck(db: Store)
    requires Valid(db)
    ensures forall r :: r in db.reviews ==> ReviewResponseValid(r)
  {
  }
}

=== FILE: security.dfy ===
/**
 * Authentication of the backend (app/security.py): password hashing, the
 * signed access token, and the two dependencies that turn a request's
 * `Authorization` header into the current user and the current admin.
 *
 * bcrypt and the JWT signature are not modelled: the hash, the password
 * check, the token's encoding and its decoding (which fails on a bad
 * signature) are parameters. The clock is the `now` argument, in whole
 * seconds.
 */
module Security {
  import opened Common
  import opened Models
  import opened Http
  import Crud

  /** A token's claims, as the JSON object inside it. */
  type Claims = map<string, JsValue>

  type TokenEncoder = Claims -> string

  /** Decoding checks the signature against the server's secret and
      algorithm; a token that fails it yields nothing. */
  type TokenDecoder = string -> Option<Claims>

  /** What the server brings to every request: its clock, in whole seconds,
      and its way of decoding tokens. */
  datatype Env = Env(now: int, decode: TokenDecoder)

  /** `ACCESS_TOKEN_EXPIRE_MINUTES` when the environment does not set it. */
  const DefaultExpireMinutes := 30

  /** `create_access_token`: the claims plus an `exp` claim `minutes` from
      now, signed. */
  function AccessTokenClaims(data: Claims, now: int, minutes: int): (c: Claims)
    ensures c.Keys == data.Keys + {"exp"}
    ensures c["exp"] == JsNum(now + 60 * minutes)
    ensures forall k :: k in data && k != "exp" ==> c[k] == data[k]
  {
    data["exp" := JsNum(now + 60 * minutes)]
  }

  function CreateAccessToken(data: Claims, now: int, minutes: int, encode: TokenEncoder): string {
    encode(AccessTokenClaims(data, now, minutes))
  }

  // ------------------------------------------------------------ bearer header

  /** Index of the first space in `h`, or `|h|` when there is none. */
  function FirstSpace(h: string): (k: nat)
    ensures k <= |h|
    ensures k < |h| ==> h[k] == ' '
    ensures forall i :: 0 <= i < k ==> h[i] != ' '
    decreases |h|
  {
    if |h| == 0 || h[0] == ' ' then 0 else 1 + FirstSpace(h[1..])
  }

  /** `str.partition(" ")`: the text before the first space and the text
      after it (empty when there is no space). */
  function Scheme(h: string): string {
    h[..FirstSpace(h)]
  }

  function Param(h: string): string {
    var k := FirstSpace(h);
    if k < |h| then h[k + 1..] else ""
  }

  const NotAuthenticated := HttpError(Unauthorized401, Message("Not authenticated"), true)

  /** `OAuth2PasswordBearer`: the token of an `Authorization` header whose
      scheme is `bearer` in any case; otherwise 401 "Not authenticated". */
  function BearerToken(authorization: Option<string>): (r: Result<string, HttpError>)
    ensures r.Ok? <==> Truthy(authorization) && Lower(Scheme(authorization.value)) == "bearer"
    ensures r.Ok? ==> r.value == Param(authorization.value)
    ensures r.Err? ==> r.error == NotAuthenticated
  {
    if Truthy(authorization) && Lower(Scheme(authorization.value)) == "bearer" then Ok(Param(authorization.value))
    else Err(NotAuthenticated)
  }

  /** The header the client sends gives back exactly the token it holds. */
  lemma BearerHeaderRoundTrip(token: string)
    ensures BearerToken(Some("Bearer " + token)) == Ok(token)
  {
    var h := "Bearer " + token;
    assert forall i :: 0 <= i < 6 ==> h[i] != ' ';
    assert FirstSpace(h) == 6 by {
      assert h[6] == ' ';
      FirstSpaceAt(h, 6);
    }
    assert Scheme(h) == "Bearer";
    assert Lower("Bearer") == "bearer";
    assert h[7..] == token;
  }

  lemma FirstSpaceAt(h: string, k: nat)
    requires k < |h| && h[k] == ' ' && forall i :: 0 <= i < k ==> h[i] != ' '
    ensures FirstSpace(h) == k
  {
  }

  // ------------------------------------------------------------ current user

  const CredentialsError := HttpError(Unauthorized401, Message("Could not validate credentials"), true)

  /** The registered claims the decoder checks on its own: an `exp` claim
      must be an integer not before now, and a `sub` claim must be a
      string. */
  predicate ClaimsAccepted(claims: Claims, now: int) {
    && ("exp" in claims ==> claims["exp"].JsNum? && claims["exp"].num >= now)
    && ("sub" in claims ==> claims["sub"].JsStr?)
  }

  /** `get_current_user`: the user whose email is the token's subject; any
      failure along the way is the same 401 with a bearer challenge. */
  function GetCurrentUser(db: Store, authorization: Option<string>, now: int, decode: TokenDecoder): (r: Result<User, HttpError>)
    ensures BearerToken(authorization).Err? ==> r == Err(NotAuthenticated)
    ensures r.Err? ==> r.error == NotAuthenticated || r.error == CredentialsError
    ensures r.Ok? <==>
              && BearerToken(authorization).Ok?
              && decode(BearerToken(authorization).value).Some?
              && var claims := decode(BearerToken(authorization).value).value;
                 && ClaimsAccepted(claims, now) && "sub" in claims
                 && Crud.GetUserByEmail(db, claims["sub"].str).Some?
    ensures r.Ok? ==> r.value in db.users
                      && r.value.email == decode(BearerToken(authorization).value).value["sub"].str
  {
    match BearerToken(authorization)
    case Err(e) => Err(e)
    case Ok(token) =>
      match decode(token)
      case None => Err(CredentialsError)
      case Some(claims) =>
        if !ClaimsAccepted(claims, now) || "sub" !in claims then Err(CredentialsError)
        else
          match Crud.GetUserByEmail(db, claims["sub"].str)
          case None => Err(CredentialsError)
          case Some(u) => Ok(u)
  }

  const AdminRequired := Fail(Forbidden403, "Operation not permitted, requires admin role.")

  /** `get_current_admin_user`: the current user when an admin, else 403;
      authentication failures come first. */
  function GetCurrentAdminUser(db: Store, authorization: Option<string>, now: int, decode: TokenDecoder): (r: Result<User, HttpError>)
    ensures GetCurrentUser(db, authorization, now, decode).Err? ==> r == GetCurrentUser(db, authorization, now, decode)
    ensures GetCurrentUser(db, authorization, now, decode).Ok? ==>
              if GetCurrentUser(db, authorization, now, decode).value.role == AdminRole
              then r == GetCurrentUser(db, authorization, now, decode)
              else r == Err(AdminRequired)
    ensures r.Ok? ==> r.value.role == AdminRole && r.value in db.users
  {
    match GetCurrentUser(db, authorization, now, decode)
    case Err(e) => Err(e)
    case Ok(u) => if RoleName(u.role) != "admin" then Err(AdminRequired) else Ok(u)
  }

  /** Authentication looks at the users table only: stores that agree on
      their users authenticate every request alike. */
  lemma AuthenticationReadsOnlyUsers(db: Store, db': Store, authorization: Option<string>, now: int, decode: TokenDecoder)
    requires db'.users == db.users
    ensures GetCurrentUser(db', authorization, now, decode) == GetCurrentUser(db, authorization, now, decode)
    ensures GetCurrentAdminUser(db', authorization, now, decode) == GetCurrentAdminUser(db, authorization, now, decode)
  {
    forall email: string
      ensures Crud.GetUserByEmail(db', email) == Crud.GetUserByEmail(db, email)
    {
    }
  }

  // ------------------------------------------------------------ tokens and users

  /** The claims of the token issued at login. */
  function LoginClaims(u: User): Claims {
    map["sub" := JsStr(u.email), "role" := JsStr(RoleName(u.role))]
  }

  /** A token issued to a stored user at `issued` authenticates that user,
      sent as bearer credentials, at every moment up to its expiry and at
      none after it; provided decoding undoes encoding. */
  lemma IssuedTokenAuthenticatesUntilExpiry(db: Store, u: User, issued: int, minutes: int, later: int,
                                            encode: TokenEncoder, decode: TokenDecoder)
    requires Valid(db) && u in db.users
    requires decode(encode(AccessTokenClaims(LoginClaims(u), issued, minutes))) == Some(AccessTokenClaims(LoginClaims(u), issued, minutes))
    ensures var header := Some("Bearer " + CreateAccessToken(LoginClaims(u), issued, minutes, encode));
            && (later <= issued + 60 * minutes ==> GetCurrentUser(db, header, later, decode) == Ok(u))
            && (later > issued + 60 * minutes ==> GetCurrentUser(db, header, later, decode) == Err(CredentialsError))
  {
    var token := CreateAccessToken(LoginClaims(u), issued, minutes, encode);
    BearerHeaderRoundTrip(token);
    Crud.GetUserByEmailFindsOwner(db, u);
  }

  /** Only an admin's token passes the admin gate: the role claim in the
      token is not what decides, the stored row is. */
  lemma AdminGateFollowsStoredRole(db: Store, u: User, issued: int, minutes: int, later: int,
                                   encode: TokenEncoder, decode: TokenDecoder)
    requires Valid(db) && u in db.users && later <= issued + 60 * minutes
    requires decode(encode(AccessTokenClaims(LoginClaims(u), issued, minutes))) == Some(AccessTokenClaims(LoginClaims(u), issued, minutes))
    ensures var header := Some("Bearer " + CreateAccessToken(LoginClaims(u), issued, minutes, encode));
            GetCurrentAdminUser(db, header, later, decode).Ok? <==> u.role == AdminRole
  {
    IssuedTokenAuthenticatesUntilExpiry(db, u, issued, minutes, later, encode, decode);
  }
}

=== FILE: seqs.dfy ===
/**
 * Sequence vocabulary for the backend's tables and queries: a filter (a
 * `WHERE` clause), a count, ascending keys (an auto-increment primary key),
 * and an `OFFSET … LIMIT …` window.
 */
module Seqs {

  /** The elements of `s` that satisfy `keep`, in their original order. */
  function Filter<T(!new)>(s: seq<T>, keep: T -> bool): (r: seq<T>)
    ensures |r| <= |s|
    ensures forall x :: x in r <==> x in s && keep(x)
    ensures forall i :: 0 <= i < |r| ==> keep(r[i])
    ensures (forall i :: 0 <= i < |s| ==> keep(s[i])) ==> r == s
    decreases |s|
  {
    if |s| == 0 then []
    else
      var rest := Filter(s[1..], keep);
      assert s == [s[0]] + s[1..];
      if keep(s[0]) then [s[0]] + rest else rest
  }

  /** Filtering distributes over concatenation. */
  lemma {:induction false} FilterAppend<T(!new)>(a: seq<T>, b: seq<T>, keep: T -> bool)
    ensures Filter(a + b, keep) == Filter(a, keep) + Filter(b, keep)
    decreases |a|
  {
    if |a| == 0 {
      assert a + b == b;
    } else {
      assert (a + b)[0] == a[0];
      assert (a + b)[1..] == a[1..] + b;
      FilterAppend(a[1..], b, keep);
    }
  }

  /** A predicate and its complement split a sequence into two filters that
      together hold every element exactly as often as before. */
  lemma {:induction false} FilterPartition<T(!new)>(s: seq<T>, p: T -> bool, q: T -> bool)
    requires forall x :: q(x) == !p(x)
    ensures multiset(Filter(s, p)) + multiset(Filter(s, q)) == multiset(s)
    decreases |s|
  {
    if |s| > 0 {
      FilterPartition(s[1..], p, q);
      assert s == [s[0]] + s[1..];
      assert multiset(s) == multiset{s[0]} + multiset(s[1..]);
      if p(s[0]) {
        assert multiset(Filter(s, p)) == multiset{s[0]} + multiset(Filter(s[1..], p));
        assert Filter(s, q) == Filter(s[1..], q);
      } else {
        assert Filter(s, p) == Filter(s[1..], p);
        assert multiset(Filter(s, q)) == multiset{s[0]} + multiset(Filter(s[1..], q));
      }
    }
  }

  /** Two sequences holding the same multiset hold the same elements. */
  lemma SameMultisetSameMembers<T>(a: seq<T>, b: seq<T>)
    requires multiset(a) == multiset(b)
    ensures forall x :: x in a <==> x in b
  {
    forall x
      ensures x in a <==> x in b
    {
      assert x in a <==> x in multiset(a);
      assert x in b <==> x in multiset(b);
    }
  }

  /** How many elements of `s` satisfy `p` (`COUNT(*) … WHERE p`). */
  function Count<T(!new)>(s: seq<T>, p: T -> bool): (n: nat)
    ensures n <= |s|
    ensures n == 0 <==> forall x :: x in s ==> !p(x)
  {
    var r := Filter(s, p);
    assert |r| > 0 ==> r[0] in r;
    |r|
  }

  /** Appending one element adds one to the count exactly when it
      satisfies the predicate. */
  lemma CountAppend<T(!new)>(s: seq<T>, x: T, p: T -> bool)
    ensures Count(s + [x], p) == Count(s, p) + (if p(x) then 1 else 0)
  {
    FilterAppend(s, [x], p);
    assert Filter([x], p) == (if p(x) then [x] else []) by {
      assert [x][1..] == [];
    }
  }

  /** Keys strictly ascend along the sequence and all lie below `next`, the
      value the next insertion will receive. */
  predicate KeysAscending<T>(s: seq<T>, key: T -> nat, next: nat) {
    && (forall i, j :: 0 <= i < j < |s| ==> key(s[i]) < key(s[j]))
    && (forall i :: 0 <= i < |s| ==> key(s[i]) < next)
  }

  /** Appending a row carrying the next key keeps keys ascending, with the
      counter moved on by one. */
  lemma AppendFreshKey<T>(s: seq<T>, x: T, key: T -> nat, next: nat)
    requires KeysAscending(s, key, next) && key(x) == next
    ensures KeysAscending(s + [x], key, next + 1)
  {
    assert forall i :: 0 <= i < |s| ==> (s + [x])[i] == s[i];
  }

  /** Removing rows keeps the remaining keys ascending. */
  lemma {:induction false} FilterKeepsKeysAscending<T(!new)>(s: seq<T>, keep: T -> bool, key: T -> nat, next: nat)
    requires KeysAscending(s, key, next)
    ensures KeysAscending(Filter(s, keep), key, next)
    decreases |s|
  {
    if |s| > 0 {
      FilterKeepsKeysAscending(s[1..], keep, key, next);
      var rest := Filter(s[1..], keep);
      forall x | x in rest
        ensures key(s[0]) < key(x)
      {
        var k :| 0 <= k < |s[1..]| && s[1..][k] == x;
        assert s[k + 1] == x;
      }
    }
  }

  /** Distinct keys mean distinct rows: two rows with one key are one row. */
  lemma AscendingKeysIdentify<T>(s: seq<T>, key: T -> nat, next: nat, i: nat, j: nat)
    requires KeysAscending(s, key, next) && i < |s| && j < |s| && key(s[i]) == key(s[j])
    ensures i == j
  {
  }

  /** The `OFFSET skip LIMIT limit` window of `s`: the contiguous run that
      starts `skip` rows in and holds at most `limit` rows. */
  function Window<T>(s: seq<T>, skip: nat, limit: nat): (r: seq<T>)
    ensures |r| == (if skip >= |s| then 0 else if |s| - skip < limit then |s| - skip else limit)
    ensures forall i :: 0 <= i < |r| ==> r[i] == s[skip + i]
  {
    var lo := if skip < |s| then skip else |s|;
    var hi := if lo + limit < |s| then lo + limit else |s|;
    s[lo..hi]
  }

  /** A window draws its elements from the sequence. */
  lemma WindowDrawsFromInput<T>(s: seq<T>, skip: nat, limit: nat)
    ensures forall x :: x in Window(s, skip, limit) ==> x in s
  {
    var r := Window(s, skip, limit);
    forall x | x in r
      ensures x in s
    {
      var i :| 0 <= i < |r| && r[i] == x;
      assert s[skip + i] == x;
    }
  }

  /** A relation that holds between every earlier and later element still
      holds inside a window. */
  lemma WindowKeepsPairwise<T>(s: seq<T>, skip: nat, limit: nat, rel: (T, T) -> bool)
    requires forall i, j :: 0 <= i < j < |s| ==> rel(s[i], s[j])
    ensures var r := Window(s, skip, limit);
            forall i, j :: 0 <= i < j < |r| ==> rel(r[i], r[j])
  {
    var r := Window(s, skip, limit);
    forall i, j | 0 <= i < j < |r|
      ensures rel(r[i], r[j])
    {
      assert r[i] == s[skip + i] && r[j] == s[skip + j];
    }
  }

  /** The first `n` elements, or all of them when there are fewer. */
  function Take<T>(s: seq<T>, n: nat): (r: seq<T>)
    ensures |r| == (if n < |s| then n else |s|)
    ensures forall i :: 0 <= i < |r| ==> r[i] == s[i]
  {
    Window(s, 0, n)
  }
}

=== FILE: theme_context.dfy ===
/**
 * The light/dark presentation preference (src/context/ThemeContext.js): a
 * theme value, the storage slot `theme` that persists it, and the class
 * list of the document body that shows it.
 */
module ThemeContext {
  import opened Common

  datatype ThemeState = ThemeState(theme: string, storedTheme: Option<string>, bodyClasses: set<string>)

  function ModeClass(theme: string): string {
    theme + "-mode"
  }

  /** The initial theme: the stored value when it is truthy, else "light". */
  function InitialTheme(stored: Option<string>): (t: string)
    ensures t != ""
    ensures Truthy(stored) ==> t == stored.value
    ensures !Truthy(stored) ==> t == "light"
  {
    if Truthy(stored) then stored.value else "light"
  }

  /** `toggleTheme`: "light" becomes "dark", anything else becomes "light". */
  function Toggle(theme: string): (t: string)
    ensures t == "light" || t == "dark"
    ensures t == "dark" <==> theme == "light"
  {
    if theme == "light" then "dark" else "light"
  }

  /** The effect run after every change of theme: drop both mode classes,
      add the current one, and persist the theme. */
  function ApplyTheme(s: ThemeState): (r: ThemeState)
    ensures r.theme == s.theme && r.storedTheme == Some(s.theme)
    ensures ModeClass(s.theme) in r.bodyClasses
    ensures forall c :: c in r.bodyClasses && c in {"light-mode", "dark-mode"} ==> c == ModeClass(s.theme)
    ensures forall c :: c != ModeClass(s.theme) && c != "light-mode" && c != "dark-mode" ==>
              (c in r.bodyClasses <==> c in s.bodyClasses)
  {
    s.(storedTheme := Some(s.theme),
       bodyClasses := s.bodyClasses - {"light-mode", "dark-mode"} + {ModeClass(s.theme)})
  }

  /** The provider's first render followed by its effect. */
  function Start(stored: Option<string>, body: set<string>): ThemeState {
    ApplyTheme(ThemeState(InitialTheme(stored), stored, body))
  }

  /** A click on the toggle followed by the effect. */
  function ToggleTheme(s: ThemeState): ThemeState {
    ApplyTheme(s.(theme := Toggle(s.theme)))
  }

  /** Storage and body agree with the theme: the stored theme is the
      current one, and of the two mode classes the body carries only the
      current theme's. */
  predicate Synchronised(s: ThemeState) {
    && s.storedTheme == Some(s.theme)
    && ModeClass(s.theme) in s.bodyClasses
    && (forall c :: c in s.bodyClasses && c in {"light-mode", "dark-mode"} ==> c == ModeClass(s.theme))
  }

  /** Synchronisation holds after start-up and after every toggle. */
  lemma SynchronisedIsInvariant(stored: Option<string>, body: set<string>, s: ThemeState)
    ensures Synchronised(Start(stored, body))
    ensures Synchronised(ToggleTheme(s))
  {
  }

  /** Toggling twice returns to the start on the two themes the toggle
      produces; after one toggle the theme is always one of them. */
  lemma ToggleTwiceIsIdentity(theme: string)
    ensures theme in {"light", "dark"} ==> Toggle(Toggle(theme)) == theme
    ensures Toggle(Toggle(Toggle(theme))) == Toggle(theme)
  {
  }

  /** A stored theme other than light or dark leaves its mode class on the
      body after a toggle, since the effect removes only the two known mode
      classes. */
  lemma ForeignThemeClassSurvivesToggle(body: set<string>)
    ensures "blue-mode" in ToggleTheme(Start(Some("blue"), body)).bodyClasses
    ensures ToggleTheme(Start(Some("blue"), body)).theme == "light"
  {
    var s := Start(Some("blue"), body);
    assert s.theme == "blue";
    assert ModeClass("blue") == "blue-mode";
    assert "blue-mode" in s.bodyClasses;
    assert "blue-mode" != ModeClass(Toggle(s.theme)) by {
      assert ModeClass(Toggle(s.theme)) == "light-mode";
      assert "blue-mode"[0] != "light-mode"[0];
    }
    assert "blue-mode"[0] != "dark-mode"[0];
  }
}

=== FILE: ui.dfy ===
/**
 * What a client controller can do besides changing its own state: issue
 * gateway calls and ask the browser for navigation, dialogs or windows.
 * Each controller step returns its new state together with these, so "no
 * call is issued" is a plain statement about a sequence.
 */
module Ui {
  import opened Common
  import opened ApiClient

  datatype Effect =
    | Navigate(to: string, message: Option<string>)   // react-router navigate()
    | NavigateAfter(to: string, delayMs: nat)          // navigate() inside setTimeout
    | Alert(text: string)                              // window.alert
    | OpenWindow(url: string, target: string)          // window.open
    | ReviewAdded(review: ReviewItem)                  // the onReviewAdded callback

  /** What `{error && <p className="error-message">{error}</p>}` shows. */
  datatype ErrorView =
    | NoMessage              // a falsy error renders nothing
    | Message(text: string)  // a non-empty string renders as the paragraph's text
    | EmptyMessage           // an empty list is truthy and renders an empty paragraph
    | RenderThrows           // a plain object is not a valid React child

  /** Rendering a form's error. A string renders as text; a list renders its
      items, and the items of a validation error are objects, so React
      throws as soon as the list has one. */
  function RenderError(error: ErrorDetail): (v: ErrorView)
    ensures v == RenderThrows <==> error.ValidationErrors? && |error.messages| > 0
    ensures v == NoMessage <==> error == TextDetail("")
    ensures v.Message? ==> error == TextDetail(v.text)
  {
    match error
    case TextDetail(text) => if text == "" then NoMessage else Message(text)
    case ValidationErrors(messages) => if |messages| == 0 then EmptyMessage else RenderThrows
  }

  /** One controller step: the state after it, the gateway calls it awaited
      in order, and the browser effects it requested in order. */
  datatype Step<S> = Step(state: S, calls: seq<ApiCall>, effects: seq<Effect>)
}

=== FILE: upload_form.dfy ===
/**
 * The e-book upload form (src/components/ebook/EbookUploadForm.js): check
 * the required fields locally, send a multipart form, and return to the
 * catalogue list after a success.
 */
module UploadForm {
  import opened Common
  import opened ApiClient
  import opened Ui

  datatype UploadState = UploadState(
    title: string,
    author: string,
    description: string,
    publicationYear: string,   // the text of a number input
    pdfFile: Option<FileRef>,
    coverImage: Option<FileRef>,
    error: string,
    success: string,
    isUploading: bool)

  const MissingFieldsMessage := "Judul, Penulis, File PDF, dan Gambar Sampul wajib diisi."
  const UploadedMessage := "E-book berhasil diunggah! Anda akan diarahkan kembali."
  const UploadFailedMessage := "Gagal mengunggah e-book. Silakan coba lagi."

  const Initial := UploadState("", "", "", "", None, None, "", "", false)

  /** The names of the parts the form sends, in order. */
  const PartNames := ["title", "author", "description", "publication_year", "pdf_file", "cover_image"]

  /** Title, author, PDF and cover must be present; description and year
      may be empty. */
  predicate Complete(f: UploadState) {
    f.title != "" && f.author != "" && f.pdfFile.Some? && f.coverImage.Some?
  }

  /** The form data assembled from the fields. */
  function FormParts(f: UploadState): (parts: seq<(string, Part)>)
    requires f.pdfFile.Some? && f.coverImage.Some?
    ensures |parts| == |PartNames|
    ensures forall i :: 0 <= i < |parts| ==> parts[i].0 == PartNames[i]
    ensures parts[0].1 == TextPart(f.title) && parts[1].1 == TextPart(f.author)
    ensures parts[2].1 == TextPart(f.description) && parts[3].1 == TextPart(f.publicationYear)
    ensures parts[4].1 == FilePart(f.pdfFile.value) && parts[5].1 == FilePart(f.coverImage.value)
  {
    [("title", TextPart(f.title)), ("author", TextPart(f.author)),
     ("description", TextPart(f.description)), ("publication_year", TextPart(f.publicationYear)),
     ("pdf_file", FilePart(f.pdfFile.value)), ("cover_image", FilePart(f.coverImage.value))]
  }

  /** `handleSubmit`. An incomplete form sets the error and sends nothing
      (the previous success message is left as it was). A complete one
      clears both messages, uploads, and then shows the success message and
      schedules the return to the list, or shows the failure message. The
      upload flag is off after every attempt. */
  function Submit(f: UploadState, response: Result<(), ApiError>): (r: Step<UploadState>)
    ensures !Complete(f) ==> r.calls == [] && r.effects == [] && r.state == f.(error := MissingFieldsMessage)
    ensures Complete(f) ==> r.calls == [UploadEbook(FormParts(f))]
    ensures Complete(f) && response.Ok? ==>
              r.state.success == UploadedMessage && r.state.error == ""
              && r.effects == [NavigateAfter("/admin/ebooks", 2000)]
    ensures Complete(f) && response.Err? ==>
              r.state.error == UploadFailedMessage && r.state.success == "" && r.effects == []
    ensures Complete(f) ==> !r.state.isUploading
    ensures r.state.(error := f.error, success := f.success, isUploading := f.isUploading) == f
  {
    if !Complete(f) then Step(f.(error := MissingFieldsMessage), [], [])
    else
      var calls := [UploadEbook(FormParts(f))];
      if response.Ok? then
        Step(f.(error := "", success := UploadedMessage, isUploading := false), calls,
             [NavigateAfter("/admin/ebooks", 2000)])
      else
        Step(f.(error := UploadFailedMessage, success := "", isUploading := false), calls, [])
  }

  /** Description and year play no part in validation: two forms that
      differ only in them are both sent or both held back. */
  lemma OptionalFieldsDoNotBlockSubmit(f: UploadState, description: string, year: string,
                                       response: Result<(), ApiError>)
    ensures Submit(f, response).calls == [] <==>
            Submit(f.(description := description, publicationYear := year), response).calls == []
  {
  }

  /** A form missing any of title, author, PDF or cover never reaches the
      gateway. */
  lemma MissingRequiredFieldSendsNothing(f: UploadState, response: Result<(), ApiError>)
    requires f.title == "" || f.author == "" || f.pdfFile.None? || f.coverImage.None?
    ensures Submit(f, response).calls == []
    ensures Submit(f, response).state.error == MissingFieldsMessage
  {
  }
}
